=== FILE: README.md ===
# Rich Aroma OS: a Dafny model of the café backend

Rich Aroma OS runs a café. This project models its backend in Dafny and proves properties of the model. The backend has three parts.

- **server.js** is the Express server that keeps its data in JSON files. It handles:
  - orders numbered `ORD-0001`, `ORD-0002`, …;
  - loyalty customers numbered `C001`, … with a bronze, silver or gold tier worked out from their points;
  - the Rico Balance stored-value wallet (a load earns a 10% bonus, a payment never overdraws);
  - waste logging against inventory;
  - content-creator submissions, whose approvals earn points and, at three approvals, a `RICO-` discount code;
  - discount-code validation and use.
- **The serverless handlers under `api/`** share one hosted database:
  - the orders endpoint, and the combined store endpoint;
  - receipt upload, refused when the reference or the image was used before;
  - founder-ticket reservations, limited to 50 VIPs;
  - the live-drop sale, paid from membership credit first and then from cash;
  - the Valentine art campaign;
  - sign-up and login by phone and PIN or by email and password;
  - the grouped menu;
  - the founders ledger, with its admin actions. `tools/founders_api_v2.js` has a second copy of these.
- **The opening-week simulation** (`simulation/opening_week_sim.py`):
  - its customers may buy a 500-credit membership and may take part in a content challenge;
  - its orders are paid from rico cash first.

How the model is laid out:

- **Data.** Each JSON file or database table is a sequence of records held by a class:
  - `ServerData.DataDir` for server.js;
  - `StoreDb.Db` for the hosted database.
- **Handlers.** Each handler is a module-level method that takes the `DataDir` or `Db` instance it works on. Its `modifies` clause names the tables of that instance it writes. Its `ensures` clauses state the reply and the new tables.
- **Invariant.** `StoreDb.Db.Valid` is the uniqueness the handlers' duplicate checks are there to keep:
  - customer ids are unique, and so are non-empty phones;
  - receipt references are unique, and so are image hashes;
  - each order id spells its own order number;
  - founder ids come from a serial.

  Every store handler is proved to preserve `Valid`.
- **Store semantics.** PostgREST's `.single()` is modelled exactly: it returns a row only when exactly one row matches. `Seqs.SingleOfUnique` shows that under the uniqueness invariant this means "the row exists".
- **Inputs from outside.** Random draws, clocks, generated ids and the MD5 digest are parameters. A store call that can report an error is a `fault` parameter.
- **The simulation.** Its customers and orders are classes whose methods update their fields, as the Python does.

Dafny files:

- shared pieces: `common.dfy`, `text.dfy`, `seqs.dfy`, `numbering.dfy`, `json.dfy`, `loyalty.dfy`;
- server.js: `server_data.dfy`, `server_orders.dfy`, `server_customers.dfy`, `rico_wallet.dfy`, `inventory.dfy`, `creators.dfy`;
- the hosted-database handlers: `store_db.dfy`, `live_drop.dfy`, `orders_api.dfy`, `receipts.dfy`, `reserve.dfy`, `campaign.dfy`, `auth.dfy`, `menu.dfy`, `store_api.dfy`, `founders.dfy`;
- the simulation: `simulation.dfy`.

## Model

| member | source | states |
|---|---|---|
| Text.DigitsOnly | api/reserve.js:22 | `replace(/\D/g, '')`: the result holds only digits and is no longer than the input |
| Text.DigitsOnlyKeepsDigits | api/reserve.js:22 | A character is in the cleaned phone exactly when it is a digit of the input |
| Text.DigitsOnlyIdempotent | api/admin/verify-founder.js:31 | Cleaning a phone that was stored cleaned changes nothing |
| Text.DigitsOnlyConcat | api/reserve.js:22 | Cleaning a phone works piece by piece: the digits of both parts, in order |
| Text.ValueOfDecimal | api/auth.js:43-44 | Reading back the decimal text of `n` gives `n` |
| Text.PadStart | server.js:51 | `padStart`: the length is the larger of the text's length and the width, the text ends the result, and the fill comes before it |
| Text.ParseIntOfDigits | api/auth.js:43 | `parseInt` of a non-empty digit string is its value |
| Text.ParseInt | api/auth.js:43 | `parseInt` gives a number exactly when the text starts with a digit, and NaN otherwise |
| Text.Upper | server.js:459 | `toUpperCase`: same length, no lower-case letter left, every other character kept |
| Text.Lower | api/auth.js:24 | `toLowerCase`: same length, no upper-case letter left, every other character kept |
| Text.UpperOfLower | server.js:459 | Upper-casing a lower-cased code gives the same result as upper-casing it directly |
| Text.Capitalize | api/menu.js:24 | The first character is upper-cased and the rest is kept |
| Text.FirstWord | server.js:426 | `split(' ')[0]`: the prefix of the name up to its first space, with no space in it |
| Text.Take | server.js:426 | `slice(0, k)`: the first `min(len, k)` characters |
| Json.ToNumber | server.js:150 | `Number()`: an object is NaN, text that does not start with a digit is NaN, and text is never read as a negative number |
| Json.ToNumberOfDecimal | server.js:194-196 | A number sent as its decimal text is read back as that number |
| Loyalty.TierOf | server.js:194-196 | The tier is gold from 1500 points and silver from 500. Each tier's points lie between its threshold and the next tier's |
| Loyalty.TierMonotone | server.js:194-196 | More points never give a lower tier |
| Loyalty.TierNameInjective | server.js:194-196 | The stored tier string determines the tier |
| Numbering.PaddedParts | server.js:51 | A padded id is the prefix, then at least `width` digits whose value is the number |
| Numbering.PaddedInjective | server.js:51 | Two different numbers never get the same padded id under one prefix and width |
| Numbering.ParsePaddedSuffix | api/auth.js:43 | `parseInt` of a padded id's suffix reads its number back |
| Numbering.OrderIdSpells | api/orders.js:36 | `ORD-` and four digits below 10000, more from 10000 on, whose value is the order number |
| Numbering.OrderIdInjective | api/orders.js:36 | Different order numbers never spell the same id |
| Numbering.CustomerIdSpells | server.js:175 | `C` and three digits below 1000, more from 1000 on, whose value is the customer number |
| Numbering.CustomerIdInjective | server.js:175 | Different customer numbers never spell the same id |
| Numbering.ParseCustomerId | api/auth.js:43 | Reading the number after the `C` gives back the customer number |
| Numbering.FounderTicketSpells | api/admin.js:25 | `RA-F` and three digits below 1000, more from 1000 on, whose value is the number |
| Numbering.FirstCustomerId | api/auth.js:43-44 | The first customer is `C001` |
| Numbering.LexTotal | api/auth.js:42 | Text order puts any two different ids in one order or the other |
| Numbering.LexTransitive | api/auth.js:42 | Text order is transitive |
| Numbering.GreatestId | api/auth.js:42 | `order('id', desc).limit(1)` returns one of the ids |
| Numbering.GreatestIdIsGreatest | api/auth.js:42 | No id sorts after the one returned |
| Numbering.NextCustomerIdAsWritten | api/auth.js:42-44 | The next id as written: `parseInt` of the text-greatest id's suffix, plus one |
| Numbering.AsWrittenReissuesId | api/auth.js:42-44 | Given ids C999 and C1000, the next id as written is C1000, which is already in use |
| Numbering.MaxSuffix | api/auth.js:43 | The greatest number any id carries |
| Numbering.NextCustomerId | api/auth.js:42-44 | Corrected next id: never an id already in use; `C001` for an empty table |
| Seqs.FindIndex | server.js:164 | `find`: the first index whose element matches; none only when nothing matches |
| Seqs.FilterKeeps | server.js:334-336 | Every element that passes the test is kept by the filter |
| Seqs.FilterAppend | api/admin.js:16-17 | Filtering a list with one more element keeps that element exactly when it passes the test |
| Seqs.FilterMultiset | api/admin.js:16-17 | The filter keeps every copy of an element that passes the test and no copy of one that fails it |
| Seqs.Filter | server.js:334-336 | `filter`: only matching elements of the input, no more than the input |
| Seqs.Single | api/auth.js:20 | `.single()`: a row exactly when one row matches, and that row matches |
| Seqs.SingleOfUnique | api/reserve.js:25 | Where at most one row can match, `.single()` finds a row exactly when one exists, and finds that row |
| Seqs.UpdateWhere | api/live/pay.js:59-65 | `.update().eq()`: the same number of rows; the matching rows are rewritten and the others kept |
| Seqs.DeleteWhere | api/admin.js:35 | `.delete().eq()`: exactly the rows that do not match remain |
| Seqs.DeleteWhereDistinct | api/admin.js:35 | A delete keeps distinct keys distinct |
| Seqs.SortDesc | api/admin.js:15 | `order(key, desc)`: sorted largest first, and a permutation of the rows |
| Seqs.FilterSorted | api/admin.js:15-17 | Filtering rows sorted newest first keeps them sorted |
| Seqs.FilterPermutation | api/admin.js:16-18 | Reordering the rows reorders the rows a filter keeps: the same rows, each as often |
| Seqs.FilterCountPermutation | api/admin.js:16-18 | Reordering the rows does not change how many of them match |
| Seqs.Newest | api/orders.js:18-22 | `order(created_at, desc).limit(n)`: `min(n, len)` rows from the table, newest first |
| Seqs.NewestIsNewest | api/orders.js:18-22 | No row the limit leaves out is newer than a row it returns |
| ServerOrders.Stamped | server.js:49-55 | Four distinct keys set over a body: exactly the body's keys plus those four, with the four values, and every other field kept |
| ServerOrders.NewOrder | server.js:49-55 | The body's fields, with id `ORD-`+number, the number, status pending and the creation stamp set over them |
| ServerOrders.CreateOrder | server.js:47-60 | The order is appended with the next number, and the counter moves up by one |
| ServerOrders.SuccessiveOrdersDiffer | server.js:51-57 | Orders created one after another never share an id |
| ServerOrders.Patched | server.js:66-69 | `Object.assign` of the body; `completedAt` is stamped only when the body sets status completed |
| ServerOrders.PatchOrder | server.js:62-75 | The first order with the id is patched; 404 "Order not found" leaves the orders unchanged |
| ServerCustomers.CustomerByPhone | server.js:162-170 | The first customer whose phone is exactly the one asked for; 404 only when no customer has it |
| ServerCustomers.NewCustomer | server.js:174-182 | Id `C`+(count+1) unless the body brings one. Points, totalSpent and visits 0, tier bronze and memberSince override the body; every other body field is kept |
| ServerCustomers.CreateCustomer | server.js:172-186 | The new customer is appended |
| ServerCustomers.EnrolmentIdsDiffer | server.js:175 | Enrolments at different table lengths never share a generated id |
| ServerCustomers.NewCustomerTierConsistent | server.js:177-181 | A new customer's tier matches their points |
| ServerCustomers.Retiered | server.js:192-196 | After a patch every body field is taken as is, and the tier matches the merged points read as `Number()` reads them; NaN points make a bronze customer |
| ServerCustomers.RetieredCoercesPoints | server.js:192-196 | Points sent as digit text are compared by their value: `"600"` makes a silver customer, and `"abc"` (NaN) a bronze one |
| ServerCustomers.PatchCustomer | server.js:188-202 | The first customer with the id is patched and re-tiered; 404 otherwise, with nothing changed |
| RicoWallet.Bonus | server.js:258 | `Math.round(amount * 0.10)`: within half a unit of a tenth of the amount |
| RicoWallet.Loaded | server.js:257-272 | A load: the balance goes up by amount plus bonus, lifetime loads by the amount, and one load entry is logged. Nothing else changes |
| RicoWallet.Paid | server.js:297-306 | A payment: the balance goes down by the amount, and a negative entry is logged. Nothing else changes |
| RicoWallet.PaymentEntry | server.js:301-306 | The payment entry holds type, amount and timestamp, and `orderId` exactly when the request sends one |
| RicoWallet.NetAppend | server.js:266-272 | The net of a history grows by each entry's effect |
| RicoWallet.LoadEntryDelta | server.js:266-272 | A load entry records amount plus bonus |
| RicoWallet.PaymentEntryDelta | server.js:301-306 | A payment entry records minus the amount |
| RicoWallet.ApplyReconciles | server.js:250-315 | One request changes the balance by exactly what it logs |
| RicoWallet.LedgerReconciles | server.js:250-315 | Over any sequence of requests, the balance change equals the net of the entries logged |
| RicoWallet.BalanceNeverNegative | server.js:293-295 | With non-negative loads, no sequence of requests drives the balance below zero |
| RicoWallet.LoadBalance | server.js:250-282 | 404 for an unknown id; otherwise the first customer with the id becomes `Loaded`, and the reply carries amount, bonus and new balance |
| RicoWallet.PayBalance | server.js:285-315 | 404 for an unknown id; 400 "Insufficient balance" when the balance is short, with nothing changed; otherwise the customer becomes `Paid` |
| Inventory.WasteEntry | server.js:139-142 | The body plus a timestamp |
| Inventory.AfterWaste | server.js:150 | `Math.max(0, stock - quantity)`: never negative, and the exact difference when that is not negative |
| Inventory.Wasted | server.js:147-152 | Only the first item with the body's itemId changes, and only its stock: stock minus quantity as `Number()` reads them, floored at 0, or NaN (written as null) when either is not a number |
| Inventory.WasteCoercesQuantity | server.js:150 | A missing or object quantity makes the stock NaN, written as null; a quantity sent as digit text is subtracted by its value |
| Inventory.WastePreservesStocks | server.js:150 | Logging waste keeps every stock non-negative |
| Inventory.LogWaste | server.js:137-155 | The entry is appended and the inventory becomes `Wasted` |
| Creators.NameOrNull | server.js:372 | `customer?.name \|\| null`: an empty name counts as none |
| Creators.SamePhone | server.js:364-365 | For phones that are already digits, matching is plain equality |
| Creators.NewSubmission | server.js:369-380 | Pending and unreviewed, with no points yet, named after the matching customer |
| Creators.ScanByPhone | server.js:363-366 | The customer scan stops at the first customer with the same phone digits; it finds nothing exactly when every customer has a text phone and none matches; and it throws at a customer without a text phone that comes before any match |
| Creators.Submit | server.js:357-386 | A 500 with nothing written when the customer scan throws. Otherwise the submission goes first in the list and is named after the customer the scan found |
| Creators.Awarded | server.js:400 | Approval awards the points requested, or 100 when none are requested; any other status awards 0 |
| Creators.Reviewed | server.js:398-400 | Status, review stamp and points are set, and every other field is kept |
| Creators.AddPoints | server.js:409 | The customer's points go up by the award; nothing else changes, the tier included |
| Creators.AwardLeavesTierStale | server.js:409 | An award that moves a tier-consistent customer's points across a tier threshold leaves the stored tier stale |
| Creators.CreatorCode | server.js:426 | `RICO-` and the first word upper-cased and cut to 6 characters, with no lower-case letter or space after the prefix |
| Creators.NewCreator | server.js:425-436 | Code from the customer's first name or `CREATOR`; every counter 0 |
| Creators.Review | server.js:389-445 | 404 for an unknown id, with nothing written. An approval with a phone whose customer scan throws gives 500 and writes nothing. Otherwise the submission is reviewed in place; an approval with a phone credits the customer the scan found, and at three approvals it appends the creator record if none has that phone. Any other review touches neither customers nor creators |
| Creators.ApprovalIsCounted | server.js:414-417 | An approved submission is among the approvals counted for its phone |
| Creators.StatsFor | server.js:331-354 | Exactly the phone's submissions, in stored order. The points of the approved ones. The counters and code of the first creator with that phone; without a creator, no code and every counter 0 |
| Creators.PointsOfDefault | server.js:339 | Approvals with no award set count 100 each |
| Creators.PointsOf | server.js:339 | The points total is not negative when no award is negative |
| Creators.Validate | server.js:458-489 | The code is upper-cased. A creator's code gives 20% and the creator's phone; otherwise an active promotion gives its percent or 10. 404 exactly when neither exists |
| Creators.IssuedCodeValidates | server.js:459-473 | An issued creator code is accepted however its letters are typed |
| Creators.CreatorCodeIsUpper | server.js:426 | Generated codes have no lower-case letters |
| Creators.Commission | server.js:503 | `Math.round(discount * 0.5)`: half the discount, halves rounded up |
| Creators.Credited | server.js:500-505 | Uses up by one, sales by the order total, both commissions by the commission; nothing else changes |
| Creators.UseCode | server.js:492-512 | The first creator with the code is credited and the commission returned; an unknown code changes nothing |
| Creators.UseKeepsCommissionsAgreeing | server.js:504-505 | Code commission and total commission keep moving together |
| StoreDb.AcceptsIsStrictWithSecret | api/live/pay.js:37 | The corrected secret check is the strict comparison, restricted to rows that hold a secret |
| StoreDb.NullSecretMatches | api/live/pay.js:37 | As written, a row without a PIN is matched by a request that sends JSON `null` |
| StoreDb.StrictEquals | api/live/pay.js:37 | `!==` negated: an absent field equals nothing, and a value that is neither text nor null equals no column |
| StoreDb.Accepts | api/live/pay.js:37 | The corrected check accepts only what the strict comparison accepts, and never a row without a secret |
| StoreDb.PhoneLookup | api/reserve.js:25 | With unique phones, a look-up by a non-empty phone finds a customer exactly when one has it, and finds that customer |
| StoreDb.AppendCustomerKeepsUnique | api/reserve.js:37-45 | Appending a customer with a new id and a new phone keeps both unique |
| StoreDb.Db.AppendCustomer | api/auth.js:57 | The customer is appended and the invariant kept |
| StoreDb.Db.AppendFounder | api/admin.js:26-28 | The founder is appended under the next serial id, and the serial moves past it |
| StoreDb.AppendFounderKeepsSerial | api/admin.js:26-28 | A founder numbered from the serial keeps founder ids distinct and below the serial |
| StoreDb.NextId | api/reserve.js:33-35 | Corrected next customer id (see Findings): used by no customer; `C001` for an empty table. The handlers as written read the id that sorts greatest as text |
| LiveDrop.Deduction | api/live/pay.js:48-57 | Credit is spent first: the two parts add up to the price, credit pays `min(credit, price)`, and cash pays only the shortfall |
| LiveDrop.ChargeNeverOverdraws | api/live/pay.js:40-57 | Once the balance check passes, credit does not go negative, and cash does not go negative unless it already was |
| LiveDrop.Charged | api/live/pay.js:59-65 | The payer's funds fall by exactly the price; no other field changes |
| LiveDrop.WriteBackRow | api/live/pay.js:59-65 | Every row the update rewrites gets the payer's funds less the price, and keeps its other fields |
| LiveDrop.OnSale | api/live/pay.js:22-25 | The drop refuses the sale exactly when it is missing, inactive or out of stock |
| LiveDrop.Pay | api/live/pay.js:9-87 | In order: 405; 400 "Sold out or inactive"; 404; 401 "Invalid PIN"; 400 "Insufficient balance" with the customer's cash plus credit as `balance`; 500 "Transaction failed". A sale rewrites the payer, cuts the stock by one and logs `-price`. The reply is an `RA-` ticket. The invariant is kept |
| LiveDrop.Sell | api/live/pay.js:59-85 | The payer's pots are rewritten, the stock drops by one, `-price` is logged, the ticket carries the funds left, and the invariant is kept |
| LiveDrop.SaleChargesPayerOnly | api/live/pay.js:59-85 | With distinct ids, only the payer's row changes, and its funds fall by the price the history records |
| LiveDrop.SaleKeepsUnique | api/live/pay.js:59-65 | A sale keeps customer ids and phones unique |
| OrdersApi.MaxOrderNumber | api/orders.js:34-35 | `|| 0`: no orders gives 0 |
| OrdersApi.MaxOrderNumberBounds | api/orders.js:34-35 | No order's number is above the maximum |
| OrdersApi.MaxOrderNumberAttained | api/orders.js:34-35 | With at least one order, some order has the maximum number |
| OrdersApi.NewOrderRow | api/orders.js:38-47 | Id `ORD-`+number, status pending, and every other field from the request |
| OrdersApi.NextOrderIsFresh | api/orders.js:34-36 | One past the maximum is a number no order has, and an id no order has |
| OrdersApi.AppendKeepsNumbersDistinct | api/orders.js:38-47 | A number above all others keeps order numbers distinct |
| OrdersApi.AppendOrderNumbered | api/orders.js:34-47 | The new order keeps every id spelling its own distinct number |
| OrdersApi.AppendOrder | api/orders.js:34-47 | The request's row numbered one past the maximum is appended, and the invariant is kept |
| OrdersApi.ListOrders | api/orders.js:16-26 | At most 50 orders taken from the table, newest first, and none left out is newer than one listed; or the error as a 500 |
| OrdersApi.CreateOrder | api/orders.js:28-51 | The order is appended with the next number, or the error is a 500 with nothing written |
| OrdersApi.Handle | api/orders.js:11-53 | OPTIONS 200; GET lists; POST creates; 405 "Method Not Allowed" for anything else |
| Receipts.RefLookup | api/upload-receipt.js:15-16 | With unique references, the look-up finds a receipt exactly when one has the reference |
| Receipts.HashLookup | api/upload-receipt.js:22-23 | With unique hashes, the look-up finds a receipt exactly when one has the hash |
| Receipts.AppendReceiptKeepsUnique | api/upload-receipt.js:28-33 | A receipt with a new reference and a new hash keeps both unique |
| Receipts.StoredReceiptBlocksRepeat | api/upload-receipt.js:15-25 | Once stored, a receipt's reference and its image are both refused if sent again |
| Receipts.Upload | api/upload-receipt.js:9-35 | 409 for a used reference, then 409 for a used image; otherwise one receipt is stored with the image's digest |
| Reserve.OrNull | api/reserve.js:30 | `pin \|\| null`: an empty PIN is stored as null |
| Reserve.ReservationTicket | api/reserve.js:21 | `RA-F` and three digits whose value is the draw |
| Reserve.VipCount | api/reserve.js:14-19 | The VIP count is at most the number of customers |
| Reserve.VipCountAppend | api/reserve.js:14-19 | A new customer adds one to the VIP count if VIP, and nothing otherwise |
| Reserve.Reserve | api/reserve.js:8-48 | 400 "Sold out." at 50 VIPs. Otherwise the customer with the phone gets the note and PIN, or one new customer is inserted. The VIP count is unchanged, the reply is the ticket, and the invariant is kept |
| Reserve.MarkCustomer | api/reserve.js:27-31 | The customer with the id gets the reservation note and PIN; the VIP count and the invariant are kept |
| Reserve.ReservingKeepsTable | api/reserve.js:27-31 | A reservation update changes notes and PIN only |
| Reserve.EnrolmentKeepsVipCount | api/reserve.js:37-45 | Enrolling a customer who is not VIP keeps the VIP count |
| Campaign.ArtSubmission | api/campaign/valentines.js:52-61 | An approved `valentine_art` submission worth 50 points |
| Campaign.Submit | api/campaign/valentines.js:10-70 | Finds or creates the parent; a create error is a 500 with nothing logged. Otherwise the art is logged, the parent gains 50 points, and the reply is "Art received!" |
| Campaign.AwardArt | api/campaign/valentines.js:64 | The customer with the id gains 50 points, and the invariant is kept |
| Campaign.AwardKeepsUnique | api/campaign/valentines.js:64 | The award changes points only, so ids and phones stay unique |
| Campaign.AwardAddsFifty | api/campaign/valentines.js:64 | With distinct ids, exactly that customer gains 50 points and every other row is kept |
| Auth.Account | api/auth.js:18-25 | The account named by digits-only phone or by lower-cased email |
| Auth.LoginAsWritten | api/auth.js:21-26 | As written, the login succeeds exactly when the account exists and its secret equals the sent value strictly, null included |
| Auth.Login | api/auth/login.js:16-30 | Corrected login: succeeds exactly when the account holds a secret and the request sends exactly it; otherwise 401 "Invalid credentials" |
| Auth.NullSecretLogsIn | api/auth/login.js:20 | A customer without a PIN is logged into as written by a request with a JSON `null` secret. The corrected login refuses it |
| Auth.PhoneLoginIff | api/auth/login.js:16-21 | With unique phones, a phone login succeeds exactly when a customer has the phone and the sent PIN, and returns that customer |
| Auth.CleanPhone | api/auth/register.js:15 | `phone ? digits : null` |
| Auth.CleanEmail | api/auth/register.js:16 | `email ? lower-cased : null` |
| Auth.PhoneTaken | api/auth/register.js:19-22 | A phone counts as taken only if it is non-empty and some customer has it |
| Auth.PhoneTakenExactly | api/auth/register.js:19-22 | While phones are unique, a phone is taken exactly when it is non-empty and some customer has it |
| Auth.NewUser | api/auth/register.js:30-39 | 0 points, bronze, not VIP; the secret is the PIN for a phone sign-up and the password for an email one |
| Auth.Register | api/auth/register.js:15-47 | 400 "Phone already registered" for a phone in use; an insert error is a 500. Otherwise one customer is appended under the next id, and the invariant is kept |
| Auth.RegisterThenLogin | api/auth/register.js:30-42 | Signing up with a phone and PIN, then logging in with them, returns the new customer |
| Auth.LoginEndpoint | api/auth/login.js:9-30 | OPTIONS 200, other verbs bare 405, POST logs in |
| Auth.RegisterEndpoint | api/auth/register.js:9-48 | OPTIONS 200, other verbs bare 405, POST registers |
| Auth.AuthEndpoint | api/auth.js:9-66 | `action=login` logs in, `action=register` registers, any other action is 400 "Invalid action" |
| Menu.CategoryOrder | api/menu.js:11-22 | Each category exactly once, and exactly the categories the items have; their order is stated by `Menu.CategoryOrderFollowsItems` |
| Menu.CategoryOrderFollowsItems | api/menu.js:11-22 | Categories come in order of first appearance: an item of a later category is preceded by an item of every earlier one |
| Menu.GroupOf | api/menu.js:13-19 | A group holds at most as many entries as there are items |
| Menu.GroupOfMembers | api/menu.js:13-19 | A group lists exactly the entries of the items in its category |
| Menu.GroupOfAbsent | api/menu.js:13 | A category no item has gets an empty group |
| Menu.GroupItems | api/menu.js:11-20 | The grouping loop produces the category order, a key for each category, and each group's entries in input order |
| Menu.Categories | api/menu.js:22-27 | One category per key, named by capitalising it |
| Menu.ModMap | api/menu.js:29-32 | Exactly the modifier ids are keys |
| Menu.ModMapLastWins | api/menu.js:29-32 | Each id maps to its last row |
| Menu.BuildModifiers | api/menu.js:29-32 | The loop builds `ModMap` |
| Menu.GroupsPartitionItems | api/menu.js:11-20 | Every item lands in exactly one group: the group sizes add up to the number of items |
| Menu.Handle | api/menu.js:7-34 | Only available items are grouped, each category capitalised; a failed read counts as empty; tax is 15% |
| StoreApi.RouteOf | api/store.js:10-76 | OPTIONS first, then each action with its single verb; anything else is 404 |
| StoreApi.StoreMenu | api/store.js:15-20 | Exactly the available items, and all the modifiers, ungrouped, with a 15% tax rate |
| StoreApi.LiveStatus | api/store.js:35-38 | The stored drop, or an inactive one |
| StoreApi.CreateOrder | api/store.js:23-32 | Numbered like the order endpoint; a failed insert answers null and writes nothing |
| StoreApi.Upload | api/store.js:41-47 | Only the reference is checked: 409 "Used ref", otherwise a receipt with no hash is stored |
| StoreApi.KidSubmission | api/store.js:65-67 | An approved `valentine_art` submission named after the child, worth 50 |
| StoreApi.ValentinesOverwritesPoints | api/store.js:53-71 | As written, an existing customer's points are set to 50, since only the id was fetched |
| StoreApi.Valentines | api/store.js:50-74 | Corrected: finds or enrols the parent, logs the art, and adds 50 points. A failed enrolment still logs the art, then fails |
| Founders.Ledger | tools/founders_api_v2.js:4-30 | Sold is the number of confirmed founders and revenue is 1500 per sale. Pending and confirmed hold exactly those founders, each as often as in the table, newest first. A failed read gives an empty summary |
| Founders.OtherStatusesHidden | api/admin.js:16-17 | A founder with any other status appears in neither list |
| Founders.OrDefault | api/admin.js:27 | `value \|\| fallback` for text |
| Founders.NextTicket | tools/founders_api_v2.js:48 | The ticket supplied, else `RA-F` and count+1 padded to 3 |
| Founders.NewFounder | api/admin.js:26-28 | Digits-only phone; reference `CASH` and status pending by default; amount 1500 |
| Founders.AddFounder | tools/founders_api_v2.js:39-65 | One founder appended under the next serial, or the error as a 500 with nothing written; the invariant is kept |
| Founders.DeleteFounder | api/admin.js:34-38 | Exactly the founders with other ids remain, or the error is a 500; the invariant is kept |
| Founders.DeleteKeepsSerial | api/admin.js:35 | A delete keeps founder ids distinct and below the serial |
| Founders.Upgraded | tools/founders_api_v2.js:83-110 | Afterwards some customer with the founder's phone is a gold VIP. The existing customer is rewritten in place (the rewritten row is stated by `Founders.UpgradeTouchesOneRow`), or a new one is enrolled under the next id |
| Founders.UpgradeTouchesOneRow | tools/founders_api_v2.js:88-110 | Exactly one customer row is appended, or exactly one is rewritten: the row with the founder's phone becomes a gold VIP with the route's founder note for an existing customer and keeps its other fields |
| Founders.UpgradeKeepsUnique | tools/founders_api_v2.js:88-110 | Mirroring the founder keeps customer ids and phones unique |
| Founders.ConfirmFounder | tools/founders_api_v2.js:72-77 | The founder with the id is set confirmed with the stamp, and the invariant is kept |
| Founders.MirrorFounder | tools/founders_api_v2.js:83-110 | The customers become `Upgraded` for the founder, and the invariant is kept |
| Founders.VerifyFounder | tools/founders_api_v2.js:68-116 | A store error or a missing founder is a 500 with nothing changed. Otherwise the founder is confirmed and mirrored into customers; a failed mirroring is ignored. The invariant is kept |
| Founders.VerifiedIsTheFounder | tools/founders_api_v2.js:72-77 | With distinct ids, the founder confirmed is the one with that id |
| Founders.ConfirmingSellsOne | api/admin/founders.js:22-27 | Confirming a founder who was not confirmed raises sold by one and revenue by 1500 |
| Founders.SaleListedPending | api/admin/founders.js:41-51 | A sale without a status is listed as pending, and sold stays the same |
| Founders.Admin | api/admin.js:9-59 | The summary changes nothing. A sale appends one founder (no ticket override). A delete needs an id. A verification confirms the founder and mirrors it into customers; a missing row fails the handler. Anything else is 404 "Action not found". Only a verification touches customers, and a failure changes nothing |
| Founders.FoundersEndpoint | api/admin/founders.js:11-54 | GET summary, POST sale, 405 "Method Not Allowed" otherwise. Only a successful sale appends a founder and advances the founder counter by one |
| Founders.VerifyFounderEndpoint | api/admin/verify-founder.js:11-57 | POST verifies with "(Verified)" and "(Auto-Created)" notes; a failed verification changes nothing; other verbs are a bare 405 and change nothing |
| Simulation.ItemsPartition | simulation/opening_week_sim.py:106-108 | Every item is a drink, food or an extra, and only one of them. The counts add up to the order's size, and the totals to its total |
| Simulation.TotalConcat | simulation/opening_week_sim.py:104 | The total of a concatenation is the sum of the totals |
| Simulation.SimpleCount | simulation/opening_week_sim.py:108 | `len - drinks - food` is the number of extras and is never negative |
| Simulation.SimCustomer.DecideMembership | simulation/opening_week_sim.py:56-62 | Granted only to a customer who is not VIP, on a draw under 0.05; a grant adds exactly 500 |
| Simulation.SimCustomer.EngageChallenge | simulation/opening_week_sim.py:64-69 | True only for a creator who has not submitted, on a draw under 0.30; marks the content submitted |
| Simulation.MembershipAtMostOnce | simulation/opening_week_sim.py:56-62 | Two decisions grant at most one membership, worth 500 in total |
| Simulation.ChallengeAtMostOnce | simulation/opening_week_sim.py:64-69 | Two rounds give at most one submission, and only from a creator |
| Simulation.Settle | simulation/opening_week_sim.py:110-124 | Cash plus rico is the total. A balance that covers the total pays all of it. A smaller positive balance is drained to 0, with the rest in cash. Only a customer without rico is charged to the card. A non-negative balance stays non-negative |
| Simulation.SettleIsMinMax | simulation/opening_week_sim.py:113-120 | With a positive balance, rico pays `min(balance, total)` and keeps `max(balance - total, 0)` |
| Simulation.SimOrder.constructor | simulation/opening_week_sim.py:97-108 | The total is the sum of the prices. The counts are the drinks, the food and the extras, and they add up to the number of items |
| Simulation.SimOrder.ProcessPayment | simulation/opening_week_sim.py:110-124 | The payment and the customer's new rico and card totals are `Settle` of the old balance; only the customer's wallet changes |

## Left out

- Money is whole units. `parseFloat` and floating-point prices, amounts and wait times are not modelled. Rounding is modelled on integers: `Math.round(x * 0.1)` and `Math.round(d * 0.5)`.
- Concurrency is not modelled. Each handler is one atomic step, so the read-then-write races are out of scope. These races include the order-number fetch-and-increment and the live-drop stock decrement.
- Persistence is reduced to state. File I/O, the database client, CORS headers, HTTP routing, static pages and the logging output are not modelled; only what they read and write is.
- A null `cash_balance` or `membership_credit` is not distinguished from 0. A null points or credit column is treated the same way.
- A request missing `phone` makes the handlers throw at `phone.replace`. This crash is not modelled: the phone is a parameter that is always given.
- A receipt upload missing `imageBase64` makes `createHash('md5').update(undefined)` throw, an unhandled 500 (api/upload-receipt.js:21). This crash is not modelled: the image is a parameter that is always given.
- A login missing `identifier` throws at `identifier.replace` or `identifier.toLowerCase` inside the `try`, so api/auth/login.js:17-29 answers 500 "Login failed" and api/auth.js:19-24 answers 500 with the error message. This is not modelled: the identifier is a parameter that is always given.
- Campaign.Increment: the database procedure `increment_points` (api/campaign/valentines.js:64) is taken to add `amount` to the points of the customer with that id and to change nothing else. Its body is not part of this model.
- Numeric-looking keys in `Object.keys` are listed in integer order first. This is not modelled: menu categories are listed in order of first appearance.
- Upper- and lower-casing cover ASCII letters only.
- Errors the handlers do not check are taken to succeed. These are the inserts and updates whose result is ignored, such as the live-drop stock and history writes and the receipt and reservation inserts.
- A failed founder count leaves the count null. Both `(count || 0) + 1` and the tools version's `count + 1` then give `RA-F001`. The model uses the table's size.
- The database defaults are taken as given: `is_vip` false, balances 0, and timestamps supplied as parameters.
- A missing live-drop setting is modelled as an inactive drop with stock and price 0. `api/store.js` replies with only `{ active: false }`.
- Secrets are strings or absent. A request sending a non-string value other than `null` is refused, as a strict comparison with a stored string would be.
- Only the simulation's customer and order behaviour is modelled. Its menu loading, order generation, staff queueing, satisfaction score and printed report are not.
- `api/admin/founders/[id].js`, `api/live/status.js`, `api/health.js`, the dashboards, the tests and the migration and seed scripts are not part of this model.
- Founders.Admin: a verification whose body has no id is modelled as failing the handler. The store's answer to an `.eq('id', undefined)` filter is not modelled.
- StoreDb.NextId: is the corrected next id, not the code as written. Every sign-up handler reads the id that sorts greatest as text, so after C999 and C1000 it reissues C1000 and the insert fails; that behaviour is `Numbering.AsWrittenReissuesId` (see Findings).
- Reserve.Reserve: a new customer gets the corrected `StoreDb.NextId` (see Findings). As written, once the ids reach C999 and C1000 the insert reuses C1000, fails unchecked, and the handler still answers with the ticket.
- Auth.Register: a new customer gets the corrected `StoreDb.NextId` (see Findings). As written, the reused id makes the insert fail and the handler answer 500.
- Auth.RegisterEndpoint: inherits the corrected `StoreDb.NextId` from `Auth.Register` (see Findings).
- Auth.LoginEndpoint: uses the corrected `Auth.Login`, which refuses an account without a secret; as written, a request sending `null` logs in to such an account (see Findings).
- Auth.AuthEndpoint: uses the corrected `Auth.Login` and `StoreDb.NextId` (see Findings).
- LiveDrop.Pay: uses the corrected `StoreDb.Accepts`; as written, a customer without a PIN can pay by sending `"pin": null` (see Findings).
- Campaign.Submit: a new customer gets the corrected `StoreDb.NextId` (see Findings). As written, the reused id makes the insert fail, and the handler answers 500 with nothing logged.
- StoreApi.Valentines: a new customer gets the corrected `StoreDb.NextId`, and the points are added rather than overwritten with 50 (see Findings). As written, the reused id makes the insert fail and the handler throw, answering 500.
- Founders.Upgraded: a new customer gets the corrected `StoreDb.NextId` (see Findings). As written, the reused id makes the insert fail unchecked, so the founder is confirmed with no customer row.
- Founders.MirrorFounder: inherits the corrected `StoreDb.NextId` from `Founders.Upgraded`.
- Founders.VerifyFounder: inherits the corrected `StoreDb.NextId` from `Founders.Upgraded`.
- Founders.Admin: a verification inherits the corrected `StoreDb.NextId` from `Founders.Upgraded`.
- Founders.VerifyFounderEndpoint: inherits the corrected `StoreDb.NextId` from `Founders.Upgraded`.
- Json.ToNumber: models `Number()` only for whole non-negative decimal text. Text with white space, a sign, a fraction, an exponent or a radix prefix is read as NaN, and so is a one-element array.
- Text.ParseInt: leading white space and a sign are not modelled. The ids it reads carry digits right after their one-letter prefix.
- Creators.AddPoints: reads a points field that is not a number as 0. JavaScript would add the award to text by concatenation.
- Creators.Awarded: takes the requested `pointsAwarded` as a number or absent. As written, `pointsAwarded || 100` keeps any truthy value, so text such as `"50"` is stored as text, and other falsy values (`""`, `null`, `false`) also give 100 (server.js:400).
- Creators.Review: credits the award as a number. As written, a text award is concatenated onto the customer's points, so 300 and `"50"` give `"30050"` (server.js:409). The creator statistics then sum that award by concatenation as well (server.js:339).
- Creators.UseCode: takes `orderTotal` and `discountAmount` as whole numbers that are always sent. As written, a missing `discountAmount` gives `Math.round(NaN)`, so the reply's commission and both stored commissions become null (server.js:503-505). A missing `orderTotal` makes `codeSales` NaN, stored as null, and a text one is appended to it by concatenation (server.js:501). The creator counters are modelled as numbers, so none of this is captured.
- RicoWallet.Balance: reads a `ricoBalance` that is not a number as 0. JavaScript's `||` keeps any truthy value, so text such as `"500"` is used as it is.
- RicoWallet.History: reads a `balanceHistory` that is not an array as empty. As written, a truthy non-array value makes `push` throw, an unhandled 500 with nothing written (server.js:265-266 and 300-301).
- RicoWallet.Loaded: adds to the balance as a number. As written, a text balance is concatenated with the credit, so `"500"` becomes text such as `"50055"` (server.js:261).
- RicoWallet.Paid: subtracts from a numeric balance. As written, `-` coerces a text balance, so `"500"` less 100 is 400, where the model reads that balance as 0 (server.js:297).
- RicoWallet.LoadBalance: inherits the numeric balance and array history of `RicoWallet.Loaded`; the text-balance and non-array-history cases above are not modelled.
- RicoWallet.PayBalance: compares a numeric balance. As written, `<` coerces a text balance, so `"500"` covers a payment of 100 that the model refuses. Text that is not a number makes the comparison false, so the payment goes through and the balance becomes NaN (server.js:293-297). Neither case is modelled.
- Simulation.SimOrder.ProcessPayment: keeps the customer's non-negative balances only when the order total is not negative. The Python does not check prices.

## Findings

| source | as written | input that shows it | evidently intended | confidence | as-written member | corrected member |
|---|---|---|---|---|---|---|
| api/auth.js:42-44 | The next customer id is `parseInt` of the suffix of the id that sorts greatest as text, plus one | Ids C999 and C1000: "C999" sorts after "C1000", so the next id is C1000, which is already taken | One past the greatest customer number | high, not executed | Numbering.AsWrittenReissuesId | Numbering.NextCustomerId |
| api/auth/login.js:20 | `data.pin !== secret` lets a request through when the stored PIN is null and the request sends `null` | Phone login for a customer enrolled without a PIN, with `"secret": null` | Refuse accounts that have no secret | high, not executed | Auth.NullSecretLogsIn | Auth.Login |
| api/live/pay.js:37 | `customer.pin !== pin` accepts a JSON `null` PIN for a customer without a PIN | A live-drop purchase for a PIN-less customer, sent with `"pin": null` | Refuse customers that have no PIN | high, not executed | StoreDb.NullSecretMatches | StoreDb.Accepts |
| api/store.js:53,70-71 | The points written are `(customer.points \|\| 0) + 50`, but the customer was fetched with `select('id')`, so they are always 50 | An existing customer with 300 points ends with 50 | Add 50 to the customer's points | high, not executed | StoreApi.ValentinesOverwritesPoints | StoreApi.Valentines |

=== FILE: auth.dfy ===
/**
 * Customer accounts (api/auth.js, api/auth/register.js, api/auth/login.js): sign-up by phone
 * or email with a PIN or password, and login by the same.
 */
module Auth {
  import opened Common
  import opened Text
  import opened Seqs
  import Json
  import opened StoreDb

  /** `.eq('email', email)` on customers. */
  function WithEmail(email: string): CustomerRow -> bool
  {
    (c: CustomerRow) => c.email == Some(email)
  }

  /** The account a login names: by digits-only phone, or by lower-cased email. */
  function Account(cs: seq<CustomerRow>, kind: string, identifier: string): (r: Option<CustomerRow>)
    ensures r.Some? ==> r.value in cs
    ensures r.Some? && kind == "phone" ==> r.value.phone == Some(DigitsOnly(identifier))
    ensures r.Some? && kind != "phone" ==> r.value.email == Some(Lower(identifier))
  {
    if kind == "phone" then Single(cs, WithPhone(DigitsOnly(identifier)))
    else Single(cs, WithEmail(Lower(identifier)))
  }

  /** The PIN for a phone login, the password otherwise. */
  function StoredSecret(c: CustomerRow, kind: string): Option<string>
  {
    if kind == "phone" then c.pin else c.password
  }

  /** Login as written: `!data || data.<secret> !== secret` refuses, so a null secret matches a sent null. */
  function LoginAsWritten(cs: seq<CustomerRow>, kind: string, identifier: string, secret: Option<Json.Value>)
    : (r: Reply<CustomerRow>)
    ensures r.Ok? <==> Account(cs, kind, identifier).Some?
                       && StrictEquals(StoredSecret(Account(cs, kind, identifier).value, kind), secret)
    ensures r.Ok? ==> r.value == Account(cs, kind, identifier).value
    ensures !r.Ok? ==> r == Err(401, "Invalid credentials")
  {
    match Account(cs, kind, identifier)
    case None => Err(401, "Invalid credentials")
    case Some(c) =>
      if StrictEquals(StoredSecret(c, kind), secret) then Ok(c) else Err(401, "Invalid credentials")
  }

  /**
   * Login: the named account must hold a secret and the request must send exactly it. An
   * unknown user and a wrong secret get the same refusal.
   */
  function Login(cs: seq<CustomerRow>, kind: string, identifier: string, secret: Option<Json.Value>)
    : (r: Reply<CustomerRow>)
    ensures r.Ok? <==> Account(cs, kind, identifier).Some?
                       && Accepts(StoredSecret(Account(cs, kind, identifier).value, kind), secret)
    ensures r.Ok? ==> r.value in cs && StoredSecret(r.value, kind).Some?
                      && secret == Some(Json.Str(StoredSecret(r.value, kind).value))
    ensures !r.Ok? ==> r == Err(401, "Invalid credentials")
  {
    match Account(cs, kind, identifier)
    case None => Err(401, "Invalid credentials")
    case Some(c) =>
      if Accepts(StoredSecret(c, kind), secret) then Ok(c) else Err(401, "Invalid credentials")
  }

  /**
   * As written, a customer enrolled without a PIN (a reservation without one, an email
   * sign-up, a campaign parent) is logged into by anyone who sends their phone and a JSON
   * `null` secret; the corrected login refuses.
   */
  lemma NullSecretLogsIn()
    ensures var c := CustomerRow("C001", None, Some("555"), None, 0, "bronze", false, None, None, None, 0, 0);
      LoginAsWritten([c], "phone", "555", Some(Json.Null)) == Ok(c)
      && Login([c], "phone", "555", Some(Json.Null)) == Err(401, "Invalid credentials")
  {
    var phone := "555";
    var c := CustomerRow("C001", None, Some(phone), None, 0, "bronze", false, None, None, None, 0, 0);
    assert AllDigits(phone);
    DigitsOnlyOfDigits(phone);
    var p := WithPhone(phone);
    assert p(c);
    assert [c][1..] == [];
    assert Filter([c], p) == [c] + Filter([], p);
    assert Single([c], p) == Some(c);
    assert Account([c], "phone", phone) == Some(c);
    assert StoredSecret(c, "phone") == None;
  }

  /**
   * With phones unique, a phone login succeeds exactly when some customer has the phone and
   * a PIN, and the request sends that PIN; the reply is that customer.
   */
  lemma PhoneLoginIff(cs: seq<CustomerRow>, identifier: string, secret: Option<Json.Value>)
    requires PhonesUnique(cs) && DigitsOnly(identifier) != ""
    ensures Login(cs, "phone", identifier, secret).Ok? <==>
      exists i :: 0 <= i < |cs| && cs[i].phone == Some(DigitsOnly(identifier)) && Accepts(cs[i].pin, secret)
    ensures forall i | 0 <= i < |cs| && cs[i].phone == Some(DigitsOnly(identifier)) && Accepts(cs[i].pin, secret) ::
      Login(cs, "phone", identifier, secret) == Ok(cs[i])
  {
    PhoneLookup(cs, DigitsOnly(identifier));
  }

  /** A sign-up request; absent fields are `None`. */
  datatype RegisterRequest = RegisterRequest(
    name: Option<string>,
    phone: Option<string>,
    email: Option<string>,
    secret: Option<string>,
    kind: string)

  /** `phone ? phone.replace(/\D/g, '') : null`. */
  function CleanPhone(phone: Option<string>): (r: Option<string>)
    ensures r.Some? <==> phone.Some? && phone.value != ""
    ensures r.Some? ==> r.value == DigitsOnly(phone.value) && AllDigits(r.value)
  {
    if phone.Some? && phone.value != "" then Some(DigitsOnly(phone.value)) else None
  }

  /** `email ? email.toLowerCase() : null`. */
  function CleanEmail(email: Option<string>): (r: Option<string>)
    ensures r.Some? <==> email.Some? && email.value != ""
    ensures r.Some? ==> r.value == Lower(email.value)
  {
    if email.Some? && email.value != "" then Some(Lower(email.value)) else None
  }

  /** The row inserted: no points, bronze, and the secret in the PIN or password slot the kind names. */
  function NewUser(req: RegisterRequest, id: string): (c: CustomerRow)
    ensures c.id == id && c.points == 0 && c.tier == "bronze" && !c.isVip
    ensures c.phone == CleanPhone(req.phone) && c.email == CleanEmail(req.email)
    ensures c.pin == (if req.kind == "phone" then req.secret else None)
    ensures c.password == (if req.kind == "email" then req.secret else None)
  {
    CustomerRow(id, req.name, CleanPhone(req.phone), CleanEmail(req.email), 0, "bronze", false,
                if req.kind == "phone" then req.secret else None,
                if req.kind == "email" then req.secret else None,
                None, 0, 0)
  }

  /** The request names a phone some customer already has; emails are not checked. */
  predicate PhoneTaken(cs: seq<CustomerRow>, req: RegisterRequest)
    ensures PhoneTaken(cs, req) ==>
      CleanPhone(req.phone).Some? && CleanPhone(req.phone).value != ""
      && exists c :: c in cs && c.phone == CleanPhone(req.phone)
  {
    var p := CleanPhone(req.phone);
    p.Some? && p.value != "" && Single(cs, WithPhone(p.value)).Some?
  }

  /** While phones are unique, a phone is taken exactly when some customer already has it. */
  lemma PhoneTakenExactly(cs: seq<CustomerRow>, req: RegisterRequest)
    requires PhonesUnique(cs)
    ensures PhoneTaken(cs, req) <==>
      CleanPhone(req.phone).Some? && CleanPhone(req.phone).value != ""
      && exists i :: 0 <= i < |cs| && cs[i].phone == CleanPhone(req.phone)
  {
    var p := CleanPhone(req.phone);
    if p.Some? && p.value != "" {
      PhoneLookup(cs, p.value);
    }
  }

  /**
   * Sign-up, shared by both handlers: a taken phone is refused with 400, an insert error
   * with 500; otherwise one customer is added under the next id.
   */
  method Register(d: Db, req: RegisterRequest, fault: Option<string>) returns (r: Reply<CustomerRow>)
    modifies d`customers
    ensures PhoneTaken(old(d.customers), req) ==> r == Err(400, "Phone already registered")
    ensures !PhoneTaken(old(d.customers), req) && fault.Some? ==> r == Err(500, fault.value)
    ensures r.Ok? <==> !PhoneTaken(old(d.customers), req) && fault.None?
    ensures !r.Ok? ==> d.customers == old(d.customers)
    ensures r.Ok? ==> r.value == NewUser(req, NextId(old(d.customers))) && d.customers == old(d.customers) + [r.value]
    ensures old(d.Valid()) ==> d.Valid()
  {
    if PhoneTaken(d.customers, req) {
      return Err(400, "Phone already registered");
    }
    if fault.Some? {
      return Err(500, fault.value);
    }
    var c := NewUser(req, NextId(d.customers));
    d.AppendCustomer(c);
    r := Ok(c);
  }

  /**
   * Signing up with a phone and a PIN and then logging in with that phone and PIN returns
   * the new customer, in a table whose phones are unique.
   */
  lemma {:induction false} RegisterThenLogin(cs: seq<CustomerRow>, req: RegisterRequest, id: string, pin: string)
    requires req.kind == "phone" && req.secret == Some(pin)
    requires CleanPhone(req.phone).Some? && CleanPhone(req.phone).value != ""
    requires PhonesUnique(cs + [NewUser(req, id)])
    ensures Login(cs + [NewUser(req, id)], "phone", CleanPhone(req.phone).value, Some(Json.Str(pin)))
            == Ok(NewUser(req, id))
  {
    var p := CleanPhone(req.phone).value;
    var grown := cs + [NewUser(req, id)];
    DigitsOnlyOfDigits(p);
    PhoneLookup(grown, p);
    assert grown[|cs|] == NewUser(req, id);
  }

  /** POST /api/auth/login; it never writes. */
  function LoginEndpoint(cs: seq<CustomerRow>, verb: Verb, kind: string, identifier: string,
                         secret: Option<Json.Value>): (r: Reply<CustomerRow>)
    ensures verb == Options ==> r == Bare(200)
    ensures verb != Options && verb != Post ==> r == Bare(405)
    ensures verb == Post ==> r == Login(cs, kind, identifier, secret)
  {
    if verb == Options then Bare(200)
    else if verb != Post then Bare(405)
    else Login(cs, kind, identifier, secret)
  }

  /** POST /api/auth/register. */
  method RegisterEndpoint(d: Db, verb: Verb, req: RegisterRequest, fault: Option<string>)
    returns (r: Reply<CustomerRow>)
    modifies d`customers
    ensures verb == Options ==> r == Bare(200) && d.customers == old(d.customers)
    ensures verb != Options && verb != Post ==> r == Bare(405) && d.customers == old(d.customers)
    ensures verb == Post && PhoneTaken(old(d.customers), req) ==> r == Err(400, "Phone already registered")
    ensures verb == Post && !PhoneTaken(old(d.customers), req) && fault.Some? ==> r == Err(500, fault.value)
    ensures !r.Ok? ==> d.customers == old(d.customers)
    ensures r.Ok? <==> verb == Post && !PhoneTaken(old(d.customers), req) && fault.None?
    ensures r.Ok? ==> r.value == NewUser(req, NextId(old(d.customers))) && d.customers == old(d.customers) + [r.value]
    ensures old(d.Valid()) ==> d.Valid()
  {
    if verb == Options {
      return Bare(200);
    }
    if verb != Post {
      return Bare(405);
    }
    r := Register(d, req, fault);
  }

  /** POST /api/auth?action=login|register; any other action is refused with 400. */
  method AuthEndpoint(d: Db, verb: Verb, action: string, kind: string, identifier: string,
                      secret: Option<Json.Value>, req: RegisterRequest, fault: Option<string>)
    returns (r: Reply<CustomerRow>)
    modifies d`customers
    ensures verb == Options ==> r == Bare(200)
    ensures verb != Options && verb != Post ==> r == Bare(405)
    ensures verb == Post && action == "login" ==> r == Login(old(d.customers), kind, identifier, secret)
    ensures verb == Post && action == "register" ==>
      && (PhoneTaken(old(d.customers), req) ==> r == Err(400, "Phone already registered"))
      && (!PhoneTaken(old(d.customers), req) && fault.Some? ==> r == Err(500, fault.value))
      && (r.Ok? <==> !PhoneTaken(old(d.customers), req) && fault.None?)
      && (r.Ok? ==> r.value == NewUser(req, NextId(old(d.customers))) && d.customers == old(d.customers) + [r.value])
    ensures verb == Post && action != "login" && action != "register" ==> r == Err(400, "Invalid action")
    ensures !(verb == Post && action == "register" && r.Ok?) ==> d.customers == old(d.customers)
    ensures old(d.Valid()) ==> d.Valid()
  {
    if verb == Options {
      return Bare(200);
    }
    if verb != Post {
      return Bare(405);
    }
    if action == "login" {
      return Login(d.customers, kind, identifier, secret);
    }
    if action == "register" {
      r := Register(d, req, fault);
      return;
    }
    r := Err(400, "Invalid action");
  }
}

=== FILE: campaign.dfy ===
/**
 * The Valentine art campaign (api/campaign/valentines.js): a parent's phone finds or enrols
 * a customer, the artwork is logged as an approved submission, and 50 points are awarded.
 */
module Campaign {
  import opened Common
  import opened Text
  import opened Seqs
  import opened StoreDb

  /** The points every accepted artwork earns. */
  const ArtPoints := 50

  /** The row logged for an artwork: approved on arrival, worth 50 points. */
  function ArtSubmission(now: nat, phone: string, name: string): (s: SubmissionRow)
    ensures s.status == "approved" && s.platform == "valentine_art" && s.pointsAwarded == ArtPoints
    ensures s.phone == phone && s.creatorName == Some(name)
  {
    SubmissionRow(Some("art_" + Decimal(now)), phone, Some(name), "valentine_art",
                  Some("base64_image_stored"), Some("Valentine Art Submission"), "approved", ArtPoints)
  }

  /** The parent enrolled by the campaign. */
  function Parent(id: string, name: string, phone: string): CustomerRow
  {
    Enrolled(id, Some(name + " (Parent)"), phone, "bronze", 0, false, None, "Source: Valentine Campaign")
  }

  /** The `increment_points` call: the rows with the id gain `amount` points and nothing else changes. */
  function Increment(amount: int): CustomerRow -> CustomerRow
  {
    (c: CustomerRow) => c.(points := c.points + amount)
  }

  /**
   * POST /api/campaign/valentines. `now` is `Date.now()`; `createFault` is the error the
   * insert of a new parent reports. The image itself is not stored.
   */
  method Submit(d: Db, verb: Verb, name: string, phone: string, now: nat, createFault: Option<string>)
    returns (r: Reply<string>)
    modifies d`customers, d`submissions
    ensures verb == Options ==> r == Bare(200)
    ensures verb != Options && verb != Post ==> r == Bare(405)
    ensures !r.Ok? ==> d.customers == old(d.customers) && d.submissions == old(d.submissions)
    ensures var clean := DigitsOnly(phone);
      var found := Single(old(d.customers), WithPhone(clean));
      && (verb == Post && found.None? && createFault.Some? ==> r == Err(500, createFault.value))
      && (r.Ok? <==> verb == Post && (found.Some? || createFault.None?))
      && (r.Ok? ==>
            var id := if found.Some? then found.value.id else NextId(old(d.customers));
            var enrolled := if found.Some? then old(d.customers) else old(d.customers) + [Parent(id, name, clean)];
            && r.value == "Art received!"
            && d.submissions == old(d.submissions) + [ArtSubmission(now, clean, name)]
            && d.customers == UpdateWhere(enrolled, WithId(id), Increment(ArtPoints)))
    ensures old(d.Valid()) ==> d.Valid()
  {
    if verb == Options {
      return Bare(200);
    }
    if verb != Post {
      return Bare(405);
    }
    var clean := DigitsOnly(phone);
    var found := Single(d.customers, WithPhone(clean));
    var id;
    if found.Some? {
      id := found.value.id;
    } else {
      if createFault.Some? {
        return Err(500, createFault.value);
      }
      id := NextId(d.customers);
      d.AppendCustomer(Parent(id, name, clean));
    }
    d.submissions := d.submissions + [ArtSubmission(now, clean, name)];
    AwardArt(d, id);
    r := Ok("Art received!");
  }

  /** `increment_points(id, 50)`: the customer with the id gains the campaign's points. */
  method AwardArt(d: Db, id: string)
    modifies d`customers
    ensures d.customers == UpdateWhere(old(d.customers), WithId(id), Increment(ArtPoints))
    ensures old(d.Valid()) ==> d.Valid()
  {
    AwardKeepsUnique(d.customers, id);
    d.customers := UpdateWhere(d.customers, WithId(id), Increment(ArtPoints));
  }

  /** The award changes points alone, so ids and phones stay unique. */
  lemma AwardKeepsUnique(cs: seq<CustomerRow>, id: string)
    ensures var after := UpdateWhere(cs, WithId(id), Increment(ArtPoints));
      (IdsDistinct(cs) ==> IdsDistinct(after)) && (PhonesUnique(cs) ==> PhonesUnique(after))
  {
    var after := UpdateWhere(cs, WithId(id), Increment(ArtPoints));
    assert forall i | 0 <= i < |cs| :: after[i].id == cs[i].id && after[i].phone == cs[i].phone;
  }

  /**
   * With ids distinct, the award gives exactly the customer with that id 50 more points and
   * leaves every other row as it was.
   */
  lemma AwardAddsFifty(cs: seq<CustomerRow>, i: nat)
    requires IdsDistinct(cs) && i < |cs|
    ensures var after := UpdateWhere(cs, WithId(cs[i].id), Increment(ArtPoints));
      && after[i] == cs[i].(points := cs[i].points + 50)
      && forall j | 0 <= j < |cs| && j != i :: after[j] == cs[j]
  {
  }
}

=== FILE: common.dfy ===
/** Small datatypes shared by every handler of the café backend. */
module Common {

  datatype Option<T> = None | Some(value: T)

  /**
   * What a handler answers: a body, an HTTP error status with its message (and, for a
   * purchase refused for want of funds, the balance the customer holds), or a bare status
   * with an empty body (`res.status(code).end()`).
   */
  datatype Reply<T> =
    | Ok(value: T)
    | Err(code: int, message: string)
    | ErrWithBalance(code: int, message: string, balance: int)
    | Bare(code: int)

  /** The HTTP verb of the incoming request. */
  datatype Verb = Get | Post | Delete | Options | OtherVerb

  function Max(a: int, b: int): int { if a >= b then a else b }
  function Min(a: int, b: int): int { if a <= b then a else b }
}

=== FILE: creators.dfy ===
/**
 * Creator content submissions and discount codes in server.js (server.js:330-512): staff
 * approve submissions, approvals earn loyalty points, a third approval earns the creator a
 * `RICO-` code worth 20% off, and each use of the code pays the creator half the discount.
 */
module Creators {
  import opened Common
  import opened Json
  import opened Text
  import opened Seqs
  import opened ServerData
  import ServerCustomers
  import Loyalty

  /** Two phone numbers match when their digits do. */
  predicate SamePhone(a: string, b: string)
    ensures AllDigits(a) && AllDigits(b) ==> (SamePhone(a, b) <==> a == b)
  {
    if AllDigits(a) && AllDigits(b) then
      DigitsOnlyOfDigits(a);
      DigitsOnlyOfDigits(b);
      DigitsOnly(a) == DigitsOnly(b)
    else
      DigitsOnly(a) == DigitsOnly(b)
  }

  /** A customer whose `phone` is text; on any other, `c.phone.replace` throws a TypeError. */
  predicate HasPhoneText(c: Record)
  {
    "phone" in c && c["phone"].Str?
  }

  /** Where `find` stops: at a customer whose phone digits match, or at one it throws on. */
  function StopsScan(phone: string): Record -> bool
  {
    (c: Record) => !HasPhoneText(c) || SamePhone(c["phone"].s, phone)
  }

  /** What `customers.find(c => c.phone.replace(/\D/g, '') === digits)` does. */
  datatype Scan = Found(index: nat) | Missing | Throws(at: nat)

  /**
   * The scan of the customers for a phone: the first customer whose phone digits match, or
   * nothing when every customer has a phone and none matches; it throws at the first
   * customer without a phone text that comes before any match.
   */
  function ScanByPhone(cs: seq<Record>, phone: string): (r: Scan)
    ensures r.Found? ==> r.index < |cs| && HasPhoneText(cs[r.index]) && SamePhone(cs[r.index]["phone"].s, phone)
    ensures r.Throws? ==> r.at < |cs| && !HasPhoneText(cs[r.at])
    ensures r.Found? ==> forall j | 0 <= j < r.index :: HasPhoneText(cs[j]) && !SamePhone(cs[j]["phone"].s, phone)
    ensures r.Throws? ==> forall j | 0 <= j < r.at :: HasPhoneText(cs[j]) && !SamePhone(cs[j]["phone"].s, phone)
    ensures r.Missing? <==> forall j | 0 <= j < |cs| :: HasPhoneText(cs[j]) && !SamePhone(cs[j]["phone"].s, phone)
  {
    match FindIndex(cs, StopsScan(phone))
    case None => Missing
    case Some(i) => if HasPhoneText(cs[i]) then Found(i) else Throws(i)
  }

  /** The customer a scan found, if any. */
  function FoundCustomer(cs: seq<Record>, scan: Scan): Option<Record>
  {
    if scan.Found? && scan.index < |cs| then Some(cs[scan.index]) else None
  }

  function CreatorWithPhone(phone: string): Creator -> bool
  {
    (c: Creator) => SamePhone(c.phone, phone)
  }

  function SubmissionWithId(id: string): Submission -> bool
  {
    (s: Submission) => s.id == id
  }

  /** `customer?.name`, when it is a string. */
  function NameOf(customer: Option<Record>): Option<string>
  {
    if customer.Some? && "name" in customer.value && customer.value["name"].Str?
    then Some(customer.value["name"].s)
    else None
  }

  /** `customer?.name || null`: an empty name counts as none. */
  function NameOrNull(customer: Option<Record>): (r: Option<string>)
    ensures r.Some? ==> r.value != "" && NameOf(customer) == r
    ensures r.None? ==> NameOf(customer) in {None, Some("")}
  {
    if NameOf(customer) == Some("") then None else NameOf(customer)
  }

  // ---------------------------------------------------------------------
  // Submissions
  // ---------------------------------------------------------------------

  /** A new pending, unreviewed submission. */
  function NewSubmission(id: string, phone: string, customer: Option<Record>, platform: string,
                         link: string, description: string, now: string): (s: Submission)
    ensures s.status == "pending" && s.reviewedAt.None? && s.pointsAwarded.None?
    ensures s.id == id && s.phone == phone && s.submittedAt == now
    ensures s.creatorName == NameOrNull(customer)
  {
    Submission(id, phone, NameOrNull(customer), platform, link, description, "pending", now, None, None)
  }

  /**
   * POST /api/creator-submissions: the submission is put first, named after the first
   * customer whose phone digits match. The id (`'sub_' + Date.now()`) is a parameter. When
   * the scan meets a customer without a phone first, the handler throws and Express answers
   * 500 with nothing written.
   */
  method Submit(d: DataDir, id: string, phone: string, platform: string, link: string,
                description: string, now: string) returns (r: Reply<Submission>)
    modifies d`submissions
    ensures var scan := ScanByPhone(d.customers, phone);
      && (scan.Throws? ==> r == Bare(500) && d.submissions == old(d.submissions))
      && (!scan.Throws? ==>
            && r == Ok(NewSubmission(id, phone, FoundCustomer(d.customers, scan), platform, link, description, now))
            && d.submissions == [r.value] + old(d.submissions))
  {
    var scan := ScanByPhone(d.customers, phone);
    if scan.Throws? {
      return Bare(500);
    }
    var s := NewSubmission(id, phone, FoundCustomer(d.customers, scan), platform, link, description, now);
    d.submissions := [s] + d.submissions;
    r := Ok(s);
  }

  /** The points a review awards: `pointsAwarded || 100` on approval, none otherwise. */
  function Awarded(status: string, requested: Option<int>): (p: int)
    ensures status != "approved" ==> p == 0
    ensures status == "approved" && requested.Some? && requested.value != 0 ==> p == requested.value
    ensures status == "approved" && (requested.None? || requested.value == 0) ==> p == 100
  {
    if status != "approved" then 0
    else if requested.None? || requested.value == 0 then 100
    else requested.value
  }

  /** The submission after its review. */
  function Reviewed(s: Submission, status: string, requested: Option<int>, now: string): (r: Submission)
    ensures r.status == status && r.reviewedAt == Some(now) && r.pointsAwarded == Some(Awarded(status, requested))
    ensures r.id == s.id && r.phone == s.phone && r.creatorName == s.creatorName && r.submittedAt == s.submittedAt
    ensures r.platform == s.platform && r.link == s.link && r.description == s.description
  {
    s.(status := status, reviewedAt := Some(now), pointsAwarded := Some(Awarded(status, requested)))
  }

  /** `customer.points = (customer.points || 0) + awarded`; nothing else changes, not even the tier. */
  function AddPoints(c: Record, awarded: int): (r: Record)
    ensures r.Keys == c.Keys + {"points"}
    ensures NumOr0(r, "points") == NumOr0(c, "points") + awarded
    ensures forall k | k in c && k != "points" :: r[k] == c[k]
  {
    c["points" := Num(NumOr0(c, "points") + awarded)]
  }

  /**
   * Only a customer patch recomputes the tier, so an award that crosses a tier threshold
   * leaves the tier behind the points: a bronze customer with 450 points who is awarded 100
   * holds 550 points and is still bronze.
   */
  lemma AwardLeavesTierStale(c: Record, awarded: int)
    requires ServerCustomers.TierConsistent(c) && "points" in c && c["points"].Num?
    requires Loyalty.TierOf(c["points"].n + awarded) != Loyalty.TierOf(c["points"].n)
    ensures !ServerCustomers.TierConsistent(AddPoints(c, awarded))
  {
    var r := AddPoints(c, awarded);
    assert r["tier"] == c["tier"];
    assert ServerCustomers.TierPoints(r) == c["points"].n + awarded;
    assert ServerCustomers.TierPoints(c) == c["points"].n;
    if ServerCustomers.TierConsistent(r) {
      Loyalty.TierNameInjective(Loyalty.TierOf(c["points"].n + awarded), Loyalty.TierOf(c["points"].n));
    }
  }

  /** The approved submissions from one phone. */
  function ApprovedFrom(subs: seq<Submission>, phone: string): seq<Submission>
  {
    Filter(subs, (s: Submission) => SamePhone(s.phone, phone) && s.status == "approved")
  }

  /** `'RICO-' + name.split(' ')[0].toUpperCase().slice(0, 6)`. */
  function CreatorCode(name: string): (code: string)
    ensures 5 <= |code| <= 11 && code[..5] == "RICO-"
    ensures forall i | 5 <= i < |code| :: !IsLower(code[i]) && code[i] != ' '
    ensures code[5..] == Upper(Take(FirstWord(name), 6))
  {
    var word := FirstWord(name);
    var suffix := Take(Upper(word), 6);
    assert suffix == Upper(Take(word, 6));
    assert forall i | 0 <= i < |suffix| :: suffix[i] == UpperChar(word[i]);
    "RICO-" + suffix
  }

  /** A creator's first record: the code from the customer's first name, or `RICO-CREATO`. */
  function NewCreator(phone: string, customer: Option<Record>, now: string): (c: Creator)
    ensures c.discountCode == CreatorCode(if NameOrNull(customer).Some? then NameOrNull(customer).value else "CREATOR")
    ensures c.codeUses == 0 && c.codeSales == 0 && c.codeCommission == 0 && c.totalCommission == 0
    ensures c.phone == phone && c.name == NameOf(customer)
  {
    var name := if NameOrNull(customer).Some? then NameOrNull(customer).value else "CREATOR";
    Creator(phone, NameOf(customer), CreatorCode(name), 0, 0, 0, 0, now)
  }

  /**
   * POST /api/creator-submissions/:id/review. An approval of a submission with a phone
   * credits its points to the first customer with those phone digits and, once that phone
   * has three approved submissions and no creator record, creates one with its code. When
   * the customer scan meets a customer without a phone first, the handler throws before
   * anything is written, and Express answers 500.
   */
  method Review(d: DataDir, id: string, status: string, requested: Option<int>, now: string)
    returns (r: Reply<Submission>)
    modifies d`submissions, d`customers, d`creators
    ensures var i := FindIndex(old(d.submissions), SubmissionWithId(id));
      && (i.None? ==> r == Err(404, "Submission not found"))
      && (i.Some? ==>
            var sub := Reviewed(old(d.submissions)[i.value], status, requested, now);
            if status == "approved" && sub.phone != "" && ScanByPhone(old(d.customers), sub.phone).Throws?
            then r == Bare(500)
            else r == Ok(sub) && d.submissions == old(d.submissions)[i.value := sub])
    ensures !r.Ok? ==>
              d.submissions == old(d.submissions) && d.customers == old(d.customers) && d.creators == old(d.creators)
    ensures r.Ok? && !(status == "approved" && r.value.phone != "") ==>
              d.customers == old(d.customers) && d.creators == old(d.creators)
    ensures r.Ok? && status == "approved" && r.value.phone != "" ==>
              var scan := ScanByPhone(old(d.customers), r.value.phone);
              var customer := FoundCustomer(old(d.customers), scan);
              && (scan.Found? || scan.Missing?)
              && d.customers == (if scan.Found? then old(d.customers)[scan.index := AddPoints(customer.value, Awarded(status, requested))]
                                 else old(d.customers))
              && d.creators == (if |ApprovedFrom(d.submissions, r.value.phone)| >= 3
                                   && FindIndex(old(d.creators), CreatorWithPhone(r.value.phone)).None?
                                then old(d.creators) + [NewCreator(r.value.phone, customer, now)]
                                else old(d.creators))
  {
    var i := FindIndex(d.submissions, SubmissionWithId(id));
    if i.None? {
      return Err(404, "Submission not found");
    }
    var sub := Reviewed(d.submissions[i.value], status, requested, now);
    var credit := status == "approved" && sub.phone != "";
    var scan := ScanByPhone(d.customers, sub.phone);
    if credit && scan.Throws? {
      return Bare(500);
    }
    d.submissions := d.submissions[i.value := sub];
    r := Ok(sub);
    if credit {
      var customer := FoundCustomer(d.customers, scan);
      if scan.Found? {
        d.customers := d.customers[scan.index := AddPoints(d.customers[scan.index], sub.pointsAwarded.value)];
      }
      if |ApprovedFrom(d.submissions, sub.phone)| >= 3 {
        if FindIndex(d.creators, CreatorWithPhone(sub.phone)).None? {
          d.creators := d.creators + [NewCreator(sub.phone, customer, now)];
        }
      }
    }
  }

  /** An approved submission is among the approvals counted for its phone. */
  lemma {:induction false} ApprovalIsCounted(subs: seq<Submission>, i: nat)
    requires i < |subs| && subs[i].status == "approved"
    ensures subs[i] in ApprovedFrom(subs, subs[i].phone)
  {
    FilterKeeps(subs, (s: Submission) => SamePhone(s.phone, subs[i].phone) && s.status == "approved", subs[i]);
  }

  /** The totals shown to a creator (GET /api/creator-submissions/phone/:phone). */
  datatype CreatorStats = CreatorStats(
    submissions: seq<Submission>,
    totalPoints: int,
    totalCommission: int,
    discountCode: Option<string>,
    codeUses: int,
    codeSales: int,
    codeCommission: int)

  /** `pointsAwarded || 100` summed over submissions. */
  function PointsOf(subs: seq<Submission>): (p: int)
    ensures (forall i | 0 <= i < |subs| :: subs[i].pointsAwarded.None? || subs[i].pointsAwarded.value >= 0) ==> p >= 0
  {
    if subs == [] then 0
    else
      var p := subs[0].pointsAwarded;
      (if p.None? || p.value == 0 then 100 else p.value) + PointsOf(subs[1..])
  }

  /** The submissions sent from a phone. */
  function FromPhone(phone: string): Submission -> bool
  {
    (s: Submission) => SamePhone(s.phone, phone)
  }

  function IsApproved(s: Submission): bool { s.status == "approved" }

  /**
   * GET /api/creator-submissions/phone/:phone: every submission from the phone, in stored
   * order; the points of the approved ones; and the counters of the first creator with that
   * phone, or zeros and no code without one.
   */
  function StatsFor(subs: seq<Submission>, creators: seq<Creator>, phone: string): (st: CreatorStats)
    ensures st.submissions == Filter(subs, FromPhone(phone))
    ensures st.totalPoints == PointsOf(Filter(st.submissions, IsApproved))
    ensures forall s | s in st.submissions :: s in subs && SamePhone(s.phone, phone)
    ensures forall s | s in subs && SamePhone(s.phone, phone) :: s in st.submissions
    ensures var j := FindIndex(creators, CreatorWithPhone(phone));
      && (j.None? ==> st.discountCode.None? && st.totalCommission == 0 && st.codeUses == 0
                      && st.codeSales == 0 && st.codeCommission == 0)
      && (j.Some? ==>
            var c := creators[j.value];
            && SamePhone(c.phone, phone)
            && st.totalCommission == c.totalCommission && st.codeUses == c.codeUses
            && st.codeSales == c.codeSales && st.codeCommission == c.codeCommission
            && st.discountCode == (if c.discountCode == "" then None else Some(c.discountCode)))
    ensures st.discountCode.Some? ==> exists c | c in creators :: SamePhone(c.phone, phone) && c.discountCode == st.discountCode.value
  {
    var mine := Filter(subs, FromPhone(phone));
    forall s | s in subs && SamePhone(s.phone, phone) ensures s in mine {
      FilterKeeps(subs, FromPhone(phone), s);
    }
    var approved := Filter(mine, IsApproved);
    var points := PointsOf(approved);
    match FindIndex(creators, CreatorWithPhone(phone))
    case None => CreatorStats(mine, points, 0, None, 0, 0, 0)
    case Some(j) =>
      var c := creators[j];
      CreatorStats(mine, points, c.totalCommission,
                   if c.discountCode == "" then None else Some(c.discountCode),
                   c.codeUses, c.codeSales, c.codeCommission)
  }

  /** Every approval earns at least the default 100 points in the total unless staff set a different award. */
  lemma {:induction false} PointsOfDefault(subs: seq<Submission>)
    requires forall i | 0 <= i < |subs| :: subs[i].pointsAwarded.None?
    ensures PointsOf(subs) == 100 * |subs|
  {
    if subs != [] {
      PointsOfDefault(subs[1..]);
    }
  }

  // ---------------------------------------------------------------------
  // Discount codes
  // ---------------------------------------------------------------------

  /** A validated code: creator codes carry the creator's phone as `creatorId`. */
  datatype Discount = Discount(code: string, percent: int, creatorId: Option<string>, creatorName: Option<string>)

  function CreatorWithCode(code: string): Creator -> bool
  {
    (c: Creator) => c.discountCode == code
  }

  function ActivePromo(code: string): Promo -> bool
  {
    (p: Promo) => p.code == code && p.active
  }

  /** `promo.percent || 10`. */
  function PromoPercent(p: Promo): int
  {
    if p.percent.None? || p.percent.value == 0 then 10 else p.percent.value
  }

  /**
   * GET /api/discount-codes/:code: the code upper-cased, a creator's code first (20% off),
   * then an active promotion, and 404 when neither has it.
   */
  function Validate(creators: seq<Creator>, promos: seq<Promo>, code: string): (r: Reply<Discount>)
    ensures r.Ok? ==> r.value.code == Upper(code)
    ensures r.Ok? && r.value.creatorId.Some? <==> exists c | c in creators :: c.discountCode == Upper(code)
    ensures r.Ok? && r.value.creatorId.Some? ==>
              r.value.percent == 20 &&
              exists c | c in creators :: c.discountCode == Upper(code) && r.value.creatorId.value == c.phone
    ensures r.Ok? && r.value.creatorId.None? ==>
              exists p | p in promos :: p.active && p.code == Upper(code) && r.value.percent == PromoPercent(p)
    ensures r.Err? <==> ((forall c | c in creators :: c.discountCode != Upper(code))
                         && (forall p | p in promos :: !(p.code == Upper(code) && p.active)))
    ensures r.Err? ==> r == Err(404, "Invalid code")
  {
    var key := Upper(code);
    match FindIndex(creators, CreatorWithCode(key))
    case Some(i) =>
      assert creators[i] in creators;
      Ok(Discount(creators[i].discountCode, 20, Some(creators[i].phone), creators[i].name))
    case None =>
      match FindIndex(promos, ActivePromo(key))
      case Some(j) =>
        assert promos[j] in promos;
        Ok(Discount(promos[j].code, PromoPercent(promos[j]), None, None))
      case None => Err(404, "Invalid code")
  }

  /** An issued creator code is accepted however the customer types its letters. */
  lemma IssuedCodeValidates(creators: seq<Creator>, promos: seq<Promo>, c: Creator, typed: string)
    requires c in creators
    requires forall i | 0 <= i < |c.discountCode| :: !IsLower(c.discountCode[i])
    requires Upper(typed) == c.discountCode
    ensures Validate(creators, promos, typed).Ok?
    ensures Validate(creators, promos, typed).value.percent == 20
  {
  }

  /** Codes made by `CreatorCode` have no lower-case letters, so the lemma above applies to them. */
  lemma CreatorCodeIsUpper(name: string)
    ensures forall i | 0 <= i < |CreatorCode(name)| :: !IsLower(CreatorCode(name)[i])
  {
    var code := CreatorCode(name);
    assert code[..5] == "RICO-";
    forall i | 0 <= i < 5
      ensures !IsLower(code[i])
    {
      assert code[i] == "RICO-"[i];
    }
  }

  /** `Math.round(discountAmount * 0.5)`: half the discount, halves rounded up. */
  function Commission(discount: int): (c: int)
    ensures 2 * c == discount || 2 * c == discount + 1
  {
    (discount + 1) / 2
  }

  /** A creator's record after one use of their code. */
  function Credited(c: Creator, orderTotal: int, discount: int): (r: Creator)
    ensures r.codeUses == c.codeUses + 1 && r.codeSales == c.codeSales + orderTotal
    ensures r.codeCommission == c.codeCommission + Commission(discount)
    ensures r.totalCommission == c.totalCommission + Commission(discount)
    ensures r.phone == c.phone && r.name == c.name && r.discountCode == c.discountCode && r.createdAt == c.createdAt
  {
    c.(codeUses := c.codeUses + 1, codeSales := c.codeSales + orderTotal,
       codeCommission := c.codeCommission + Commission(discount),
       totalCommission := c.totalCommission + Commission(discount))
  }

  /**
   * POST /api/discount-codes/:code/use: the first creator holding the code is credited and
   * the commission returned; a promotion or unknown code records nothing.
   */
  method UseCode(d: DataDir, code: string, orderTotal: int, discount: int) returns (commission: Option<int>)
    modifies d`creators
    ensures var i := FindIndex(old(d.creators), CreatorWithCode(Upper(code)));
      && (i.None? ==> commission.None? && d.creators == old(d.creators))
      && (i.Some? ==> commission == Some(Commission(discount))
                      && d.creators == old(d.creators)[i.value := Credited(old(d.creators)[i.value], orderTotal, discount)])
  {
    var i := FindIndex(d.creators, CreatorWithCode(Upper(code)));
    if i.None? {
      return None;
    }
    d.creators := d.creators[i.value := Credited(d.creators[i.value], orderTotal, discount)];
    commission := Some(Commission(discount));
  }

  /** Commission earned through the code and total commission move together. */
  predicate CommissionsAgree(cs: seq<Creator>)
  {
    forall i | 0 <= i < |cs| :: cs[i].codeCommission == cs[i].totalCommission
  }

  lemma UseKeepsCommissionsAgreeing(cs: seq<Creator>, i: nat, orderTotal: int, discount: int)
    requires CommissionsAgree(cs) && i < |cs|
    ensures CommissionsAgree(cs[i := Credited(cs[i], orderTotal, discount)])
  {
  }
}

=== FILE: founders.dfy ===
/**
 * The founders ledger (api/admin.js, api/admin/founders.js, api/admin/verify-founder.js and
 * tools/founders_api_v2.js): founder-ticket sales at 1500 each, recorded pending, confirmed
 * by an administrator, and mirrored into the customer table as VIP gold members.
 */
module Founders {
  import opened Common
  import opened Text
  import opened Seqs
  import opened Numbering
  import opened StoreDb

  /** The price of a founder ticket. */
  const TicketPrice := 1500

  function IsConfirmed(f: Founder): bool { f.status == "confirmed" }
  function IsPending(f: Founder): bool { f.status == "pending" }
  function CreatedAt(f: Founder): int { f.createdAt }

  datatype Summary = Summary(sold: nat, revenue: int, pending: seq<Founder>, confirmed: seq<Founder>)

  /**
   * The summary every dashboard shows: the founders newest first, split into pending and
   * confirmed, with revenue at the ticket price per confirmed founder. When the read fails
   * the summary is empty.
   */
  function Ledger(fs: seq<Founder>, fault: bool): (s: Summary)
    ensures fault ==> s == Summary(0, 0, [], [])
    ensures !fault ==> s.sold == |Filter(fs, IsConfirmed)|
    ensures s.sold == |s.confirmed| && s.revenue == TicketPrice * s.sold
    ensures forall f | f in s.pending :: f in fs && f.status == "pending"
    ensures forall f | f in s.confirmed :: f in fs && f.status == "confirmed"
    ensures !fault ==> forall f | f in fs && f.status == "pending" :: f in s.pending
    ensures !fault ==> forall f | f in fs && f.status == "confirmed" :: f in s.confirmed
    ensures !fault ==> multiset(s.pending) == multiset(Filter(fs, IsPending))
    ensures !fault ==> multiset(s.confirmed) == multiset(Filter(fs, IsConfirmed))
    ensures SortedDesc(s.pending, CreatedAt) && SortedDesc(s.confirmed, CreatedAt)
  {
    if fault then Summary(0, 0, [], [])
    else
      var sorted := SortDesc(fs, CreatedAt);
      var confirmed := Filter(sorted, IsConfirmed);
      var pending := Filter(sorted, IsPending);
      FilterSorted(sorted, IsConfirmed, CreatedAt);
      FilterSorted(sorted, IsPending, CreatedAt);
      FilterCountPermutation(sorted, fs, IsConfirmed);
      FilterPermutation(sorted, fs, IsConfirmed);
      FilterPermutation(sorted, fs, IsPending);
      assert forall f | f in fs :: f in sorted by {
        forall f | f in fs ensures f in sorted {
          assert f in multiset(fs);
        }
      }
      assert forall f | f in sorted :: f in fs by {
        forall f | f in sorted ensures f in fs {
          assert f in multiset(sorted);
        }
      }
      assert forall f | f in fs && IsConfirmed(f) :: f in confirmed by {
        forall f | f in fs && IsConfirmed(f) ensures f in confirmed {
          FilterKeeps(sorted, IsConfirmed, f);
        }
      }
      assert forall f | f in fs && IsPending(f) :: f in pending by {
        forall f | f in fs && IsPending(f) ensures f in pending {
          FilterKeeps(sorted, IsPending, f);
        }
      }
      Summary(|confirmed|, TicketPrice * |confirmed|, pending, confirmed)
  }

  /** A founder with any status other than pending or confirmed appears in neither list. */
  lemma OtherStatusesHidden(fs: seq<Founder>, fault: bool, f: Founder)
    requires f.status != "pending" && f.status != "confirmed"
    ensures f !in Ledger(fs, fault).pending && f !in Ledger(fs, fault).confirmed
  {
  }

  /** `value || fallback` for a text field. */
  function OrDefault(s: Option<string>, fallback: string): (r: string)
    ensures s.Some? && s.value != "" ==> r == s.value
    ensures s.None? || s.value == "" ==> r == fallback
  {
    if s.Some? && s.value != "" then s.value else fallback
  }

  /** A manual sale; `ticket` is only honoured by the tools version. */
  datatype SaleRequest = SaleRequest(name: Option<string>, phone: string, ticket: Option<string>,
                                     ref: Option<string>, status: Option<string>)

  /** The ticket for the next sale: the one supplied, else `RA-F` and one past the count, padded to 3. */
  function NextTicket(supplied: Option<string>, count: nat): (t: string)
    ensures supplied.Some? && supplied.value != "" ==> t == supplied.value
    ensures supplied.None? || supplied.value == "" ==> t == FounderTicket(count + 1)
  {
    OrDefault(supplied, FounderTicket(count + 1))
  }

  /** The row inserted for a sale: digits-only phone, `CASH` without a reference, pending without a status. */
  function NewFounder(req: SaleRequest, count: nat, id: nat, now: int): (f: Founder)
    ensures f.id == id && f.name == req.name && f.phone == DigitsOnly(req.phone)
    ensures f.ticket == NextTicket(req.ticket, count)
    ensures f.refNotes == OrDefault(req.ref, "CASH") && f.status == OrDefault(req.status, "pending")
    ensures f.amount == TicketPrice && f.createdAt == now && f.confirmedAt.None?
  {
    Founder(id, req.name, DigitsOnly(req.phone), NextTicket(req.ticket, count),
            OrDefault(req.ref, "CASH"), OrDefault(req.status, "pending"), TicketPrice, now, None)
  }

  /** Recording a sale: one founder appended under the next serial id, or the insert's error as a 500. */
  method AddFounder(d: Db, req: SaleRequest, now: int, fault: Option<string>) returns (r: Reply<Founder>)
    modifies d`founders, d`nextFounderId
    ensures fault.Some? ==> r == Err(500, fault.value)
                            && d.founders == old(d.founders) && d.nextFounderId == old(d.nextFounderId)
    ensures fault.None? ==>
      && r == Ok(NewFounder(req, |old(d.founders)|, old(d.nextFounderId), now))
      && d.founders == old(d.founders) + [r.value]
      && d.nextFounderId == old(d.nextFounderId) + 1
    ensures old(d.Valid()) ==> d.Valid()
  {
    if fault.Some? {
      return Err(500, fault.value);
    }
    var f := NewFounder(req, |d.founders|, d.nextFounderId, now);
    d.AppendFounder(f);
    r := Ok(f);
  }

  function WithFounderId(id: nat): Founder -> bool
  {
    (f: Founder) => f.id == id
  }

  /** Removing founder `id`, or the delete's error as a 500. */
  method DeleteFounder(d: Db, id: nat, fault: Option<string>) returns (r: Reply<bool>)
    modifies d`founders
    ensures fault.Some? ==> r == Err(500, fault.value) && d.founders == old(d.founders)
    ensures fault.None? ==> r == Ok(true) && d.founders == DeleteWhere(old(d.founders), WithFounderId(id))
    ensures fault.None? ==> forall f | f in d.founders :: f.id != id
    ensures old(d.Valid()) ==> d.Valid()
  {
    if fault.Some? {
      return Err(500, fault.value);
    }
    ghost var wasValid := d.Valid();
    if wasValid {
      DeleteKeepsSerial(d.founders, d.nextFounderId, id);
    }
    d.founders := DeleteWhere(d.founders, WithFounderId(id));
    r := Ok(true);
    assert wasValid ==> d.Valid();
  }

  /** Deleting founders keeps the serial: the ids left are fewer, still distinct and below it. */
  lemma DeleteKeepsSerial(fs: seq<Founder>, next: nat, id: nat)
    requires FoundersSerial(fs, next)
    ensures FoundersSerial(DeleteWhere(fs, WithFounderId(id)), next)
  {
    var r := DeleteWhere(fs, WithFounderId(id));
    assert KeysDistinct(fs, FounderKey) by {
      forall i, j | 0 <= i < |fs| && 0 <= j < |fs| && FounderKey(fs[i]) == FounderKey(fs[j]) ensures i == j {
        assert fs[i].id == fs[j].id;
      }
    }
    DeleteWhereDistinct(fs, WithFounderId(id), FounderKey);
    forall i, j | 0 <= i < |r| && 0 <= j < |r| && r[i].id == r[j].id ensures i == j {
      assert FounderKey(r[i]) == FounderKey(r[j]);
    }
    forall i | 0 <= i < |r| ensures r[i].id < next {
      assert r[i] in r;
    }
  }

  /**
   * How a verification is written and answered: api/admin.js writes a bare note and fails
   * outright on a store error; the other two tag the note and answer the error with 500.
   */
  datatype Variant = AdminAction | VerifyEndpoint | ToolsRoute

  function Confirm(now: string): Founder -> Founder
  {
    (f: Founder) => f.(status := "confirmed", confirmedAt := Some(now))
  }

  /** The customer note naming the founder's ticket. */
  function FounderNote(ticket: string, v: Variant, created: bool): string
  {
    "FOUNDER: " + ticket + (if v == AdminAction then "" else if created then " (Auto-Created)" else " (Verified)")
  }

  /** The upgrade of an existing customer: VIP, gold, and the note; everything else kept. */
  function MakeFounder(note: string): CustomerRow -> CustomerRow
  {
    (c: CustomerRow) => c.(isVip := true, tier := "gold", notes := Some(note))
  }

  /**
   * The customer table after the founder is mirrored into it: the customer with the founder's
   * phone is upgraded, or a VIP gold customer with 500 points is enrolled under the next id.
   */
  function Upgraded(cs: seq<CustomerRow>, f: Founder, v: Variant): (r: seq<CustomerRow>)
    ensures exists i :: 0 <= i < |r| && r[i].phone == Some(DigitsOnly(f.phone)) && r[i].isVip && r[i].tier == "gold"
    ensures Single(cs, WithPhone(DigitsOnly(f.phone))).Some? ==> |r| == |cs|
    ensures Single(cs, WithPhone(DigitsOnly(f.phone))).None? ==>
      r == cs + [Enrolled(NextId(cs), f.name, DigitsOnly(f.phone), "gold", 500, true, None,
                          FounderNote(f.ticket, v, true))]
  {
    var clean := DigitsOnly(f.phone);
    match Single(cs, WithPhone(clean))
    case Some(e) =>
      var r := UpdateWhere(cs, WithId(e.id), MakeFounder(FounderNote(f.ticket, v, false)));
      var k :| 0 <= k < |cs| && cs[k] == e;
      assert r[k].phone == Some(clean) && r[k].isVip;
      r
    case None =>
      var r := cs + [Enrolled(NextId(cs), f.name, clean, "gold", 500, true, None, FounderNote(f.ticket, v, true))];
      assert r[|cs|].phone == Some(clean);
      r
  }

  /** `r` and `s` have the same length and agree everywhere but at `k`. */
  predicate SameExceptAt<T(==)>(r: seq<T>, s: seq<T>, k: int)
  {
    |r| == |s| && forall j | 0 <= j < |s| && j != k :: r[j] == s[j]
  }

  /**
   * With ids distinct, mirroring a founder changes exactly one customer row: one appended, or
   * the one with the founder's phone made a gold VIP carrying the note for an existing
   * customer, its id, name, phone and points kept, and every other row kept.
   */
  lemma UpgradeTouchesOneRow(cs: seq<CustomerRow>, f: Founder, v: Variant)
    requires IdsDistinct(cs)
    ensures var r := Upgraded(cs, f, v);
      || (|r| == |cs| + 1 && r[..|cs|] == cs)
      || (exists k :: 0 <= k < |cs| && cs[k].phone == Some(DigitsOnly(f.phone)) && SameExceptAt(r, cs, k)
            && r[k] == cs[k].(isVip := true, tier := "gold", notes := Some(FounderNote(f.ticket, v, false))))
  {
    var clean := DigitsOnly(f.phone);
    var r := Upgraded(cs, f, v);
    match Single(cs, WithPhone(clean))
    case Some(e) =>
      var k :| 0 <= k < |cs| && cs[k] == e;
      forall j | 0 <= j < |cs| && j != k ensures r[j] == cs[j] {
        assert cs[j].id != e.id;
      }
      assert SameExceptAt(r, cs, k);
    case None =>
      assert r[..|cs|] == cs;
  }

  /** The mirroring rewrites VIP flag, tier and notes, or appends a new id and phone: ids and phones stay unique. */
  lemma UpgradeKeepsUnique(cs: seq<CustomerRow>, f: Founder, v: Variant)
    requires IdsDistinct(cs) && PhonesUnique(cs)
    ensures IdsDistinct(Upgraded(cs, f, v)) && PhonesUnique(Upgraded(cs, f, v))
  {
    var clean := DigitsOnly(f.phone);
    match Single(cs, WithPhone(clean))
    case Some(e) =>
      var r := Upgraded(cs, f, v);
      assert forall i | 0 <= i < |cs| :: r[i].id == cs[i].id && r[i].phone == cs[i].phone;
    case None =>
      if clean != "" {
        PhoneLookup(cs, clean);
      }
      AppendCustomerKeepsUnique(cs, Enrolled(NextId(cs), f.name, clean, "gold", 500, true, None,
                                             FounderNote(f.ticket, v, true)));
  }

  /**
   * Confirming founder `id`: the founder row is confirmed, then mirrored into the customer
   * table. `fault` is the founder update failing with message `error`, as it also does when
   * no founder has the id; `integrationFault` is the customer step failing, which is not
   * reported.
   */
  method VerifyFounder(d: Db, id: nat, now: string, v: Variant, fault: bool, error: string, integrationFault: bool)
    returns (r: Reply<Founder>)
    modifies d`founders, d`customers
    ensures var found := Single(old(d.founders), WithFounderId(id));
      && (fault || found.None? ==>
            && r == (if v == AdminAction then Bare(500) else Err(500, error))
            && d.founders == old(d.founders) && d.customers == old(d.customers))
      && (!fault && found.Some? ==>
            && r == Ok(Confirm(now)(found.value))
            && d.founders == UpdateWhere(old(d.founders), WithFounderId(id), Confirm(now))
            && d.customers == (if integrationFault then old(d.customers) else Upgraded(old(d.customers), found.value, v)))
    ensures old(d.Valid()) ==> d.Valid()
  {
    var found := Single(d.founders, WithFounderId(id));
    if fault || found.None? {
      return if v == AdminAction then Bare(500) else Err(500, error);
    }
    ConfirmFounder(d, id, now);
    if !integrationFault {
      MirrorFounder(d, found.value, v);
    }
    r := Ok(Confirm(now)(found.value));
  }

  /** The founders update of a verification: ids are untouched, so the serial still holds. */
  method ConfirmFounder(d: Db, id: nat, now: string)
    modifies d`founders
    ensures d.founders == UpdateWhere(old(d.founders), WithFounderId(id), Confirm(now))
    ensures old(d.Valid()) ==> d.Valid()
  {
    ghost var wasValid := d.Valid();
    var confirmed := UpdateWhere(d.founders, WithFounderId(id), Confirm(now));
    assert forall i | 0 <= i < |d.founders| :: confirmed[i].id == d.founders[i].id;
    d.founders := confirmed;
    assert wasValid ==> d.Valid();
  }

  /** The customers step of a verification: the founder becomes a gold VIP customer. */
  method MirrorFounder(d: Db, f: Founder, v: Variant)
    modifies d`customers
    ensures d.customers == Upgraded(old(d.customers), f, v)
    ensures old(d.Valid()) ==> d.Valid()
  {
    ghost var wasValid := d.Valid();
    if wasValid {
      UpgradeKeepsUnique(d.customers, f, v);
    }
    d.customers := Upgraded(d.customers, f, v);
    assert wasValid ==> d.Valid();
  }

  /** Under distinct founder ids, the founder confirmed is the one with that id, wherever it is. */
  lemma VerifiedIsTheFounder(fs: seq<Founder>, id: nat, i: nat)
    requires FounderIdsDistinct(fs) && i < |fs| && fs[i].id == id
    ensures Single(fs, WithFounderId(id)) == Some(fs[i])
  {
    assert AtMostOne(fs, WithFounderId(id)) by {
      forall a, b | 0 <= a < |fs| && 0 <= b < |fs| && WithFounderId(id)(fs[a]) && WithFounderId(id)(fs[b])
        ensures a == b
      {
        assert fs[a].id == fs[b].id;
      }
    }
    SingleOfUnique(fs, WithFounderId(id));
  }

  /**
   * Confirming a founder who was not yet confirmed sells one more ticket: the summary's
   * count goes up by one and the revenue by the ticket price.
   */
  lemma ConfirmingSellsOne(fs: seq<Founder>, id: nat, now: string, i: nat)
    requires FounderIdsDistinct(fs) && i < |fs| && fs[i].id == id && !IsConfirmed(fs[i])
    ensures Ledger(UpdateWhere(fs, WithFounderId(id), Confirm(now)), false).sold == Ledger(fs, false).sold + 1
    ensures Ledger(UpdateWhere(fs, WithFounderId(id), Confirm(now)), false).revenue
            == Ledger(fs, false).revenue + TicketPrice
  {
    var updated := UpdateWhere(fs, WithFounderId(id), Confirm(now));
    forall j | 0 <= j < |fs| && j != i ensures IsConfirmed(fs[j]) == IsConfirmed(updated[j]) {
      assert fs[j].id != fs[i].id;
    }
    FilterCountGains(fs, updated, IsConfirmed, i);
  }

  /** A sale recorded without a status is listed as pending, and the count sold is unchanged. */
  lemma SaleListedPending(fs: seq<Founder>, req: SaleRequest, id: nat, now: int)
    requires req.status.None? || req.status.value == ""
    ensures var f := NewFounder(req, |fs|, id, now);
      f in Ledger(fs + [f], false).pending && Ledger(fs + [f], false).sold == Ledger(fs, false).sold
  {
    var f := NewFounder(req, |fs|, id, now);
    FilterAppend(fs, f, IsConfirmed);
  }

  /** What the admin endpoints answer. */
  datatype AdminReply = SummaryOf(summary: Summary) | Entry(founder: Founder) | Done | Verified(founder: Founder)

  /**
   * api/admin.js, routed by `?action=`: the founders summary, a sale, a delete (only with an
   * id), a verification; anything else is 404.
   */
  method Admin(d: Db, verb: Verb, action: string, queryId: Option<nat>, bodyId: Option<nat>, sale: SaleRequest, now: int, stamp: string,
               readFault: bool, fault: Option<string>, verifyFault: bool, error: string)
    returns (r: Reply<AdminReply>)
    modifies d`founders, d`nextFounderId, d`customers
    ensures verb == Options ==> r == Bare(200)
    ensures verb != Options && action == "founders" && verb == Get ==>
      && r == Ok(SummaryOf(Ledger(old(d.founders), readFault)))
      && d.founders == old(d.founders) && d.nextFounderId == old(d.nextFounderId) && d.customers == old(d.customers)
    ensures verb != Options && action == "founders" && verb == Post ==>
      && d.customers == old(d.customers)
      && if fault.Some? then r == Err(500, fault.value)
         else r == Ok(Entry(NewFounder(sale.(ticket := None), |old(d.founders)|, old(d.nextFounderId), now)))
              && d.founders == old(d.founders) + [r.value.founder] && d.nextFounderId == old(d.nextFounderId) + 1
    ensures verb != Options && action == "founders" && verb == Delete && queryId.Some? ==>
      && d.customers == old(d.customers) && d.nextFounderId == old(d.nextFounderId)
      && if fault.Some? then r == Err(500, fault.value)
         else r == Ok(Done) && d.founders == DeleteWhere(old(d.founders), WithFounderId(queryId.value))
    ensures verb != Options && action == "verify-founder" && verb == Post ==>
      var found := if bodyId.Some? then Single(old(d.founders), WithFounderId(bodyId.value)) else None;
      && d.nextFounderId == old(d.nextFounderId)
      && (verifyFault || found.None? ==> r == Bare(500))
      && (!verifyFault && found.Some? ==>
            && r == Ok(Verified(Confirm(stamp)(found.value)))
            && d.founders == UpdateWhere(old(d.founders), WithFounderId(bodyId.value), Confirm(stamp))
            && d.customers == Upgraded(old(d.customers), found.value, AdminAction))
    ensures verb != Options && !(action == "founders" && (verb == Get || verb == Post || (verb == Delete && queryId.Some?)))
            && !(action == "verify-founder" && verb == Post) ==>
      r == Err(404, "Action not found") && d.founders == old(d.founders) && d.customers == old(d.customers)
    ensures !r.Ok? ==>
      d.customers == old(d.customers) && d.founders == old(d.founders) && d.nextFounderId == old(d.nextFounderId)
    ensures old(d.Valid()) ==> d.Valid()
  {
    if verb == Options {
      return Bare(200);
    }
    if action == "founders" && verb == Get {
      return Ok(SummaryOf(Ledger(d.founders, readFault)));
    }
    if action == "founders" && verb == Post {
      var added := AddFounder(d, sale.(ticket := None), now, fault);
      r := if added.Ok? then Ok(Entry(added.value)) else Err(500, fault.value);
      return;
    }
    if action == "founders" && verb == Delete && queryId.Some? {
      var deleted := DeleteFounder(d, queryId.value, fault);
      r := if deleted.Ok? then Ok(Done) else Err(500, fault.value);
      return;
    }
    if action == "verify-founder" && verb == Post {
      if bodyId.None? {
        // the body carries no id: the update matches nothing and the handler fails on the missing row
        return Bare(500);
      }
      var verified := VerifyFounder(d, bodyId.value, stamp, AdminAction, verifyFault, error, false);
      r := if verified.Ok? then Ok(Verified(verified.value)) else Bare(500);
      return;
    }
    r := Err(404, "Action not found");
  }

  /** api/admin/founders.js: the summary on GET, a sale on POST, 405 otherwise. */
  method FoundersEndpoint(d: Db, verb: Verb, sale: SaleRequest, now: int, readFault: bool, fault: Option<string>)
    returns (r: Reply<AdminReply>)
    modifies d`founders, d`nextFounderId
    ensures verb == Options ==> r == Bare(200)
    ensures verb == Get ==> r == Ok(SummaryOf(Ledger(old(d.founders), readFault)))
    ensures verb == Post ==>
      if fault.Some? then r == Err(500, fault.value)
      else r == Ok(Entry(NewFounder(sale.(ticket := None), |old(d.founders)|, old(d.nextFounderId), now)))
           && d.founders == old(d.founders) + [r.value.founder]
    ensures verb != Options && verb != Get && verb != Post ==> r == Err(405, "Method Not Allowed")
    ensures !(verb == Post && r.Ok?) ==> d.founders == old(d.founders)
    ensures d.nextFounderId == old(d.nextFounderId) + (if verb == Post && r.Ok? then 1 else 0)
    ensures old(d.Valid()) ==> d.Valid()
  {
    if verb == Options {
      return Bare(200);
    }
    if verb == Get {
      return Ok(SummaryOf(Ledger(d.founders, readFault)));
    }
    if verb == Post {
      var added := AddFounder(d, sale.(ticket := None), now, fault);
      r := if added.Ok? then Ok(Entry(added.value)) else Err(500, fault.value);
      return;
    }
    r := Err(405, "Method Not Allowed");
  }

  /** api/admin/verify-founder.js: POST only. */
  method VerifyFounderEndpoint(d: Db, verb: Verb, id: nat, stamp: string, fault: bool, error: string,
                               integrationFault: bool)
    returns (r: Reply<Founder>)
    modifies d`founders, d`customers
    ensures verb == Options ==> r == Bare(200)
    ensures verb != Options && verb != Post ==> r == Bare(405)
    ensures verb != Post ==> d.founders == old(d.founders) && d.customers == old(d.customers)
    ensures verb == Post ==>
      var found := Single(old(d.founders), WithFounderId(id));
      && (fault || found.None? ==> r == Err(500, error) && d.founders == old(d.founders) && d.customers == old(d.customers))
      && (!fault && found.Some? ==>
            && r == Ok(Confirm(stamp)(found.value))
            && d.founders == UpdateWhere(old(d.founders), WithFounderId(id), Confirm(stamp))
            && d.customers == (if integrationFault then old(d.customers)
                               else Upgraded(old(d.customers), found.value, VerifyEndpoint)))
    ensures old(d.Valid()) ==> d.Valid()
  {
    if verb == Options {
      return Bare(200);
    }
    if verb != Post {
      return Bare(405);
    }
    r := VerifyFounder(d, id, stamp, VerifyEndpoint, fault, error, integrationFault);
  }
}

=== FILE: inventory.dfy ===
/** Waste logging in server.js: the entry is kept and the wasted item's stock drawn down (server.js:137-155). */
module Inventory {
  import opened Common
  import opened Json
  import opened Seqs
  import opened ServerData
  import Text

  /** `{ ...body, timestamp }`. */
  function WasteEntry(body: Record, now: string): (e: Record)
    ensures e.Keys == body.Keys + {"timestamp"}
    ensures e["timestamp"] == Str(now)
    ensures forall k | k in body && k != "timestamp" :: e[k] == body[k]
  {
    body["timestamp" := Str(now)]
  }

  /** `Math.max(0, stock - quantity)`: the stock left, floored at zero. */
  function AfterWaste(stock: int, quantity: int): (r: int)
    ensures r >= 0
    ensures stock - quantity >= 0 ==> r == stock - quantity
    ensures stock - quantity < 0 ==> r == 0
    ensures 0 <= quantity && 0 <= stock ==> r <= stock
  {
    Max(0, stock - quantity)
  }

  /**
   * `Math.max(0, item.currentStock - quantity)` on JSON values: both operands are converted
   * to numbers, and a NaN on either side is NaN after `Math.max`, which `JSON.stringify`
   * writes as null.
   */
  function StockAfter(stock: Value, quantity: Option<int>): Value
  {
    if ToNumber(stock).Some? && quantity.Some? then Num(AfterWaste(ToNumber(stock).value, quantity.value))
    else Null
  }

  function WastedItem(body: Record): Item -> bool
  {
    (i: Item) => "itemId" in body && body["itemId"] == Str(i.id)
  }

  /** The inventory after a waste entry: only the first item with the body's itemId changes. */
  function Wasted(items: seq<Item>, body: Record): (r: seq<Item>)
    ensures |r| == |items|
    ensures forall j | 0 <= j < |r| :: r[j].id == items[j].id && r[j].details == items[j].details
    ensures FindIndex(items, WastedItem(body)).None? ==> r == items
    ensures forall j | 0 <= j < |r| && Some(j) != FindIndex(items, WastedItem(body)) :: r[j] == items[j]
    ensures FindIndex(items, WastedItem(body)).Some? ==>
              var j := FindIndex(items, WastedItem(body)).value;
              r[j].currentStock == StockAfter(items[j].currentStock, FieldNumber(body, "quantity"))
  {
    match FindIndex(items, WastedItem(body))
    case None => items
    case Some(j) =>
      items[j := items[j].(currentStock := StockAfter(items[j].currentStock, FieldNumber(body, "quantity")))]
  }

  /** Every stock that is a number is at least zero. */
  predicate StocksNonNegative(items: seq<Item>)
  {
    forall j | 0 <= j < |items| :: items[j].currentStock.Num? ==> items[j].currentStock.n >= 0
  }

  /** Logging waste never drives a numeric stock below zero. */
  lemma WastePreservesStocks(items: seq<Item>, body: Record)
    requires StocksNonNegative(items)
    ensures StocksNonNegative(Wasted(items, body))
  {
  }

  /**
   * A waste entry without a quantity, or with one that is not a number, leaves the item's
   * stock null; a quantity sent as digit text is subtracted as a number.
   */
  lemma WasteCoercesQuantity(items: seq<Item>, body: Record, j: nat)
    requires FindIndex(items, WastedItem(body)) == Some(j)
    ensures "quantity" !in body ==> Wasted(items, body)[j].currentStock == Null
    ensures "quantity" in body && body["quantity"].Obj? ==> Wasted(items, body)[j].currentStock == Null
    ensures "quantity" in body && body["quantity"].Str? && body["quantity"].s != "" && Text.AllDigits(body["quantity"].s)
            && items[j].currentStock.Num? ==>
              Wasted(items, body)[j].currentStock
              == Num(AfterWaste(items[j].currentStock.n, Text.Value(body["quantity"].s)))
  {
  }

  /** POST /api/waste: the entry is appended and the inventory updated. */
  method LogWaste(d: DataDir, body: Record, now: string) returns (e: Record)
    modifies d`waste, d`inventory
    ensures e == WasteEntry(body, now)
    ensures d.waste == old(d.waste) + [e]
    ensures d.inventory == Wasted(old(d.inventory), body)
  {
    e := WasteEntry(body, now);
    d.waste := d.waste + [e];
    d.inventory := Wasted(d.inventory, body);
  }
}

=== FILE: json.dfy ===
/**
 * The JSON objects server.js reads from its data files and spreads request bodies into
 * (`{ ...req.body, ... }`, `Object.assign`). Numbers are integers in this model.
 */
module Json {
  import opened Common
  import Text

  datatype Value = Str(s: string) | Num(n: int) | Bool(b: bool) | Null
                 | Arr(items: seq<Value>) | Obj(fields: map<string, Value>)

  type Record = map<string, Value>

  /** `rec.key || 0` for a numeric field: the number, or 0 when the field is absent or not a number. */
  function NumOr0(rec: Record, key: string): int
  {
    if key in rec && rec[key].Num? then rec[key].n else 0
  }

  /**
   * JavaScript's `Number(v)`, which `-` and `>=` apply to their operands; `None` is NaN.
   * Null, the empty string and the empty array are 0, booleans 1 and 0, a string of decimal
   * digits its value; an object is NaN.
   */
  function ToNumber(v: Value): (r: Option<int>)
    ensures v.Obj? ==> r.None?
    ensures v.Str? && v.s != "" && !Text.IsDigit(v.s[0]) ==> r.None?
    ensures v.Str? && r.Some? ==> r.value >= 0
  {
    match v
    case Num(n) => Some(n)
    case Null => Some(0)
    case Bool(b) => Some(if b then 1 else 0)
    case Str(s) => if s == "" then Some(0) else if Text.AllDigits(s) then Some(Text.Value(s)) else None
    case Arr(items) => if items == [] then Some(0) else None
    case Obj(_) => None
  }

  /** A string holding a number's decimal text is read back as that number. */
  lemma ToNumberOfDecimal(n: nat)
    ensures ToNumber(Str(Text.Decimal(n))) == Some(n)
  {
    Text.ValueOfDecimal(n);
  }

  /** `rec.key` used as a number: an absent field is `undefined`, which is NaN. */
  function FieldNumber(rec: Record, key: string): Option<int>
  {
    if key in rec then ToNumber(rec[key]) else None
  }

  /** `rec.key` compared with a string by `===`: present and equal. */
  predicate HasStr(rec: Record, key: string, s: string)
  {
    key in rec && rec[key] == Str(s)
  }

  /** A string field, or "" when it is absent or not a string. */
  function StrOrEmpty(rec: Record, key: string): string
  {
    if key in rec && rec[key].Str? then rec[key].s else ""
  }

  /** `rec.key || []` for an array field. */
  function ArrOrEmpty(rec: Record, key: string): seq<Value>
  {
    if key in rec && rec[key].Arr? then rec[key].items else []
  }
}

=== FILE: live_drop.dfy ===
/**
 * The live drop (api/live/pay.js): a limited product bought with the wallet a customer holds
 * in the store, membership credit spent before cash, guarded by the customer's PIN.
 */
module LiveDrop {
  import opened Common
  import opened Text
  import opened Seqs
  import Json
  import opened StoreDb

  /** `!drop.active || drop.stock <= 0` refuses the sale; a missing setting is an inactive drop. */
  predicate OnSale(drop: Option<Drop>)
    ensures !OnSale(drop) <==> drop.None? || !drop.value.active || drop.value.stock <= 0
  {
    drop.Some? && drop.value.active && drop.value.stock > 0
  }

  /** What the customer can spend: cash plus membership credit. */
  function Funds(c: CustomerRow): int
  {
    c.cashBalance + c.membershipCredit
  }

  /** How much of the price comes out of credit and how much out of cash. */
  datatype Split = Split(fromCredit: int, fromCash: int)

  /**
   * Credit is spent first and cash only covers what credit cannot: the two parts make up the
   * price, credit keeps whatever exceeds the price, and cash pays only the shortfall.
   */
  function Deduction(credit: int, price: int): (s: Split)
    ensures s.fromCredit + s.fromCash == price
    ensures s.fromCredit == Min(credit, price)
    ensures credit - s.fromCredit == Max(credit - price, 0)
    ensures s.fromCash == Max(price - credit, 0)
  {
    if credit >= price then Split(price, 0) else Split(credit, price - credit)
  }

  /** Once the balance check has passed, the credit pot is not left negative, nor is a cash pot that was not already. */
  lemma ChargeNeverOverdraws(c: CustomerRow, price: int)
    requires Funds(c) >= price
    ensures Charged(c, price).membershipCredit >= 0
    ensures c.cashBalance >= 0 ==> Charged(c, price).cashBalance >= 0
  {
  }

  /** The row written back for the paying customer: both pots lowered by their part. */
  function Charged(c: CustomerRow, price: int): (r: CustomerRow)
    ensures Funds(r) == Funds(c) - price
    ensures r.(cashBalance := c.cashBalance, membershipCredit := c.membershipCredit) == c
  {
    var s := Deduction(c.membershipCredit, price);
    c.(membershipCredit := c.membershipCredit - s.fromCredit, cashBalance := c.cashBalance - s.fromCash)
  }

  /** `.update(...).eq('id', customer.id)`: every row with the payer's id gets the payer's new pots. */
  function WriteBack(payer: CustomerRow, price: int): CustomerRow -> CustomerRow
  {
    (row: CustomerRow) =>
      var c := Charged(payer, price);
      row.(membershipCredit := c.membershipCredit, cashBalance := c.cashBalance)
  }

  /** A row the write-back rewrites gets the payer's funds less the price and keeps every other field. */
  lemma WriteBackRow(payer: CustomerRow, price: int, row: CustomerRow)
    ensures Funds(WriteBack(payer, price)(row)) == Funds(payer) - price
    ensures WriteBack(payer, price)(row).(cashBalance := row.cashBalance, membershipCredit := row.membershipCredit) == row
  {
  }

  /** The success reply: the ticket code and the balance left. */
  datatype LiveTicket = LiveTicket(code: string, balance: int)

  /**
   * POST /api/live/pay. `draw` is `Math.floor(1000 + Math.random() * 9000)`; `fault` is the
   * customer update reporting an error. The stock decrement and the history insert are not
   * checked by the handler, and always happen here.
   */
  method Pay(d: Db, verb: Verb, phone: string, pin: Option<Json.Value>, draw: nat, fault: bool)
    returns (r: Reply<LiveTicket>)
    requires 1000 <= draw <= 9999
    modifies d`customers, d`liveDrop, d`history
    ensures verb == Options ==> r == Bare(200)
    ensures verb != Options && verb != Post ==> r == Bare(405)
    ensures verb == Post && !OnSale(old(d.liveDrop)) ==> r == Err(400, "Sold out or inactive")
    ensures verb == Post && OnSale(old(d.liveDrop)) ==>
      var found := Single(old(d.customers), WithPhone(DigitsOnly(phone)));
      && (found.None? ==> r == Err(404, "Customer not found"))
      && (found.Some? && !Accepts(found.value.pin, pin) ==> r == Err(401, "Invalid PIN"))
      && (found.Some? && Accepts(found.value.pin, pin) && Funds(found.value) < old(d.liveDrop).value.price ==>
            r == ErrWithBalance(400, "Insufficient balance", Funds(found.value)))
      && (found.Some? && Accepts(found.value.pin, pin) && Funds(found.value) >= old(d.liveDrop).value.price ==>
            if fault then r == Err(500, "Transaction failed") else r.Ok?)
    ensures !r.Ok? ==> d.customers == old(d.customers) && d.liveDrop == old(d.liveDrop) && d.history == old(d.history)
    ensures r.Ok? ==>
      var drop := old(d.liveDrop).value;
      var c := Single(old(d.customers), WithPhone(DigitsOnly(phone))).value;
      && c in old(d.customers)
      && d.customers == UpdateWhere(old(d.customers), WithId(c.id), WriteBack(c, drop.price))
      && d.liveDrop == Some(drop.(stock := drop.stock - 1)) && drop.stock - 1 >= 0
      && d.history == old(d.history) + [HistoryRow(c.id, "payment", -drop.price, "Live Drop: " + drop.product)]
      && r.value == LiveTicket("RA-" + Decimal(draw), Funds(c) - drop.price)
      && Funds(c) - drop.price >= 0
    ensures old(d.Valid()) ==> d.Valid()
  {
    if verb == Options {
      return Bare(200);
    }
    if verb != Post {
      return Bare(405);
    }
    if !OnSale(d.liveDrop) {
      return Err(400, "Sold out or inactive");
    }
    var drop := d.liveDrop.value;
    var found := Single(d.customers, WithPhone(DigitsOnly(phone)));
    if found.None? {
      return Err(404, "Customer not found");
    }
    var c := found.value;
    if !Accepts(c.pin, pin) {
      return Err(401, "Invalid PIN");
    }
    if Funds(c) < drop.price {
      return ErrWithBalance(400, "Insufficient balance", Funds(c));
    }
    if fault {
      return Err(500, "Transaction failed");
    }
    var ticket := Sell(d, c, drop, draw);
    r := Ok(ticket);
  }

  /**
   * The writes of a sale once every check has passed: the payer's funds, the stock and the
   * history, and the ticket answered.
   */
  method Sell(d: Db, c: CustomerRow, drop: Drop, draw: nat) returns (t: LiveTicket)
    modifies d`customers, d`liveDrop, d`history
    ensures d.customers == UpdateWhere(old(d.customers), WithId(c.id), WriteBack(c, drop.price))
    ensures d.liveDrop == Some(drop.(stock := drop.stock - 1))
    ensures d.history == old(d.history) + [HistoryRow(c.id, "payment", -drop.price, "Live Drop: " + drop.product)]
    ensures t == LiveTicket("RA-" + Decimal(draw), Funds(c) - drop.price)
    ensures old(d.Valid()) ==> d.Valid()
  {
    SaleKeepsUnique(d.customers, c, drop.price);
    d.customers := UpdateWhere(d.customers, WithId(c.id), WriteBack(c, drop.price));
    d.liveDrop := Some(drop.(stock := drop.stock - 1));
    d.history := d.history + [HistoryRow(c.id, "payment", -drop.price, "Live Drop: " + drop.product)];
    t := LiveTicket("RA-" + Decimal(draw), Funds(c) - drop.price);
  }

  /**
   * With ids distinct, the sale touches the payer's row alone: its funds drop by the price
   * and the debit logged is that price, so the history accounts for the change.
   */
  lemma SaleChargesPayerOnly(cs: seq<CustomerRow>, c: CustomerRow, price: int)
    requires IdsDistinct(cs) && c in cs
    ensures var after := UpdateWhere(cs, WithId(c.id), WriteBack(c, price));
      && |after| == |cs|
      && forall i | 0 <= i < |cs| ::
           if cs[i] == c then after[i] == Charged(c, price) && Funds(after[i]) == Funds(c) - price
           else after[i] == cs[i]
  {
    var after := UpdateWhere(cs, WithId(c.id), WriteBack(c, price));
    forall i | 0 <= i < |cs|
      ensures if cs[i] == c then after[i] == Charged(c, price) else after[i] == cs[i]
    {
      if cs[i] == c {
        assert after[i] == WriteBack(c, price)(c);
      } else {
        var k :| 0 <= k < |cs| && cs[k] == c;
        assert cs[i].id != c.id;
      }
    }
  }

  /** The sale rewrites wallet pots only, so the table keeps its unique ids and phones. */
  lemma SaleKeepsUnique(cs: seq<CustomerRow>, c: CustomerRow, price: int)
    ensures var after := UpdateWhere(cs, WithId(c.id), WriteBack(c, price));
      (IdsDistinct(cs) ==> IdsDistinct(after)) && (PhonesUnique(cs) ==> PhonesUnique(after))
  {
    var after := UpdateWhere(cs, WithId(c.id), WriteBack(c, price));
    assert forall i | 0 <= i < |cs| :: after[i].id == cs[i].id && after[i].phone == cs[i].phone;
  }
}

=== FILE: loyalty.dfy ===
/** The loyalty tier, a pure function of the point total (server.js:194-196). */
module Loyalty {

  datatype Tier = Bronze | Silver | Gold

  /** The fewest points a tier asks for. */
  function MinPoints(t: Tier): int
  {
    match t
    case Bronze => 0
    case Silver => 500
    case Gold => 1500
  }

  /** The tier above, if any. */
  function Above(t: Tier): Tier
    requires t != Gold
  {
    if t == Bronze then Silver else Gold
  }

  function Rank(t: Tier): nat
  {
    match t
    case Bronze => 0
    case Silver => 1
    case Gold => 2
  }

  function TierName(t: Tier): string
  {
    match t
    case Bronze => "bronze"
    case Silver => "silver"
    case Gold => "gold"
  }

  /**
   * The tier a point total earns: the highest tier whose threshold the points reach;
   * below every threshold (negative points) the tier is still bronze.
   */
  function TierOf(points: int): (t: Tier)
    ensures t != Bronze ==> MinPoints(t) <= points
    ensures t != Gold ==> points < MinPoints(Above(t))
  {
    if points >= 1500 then Gold
    else if points >= 500 then Silver
    else Bronze
  }

  /** More points never mean a lower tier. */
  lemma TierMonotone(p: int, q: int)
    requires p <= q
    ensures Rank(TierOf(p)) <= Rank(TierOf(q))
  {
  }

  /** The tier names are distinct, so the stored string determines the tier. */
  lemma TierNameInjective(a: Tier, b: Tier)
    requires TierName(a) == TierName(b)
    ensures a == b
  {
  }
}

=== FILE: menu.dfy ===
/**
 * The menu endpoint (api/menu.js): the available items grouped by category in order of first
 * appearance, each category named by capitalising its key, and the modifiers keyed by id.
 */
module Menu {
  import opened Common
  import opened Text
  import opened Seqs

  /** A `menu_items` row; prices are whole units here. */
  datatype MenuItem = MenuItem(id: string, name: string, nameEs: Option<string>, price: int,
                               category: string, available: bool)

  /** A `menu_modifiers` row. */
  datatype Modifier = Modifier(id: string, name: string, price: int)

  /** What a category lists for an item. */
  datatype Entry = Entry(id: string, name: string, nameEs: Option<string>, price: int)

  datatype Category = Category(id: string, name: string, icon: string, items: seq<Entry>)

  /** What a modifier id maps to. */
  datatype ModEntry = ModEntry(name: string, price: int)

  /** The tax rate the menu advertises, in percent (0.15). */
  const TaxPercent := 15

  datatype MenuReply = MenuReply(categories: seq<Category>, modifiers: map<string, ModEntry>, taxPercent: int)

  function IsAvailable(i: MenuItem): bool { i.available }

  function EntryOf(i: MenuItem): Entry { Entry(i.id, i.name, i.nameEs, i.price) }

  function Last<T>(s: seq<T>): T
    requires s != []
  {
    s[|s| - 1]
  }

  /** The categories in the order their first item appears, each once. */
  function CategoryOrder(items: seq<MenuItem>): (order: seq<string>)
    ensures forall k :: k in order <==> exists i :: 0 <= i < |items| && items[i].category == k
    ensures forall a, b | 0 <= a < b < |order| :: order[a] != order[b]
  {
    if items == [] then []
    else
      var before := CategoryOrder(items[..|items| - 1]);
      assert forall i | 0 <= i < |items| - 1 :: items[..|items| - 1][i] == items[i];
      if Last(items).category in before then before else before + [Last(items).category]
  }

  /**
   * The categories are listed in order of first appearance: an item of a later category is
   * preceded by an item of every earlier one.
   */
  lemma {:induction false} CategoryOrderFollowsItems(items: seq<MenuItem>, a: nat, b: nat, j: nat)
    requires a < b < |CategoryOrder(items)|
    requires j < |items| && items[j].category == CategoryOrder(items)[b]
    ensures exists i :: 0 <= i < j && items[i].category == CategoryOrder(items)[a]
  {
    var n := |items|;
    var prefix := items[..n - 1];
    var before := CategoryOrder(prefix);
    var order := CategoryOrder(items);
    assert forall i | 0 <= i < n - 1 :: prefix[i] == items[i];
    if j < n - 1 && b < |before| {
      assert order[a] == before[a] && order[b] == before[b];
      CategoryOrderFollowsItems(prefix, a, b, j);
      var i :| 0 <= i < j && prefix[i].category == before[a];
      assert items[i].category == order[a];
    } else if b < |before| {
      // the last item is of a category seen before it
      assert order[a] == before[a] && order[b] == before[b];
      var j' :| 0 <= j' < n - 1 && prefix[j'].category == before[b];
      CategoryOrderFollowsItems(prefix, a, b, j');
      var i :| 0 <= i < j' && prefix[i].category == before[a];
      assert items[i].category == order[a];
    } else {
      // the category at `b` is the last item's, new with it
      assert order == before + [Last(items).category];
      assert j == n - 1;
      assert order[a] == before[a];
      assert before[a] in before;
      var i :| 0 <= i < n - 1 && prefix[i].category == before[a];
      assert items[i].category == order[a];
    }
  }

  /** The entries of the items in category `k`, in input order. */
  function GroupOf(items: seq<MenuItem>, k: string): (g: seq<Entry>)
    ensures |g| <= |items|
  {
    if items == [] then []
    else GroupOf(items[..|items| - 1], k) + (if Last(items).category == k then [EntryOf(Last(items))] else [])
  }

  /** A group lists exactly the entries of the items in its category. */
  lemma {:induction false} GroupOfMembers(items: seq<MenuItem>, k: string, e: Entry)
    ensures e in GroupOf(items, k) <==> exists i :: 0 <= i < |items| && items[i].category == k && EntryOf(items[i]) == e
  {
    if items != [] {
      var prefix := items[..|items| - 1];
      GroupOfMembers(prefix, k, e);
      assert forall i | 0 <= i < |prefix| :: prefix[i] == items[i];
      if exists i :: 0 <= i < |items| && items[i].category == k && EntryOf(items[i]) == e {
        var i :| 0 <= i < |items| && items[i].category == k && EntryOf(items[i]) == e;
        if i < |prefix| {
          assert prefix[i] == items[i];
        }
      }
    }
  }

  /** A category no item has gets an empty group. */
  lemma {:induction false} GroupOfAbsent(items: seq<MenuItem>, k: string)
    requires forall i | 0 <= i < |items| :: items[i].category != k
    ensures GroupOf(items, k) == []
  {
    if items != [] {
      GroupOfAbsent(items[..|items| - 1], k);
    }
  }

  /**
   * The grouping loop: `grouped[item.category]` is created on first sight and pushed to.
   * `order` is the key order of `grouped`.
   */
  method GroupItems(items: seq<MenuItem>) returns (order: seq<string>, groups: map<string, seq<Entry>>)
    ensures order == CategoryOrder(items)
    ensures forall k :: k in groups <==> k in order
    ensures forall k | k in groups :: groups[k] == GroupOf(items, k)
  {
    order, groups := [], map[];
    var i := 0;
    while i < |items|
      invariant 0 <= i <= |items|
      invariant order == CategoryOrder(items[..i])
      invariant forall k :: k in groups <==> k in order
      invariant forall k | k in groups :: groups[k] == GroupOf(items[..i], k)
    {
      var item := items[i];
      assert items[..i + 1][..i] == items[..i];
      assert Last(items[..i + 1]) == item;
      if item.category !in groups {
        groups := groups[item.category := []];
        order := order + [item.category];
        GroupOfAbsent(items[..i], item.category);
      }
      groups := groups[item.category := groups[item.category] + [EntryOf(item)]];
      i := i + 1;
    }
    assert items[..i] == items;
  }

  /** `Object.keys(grouped).map(...)`: one category per key, named by capitalising the key. */
  function Categories(order: seq<string>, groups: map<string, seq<Entry>>): (cs: seq<Category>)
    requires forall k | k in order :: k in groups
    ensures |cs| == |order|
    ensures forall j | 0 <= j < |order| ::
      cs[j].id == order[j] && cs[j].name == Capitalize(order[j]) && cs[j].items == groups[order[j]]
  {
    seq(|order|, j requires 0 <= j < |order| => Category(order[j], Capitalize(order[j]), "☕", groups[order[j]]))
  }

  /** The modifiers map as the loop leaves it: each id set in turn, so a later row overwrites. */
  function ModMap(mods: seq<Modifier>): (m: map<string, ModEntry>)
    ensures forall k :: k in m <==> exists j :: 0 <= j < |mods| && mods[j].id == k
  {
    if mods == [] then map[]
    else
      var before := ModMap(mods[..|mods| - 1]);
      assert forall j | 0 <= j < |mods| - 1 :: mods[..|mods| - 1][j] == mods[j];
      before[Last(mods).id := ModEntry(Last(mods).name, Last(mods).price)]
  }

  /** Each id maps to its last row. */
  lemma {:induction false} ModMapLastWins(mods: seq<Modifier>, j: nat)
    requires j < |mods|
    requires forall l | j < l < |mods| :: mods[l].id != mods[j].id
    ensures ModMap(mods)[mods[j].id] == ModEntry(mods[j].name, mods[j].price)
  {
    if j < |mods| - 1 {
      var prefix := mods[..|mods| - 1];
      assert prefix[j] == mods[j];
      assert forall l | j < l < |prefix| :: prefix[l] == mods[l];
      ModMapLastWins(prefix, j);
    }
  }

  /** The modifiers loop: `modifiersMap[m.id] = { name, price }` for each row in turn. */
  method BuildModifiers(mods: seq<Modifier>) returns (m: map<string, ModEntry>)
    ensures m == ModMap(mods)
  {
    m := map[];
    var i := 0;
    while i < |mods|
      invariant 0 <= i <= |mods|
      invariant m == ModMap(mods[..i])
    {
      assert mods[..i + 1][..i] == mods[..i];
      m := m[mods[i].id := ModEntry(mods[i].name, mods[i].price)];
      i := i + 1;
    }
    assert mods[..i] == mods;
  }

  /** The total number of entries over a list of categories. */
  function GroupSizes(items: seq<MenuItem>, order: seq<string>): nat
  {
    if order == [] then 0 else |GroupOf(items, order[0])| + GroupSizes(items, order[1..])
  }

  /** Adding an item grows its own category's group by one and leaves the others alone. */
  lemma {:induction false} GroupSizesStep(items: seq<MenuItem>, x: MenuItem, order: seq<string>)
    requires items != [] && Last(items) == x
    requires forall a, b | 0 <= a < b < |order| :: order[a] != order[b]
    ensures GroupSizes(items, order) ==
      GroupSizes(items[..|items| - 1], order) + (if x.category in order then 1 else 0)
  {
    if order != [] {
      var rest := order[1..];
      assert forall a, b | 0 <= a < b < |rest| :: rest[a] != rest[b] by {
        forall a, b | 0 <= a < b < |rest| ensures rest[a] != rest[b] {
          assert rest[a] == order[a + 1] && rest[b] == order[b + 1];
        }
      }
      GroupSizesStep(items, x, rest);
      if x.category == order[0] {
        assert x.category !in rest by {
          forall b | 0 <= b < |rest| ensures rest[b] != order[0] {
            assert rest[b] == order[b + 1];
          }
        }
      }
      assert x.category in order <==> x.category == order[0] || x.category in rest;
    }
  }

  /** A category list extended by a category no earlier item has sums to the same total plus that group. */
  lemma {:induction false} GroupSizesAppend(items: seq<MenuItem>, order: seq<string>, k: string)
    ensures GroupSizes(items, order + [k]) == GroupSizes(items, order) + |GroupOf(items, k)|
  {
    if order != [] {
      assert (order + [k])[1..] == order[1..] + [k];
      GroupSizesAppend(items, order[1..], k);
    } else {
      assert [k][1..] == [];
    }
  }

  /** Every item lands in exactly one group: the groups' sizes add up to the number of items. */
  lemma {:induction false} GroupsPartitionItems(items: seq<MenuItem>)
    ensures GroupSizes(items, CategoryOrder(items)) == |items|
  {
    if items != [] {
      var prefix := items[..|items| - 1];
      var x := Last(items);
      var before := CategoryOrder(prefix);
      GroupsPartitionItems(prefix);
      if x.category in before {
        GroupSizesStep(items, x, before);
      } else {
        GroupSizesStep(items, x, before);
        GroupSizesAppend(items, before, x.category);
        assert forall i | 0 <= i < |prefix| :: prefix[i].category != x.category;
        GroupOfAbsent(prefix, x.category);
        assert GroupOf(items, x.category) == [EntryOf(x)];
      }
    }
  }

  /**
   * GET /api/menu. A failed read of either table counts as an empty one (`items || []`).
   * The reply groups the available items only.
   */
  method Handle(items: seq<MenuItem>, itemsFault: bool, mods: seq<Modifier>, modsFault: bool)
    returns (r: MenuReply)
    ensures var shown := if itemsFault then [] else Filter(items, IsAvailable);
      && |r.categories| == |CategoryOrder(shown)|
      && (forall j | 0 <= j < |r.categories| ::
            r.categories[j].id == CategoryOrder(shown)[j]
            && r.categories[j].name == Capitalize(CategoryOrder(shown)[j])
            && r.categories[j].items == GroupOf(shown, CategoryOrder(shown)[j]))
      && GroupSizes(shown, CategoryOrder(shown)) == |shown|
    ensures r.modifiers == ModMap(if modsFault then [] else mods)
    ensures r.taxPercent == TaxPercent
  {
    var shown := if itemsFault then [] else Filter(items, IsAvailable);
    var order, groups := GroupItems(shown);
    GroupsPartitionItems(shown);
    var modifiers := BuildModifiers(if modsFault then [] else mods);
    r := MenuReply(Categories(order, groups), modifiers, TaxPercent);
  }
}

=== FILE: numbering.dfy ===
/**
 * Identifiers built as a prefix plus a zero-padded number — order ids `ORD-0042`,
 * customer ids `C007`, founder tickets `RA-F012` — and the ways the handlers pick the
 * next customer number.
 */
module Numbering {
  import opened Common
  import opened Text

  /** `prefix + String(n).padStart(width, '0')`. */
  function Padded(prefix: string, n: nat, width: nat): string
  {
    prefix + PadStart(Decimal(n), width, '0')
  }

  /**
   * A padded identifier is the prefix followed by at least `width` digits whose value is
   * the number.
   */
  lemma PaddedParts(prefix: string, n: nat, width: nat)
    ensures var r := Padded(prefix, n, width);
      && |r| == |prefix| + Max(width, |Decimal(n)|)
      && r[..|prefix|] == prefix
      && AllDigits(r[|prefix|..]) && Value(r[|prefix|..]) == n
  {
    var padded := PadStart(Decimal(n), width, '0');
    var r := prefix + padded;
    PaddedDigits(n, width);
    assert r[|prefix|..] == padded;
    assert r[..|prefix|] == prefix;
  }

  lemma PaddedDigits(n: nat, width: nat)
    ensures AllDigits(PadStart(Decimal(n), width, '0'))
    ensures Value(PadStart(Decimal(n), width, '0')) == n
  {
    var digits := Decimal(n);
    var padded := PadStart(digits, width, '0');
    var zeros := padded[..|padded| - |digits|];
    assert padded == zeros + digits;
    ValueOfDecimal(n);
    ValueIgnoresLeadingZeros(zeros, digits);
  }

  /** Two different numbers never get the same identifier under one prefix and width. */
  lemma PaddedInjective(prefix: string, width: nat, a: nat, b: nat)
    requires Padded(prefix, a, width) == Padded(prefix, b, width)
    ensures a == b
  {
    PaddedParts(prefix, a, width);
    PaddedParts(prefix, b, width);
  }

  /** The suffix of a padded identifier is read back by `parseInt` as its number. */
  lemma {:induction false} ParsePaddedSuffix(prefix: string, n: nat, width: nat)
    ensures ParseInt(Padded(prefix, n, width)[|prefix|..]) == Some(n)
  {
    PaddedParts(prefix, n, width);
    var suffix := Padded(prefix, n, width)[|prefix|..];
    ParseIntOfDigits(suffix);
  }

  /** `ORD-` followed by the order number padded to four digits (server.js, api/orders.js, api/store.js). */
  function OrderId(n: nat): string
  {
    Padded("ORD-", n, 4)
  }

  /** An order id is `ORD-` and four digits below 10000, more above, spelling the number. */
  lemma OrderIdSpells(n: nat)
    ensures var r := OrderId(n);
      && |r| >= 8 && r[..4] == "ORD-"
      && (n < 10000 ==> |r| == 8)
      && (n >= 10000 ==> |r| > 8)
      && AllDigits(r[4..]) && Value(r[4..]) == n
  {
    PaddedParts("ORD-", n, 4);
    DecimalLength(n, 4);
    assert Pow10(4) == 10000;
  }

  /** Different order numbers never spell the same id. */
  lemma OrderIdInjective(a: nat, b: nat)
    requires a != b
    ensures OrderId(a) != OrderId(b)
  {
    OrderIdSpells(a);
    OrderIdSpells(b);
  }

  /** `C` followed by the customer number padded to three digits. */
  function CustomerId(n: nat): string
  {
    Padded("C", n, 3)
  }

  /** A customer id is `C` and three digits below 1000, more above, spelling the number. */
  lemma CustomerIdSpells(n: nat)
    ensures var r := CustomerId(n);
      && |r| >= 4 && r[..1] == "C"
      && (n < 1000 ==> |r| == 4)
      && AllDigits(r[1..]) && Value(r[1..]) == n
  {
    PaddedParts("C", n, 3);
    DecimalLength(n, 3);
    assert Pow10(3) == 1000;
  }

  /** Different customer numbers never spell the same id. */
  lemma CustomerIdInjective(a: nat, b: nat)
    requires a != b
    ensures CustomerId(a) != CustomerId(b)
  {
    CustomerIdSpells(a);
    CustomerIdSpells(b);
  }

  /** `parseInt` reads a customer id's number back from everything after the `C`. */
  lemma ParseCustomerId(n: nat)
    ensures ParseInt(Drop1(CustomerId(n))) == Some(n)
  {
    ParsePaddedSuffix("C", n, 3);
  }

  /** `RA-F` followed by the founder count padded to three digits. */
  function FounderTicket(n: nat): string
  {
    Padded("RA-F", n, 3)
  }

  /** A founder ticket is `RA-F` and three digits below 1000, more above, spelling the number. */
  lemma FounderTicketSpells(n: nat)
    ensures var r := FounderTicket(n);
      && |r| >= 7 && r[..4] == "RA-F"
      && (n < 1000 ==> |r| == 7)
      && AllDigits(r[4..]) && Value(r[4..]) == n
  {
    PaddedParts("RA-F", n, 3);
    DecimalLength(n, 3);
    assert Pow10(3) == 1000;
  }

  lemma FirstCustomerId()
    ensures CustomerId(1) == "C001"
  {
    assert Decimal(1) == "1";
    assert Repeat('0', 2) == "00";
  }

  // ---------------------------------------------------------------------
  // The next customer id as the handlers compute it: the store sorts the
  // ids as text, descending, and `parseInt` reads the greatest one's suffix.
  // ---------------------------------------------------------------------

  /** `a` sorts strictly before `b` in code-unit order. */
  predicate LexLess(a: string, b: string)
  {
    if a == [] then b != []
    else if b == [] then false
    else if a[0] != b[0] then a[0] < b[0]
    else LexLess(a[1..], b[1..])
  }

  lemma {:induction false} LexTotal(a: string, b: string)
    ensures a == b || LexLess(a, b) || LexLess(b, a)
  {
    if a != [] && b != [] && a[0] == b[0] {
      LexTotal(a[1..], b[1..]);
      if a[1..] == b[1..] {
        assert a == [a[0]] + a[1..] && b == [b[0]] + b[1..];
      }
    }
  }

  lemma {:induction false} LexTransitive(a: string, b: string, c: string)
    requires LexLess(a, b) && LexLess(b, c)
    ensures LexLess(a, c)
  {
    if a != [] && a[0] == b[0] && b[0] == c[0] {
      LexTransitive(a[1..], b[1..], c[1..]);
    }
  }

  /** The id the store returns first for `order('id', { ascending: false }).limit(1)`. */
  function GreatestId(ids: seq<string>): (g: string)
    requires |ids| > 0
    ensures g in ids
  {
    if |ids| == 1 then ids[0]
    else
      var rest := GreatestId(ids[1..]);
      if LexLess(ids[0], rest) then rest else ids[0]
  }

  /** No id sorts after the greatest one. */
  lemma {:induction false} GreatestIdIsGreatest(ids: seq<string>, x: string)
    requires x in ids
    ensures x == GreatestId(ids) || LexLess(x, GreatestId(ids))
  {
    if |ids| > 1 {
      var rest := GreatestId(ids[1..]);
      var g := GreatestId(ids);
      if x == ids[0] {
        LexTotal(ids[0], rest);
      } else {
        GreatestIdIsGreatest(ids[1..], x);
        LexTotal(ids[0], rest);
        if g == ids[0] && x != rest && rest != ids[0] {
          LexTransitive(x, rest, ids[0]);
        }
      }
    }
  }

  /**
   * The next customer id exactly as written in api/auth.js and its copies: the greatest id
   * as text, `parseInt` of everything after its first character, plus one; `C001` for an
   * empty table, and `CNaN` when that suffix does not start with a digit.
   */
  function NextCustomerIdAsWritten(ids: seq<string>): (r: string)
    ensures ids == [] ==> r == "C001"
    ensures ids != [] && ParseInt(Drop1(GreatestId(ids))).Some? ==>
              r == CustomerId(ParseInt(Drop1(GreatestId(ids))).value + 1)
  {
    FirstCustomerId();
    if ids == [] then CustomerId(1)
    else match ParseInt(Drop1(GreatestId(ids)))
      case None => "CNaN"
      case Some(v) => CustomerId(v + 1)
  }

  /** Once ids C999 and C1000 exist, text order puts C999 first and the next id is C1000 again. */
  lemma AsWrittenReissuesId()
    ensures NextCustomerIdAsWritten(["C999", "C1000"]) == "C1000"
    ensures "C1000" in ["C999", "C1000"]
  {
    var ids := ["C999", "C1000"];
    assert ids[1..] == ["C1000"];
    assert !LexLess("999", "1000");
    assert LexLess("C999", "C1000") == LexLess("999", "1000");
    assert GreatestId(ids) == "C999";
    assert Drop1("C999") == "999";
    assert AllDigits("999");
    ParseIntOfDigits("999");
    assert Value("999") == 999 by {
      assert "999"[..2] == "99";
      assert "99"[..1] == "9";
      assert "9"[..0] == "";
    }
    DecimalIs1000();
    assert PadStart("1000", 3, '0') == "1000";
  }

  lemma DecimalIs1000()
    ensures Decimal(1000) == "1000"
  {
    assert Decimal(1) == "1";
    assert Decimal(10) == "10";
    assert Decimal(100) == "100";
  }

  /** The number `parseInt` reads after an id's first character, or 0 when it reads NaN. */
  function SuffixNumber(id: string): nat
  {
    match ParseInt(Drop1(id))
    case None => 0
    case Some(v) => v
  }

  /** The greatest number any id carries. */
  function MaxSuffix(ids: seq<string>): (m: nat)
    ensures forall id | id in ids :: SuffixNumber(id) <= m
  {
    if ids == [] then 0 else Max(SuffixNumber(ids[0]), MaxSuffix(ids[1..]))
  }

  /**
   * The next customer id computed on numbers instead of text: one past the greatest number
   * any id carries. It is never an id already in use, and it is `C001` for an empty table.
   */
  function NextCustomerId(ids: seq<string>): (r: string)
    ensures r !in ids
    ensures ids == [] ==> r == "C001"
    ensures exists k: nat :: k >= 1 && r == CustomerId(k)
  {
    FirstCustomerId();
    var k := MaxSuffix(ids) + 1;
    ParseCustomerId(k);
    assert SuffixNumber(CustomerId(k)) == k;
    CustomerId(k)
  }
}

=== FILE: orders_api.dfy ===
/**
 * The order endpoint of the hosted backend (api/orders.js): the fifty newest orders, and a
 * new order numbered one past the greatest order number in the table.
 */
module OrdersApi {
  import opened Common
  import opened Text
  import opened Seqs
  import opened Numbering
  import Json
  import opened StoreDb

  /** The fields a client sends to create an order; absent ones are stored as null. */
  datatype OrderRequest = OrderRequest(
    items: Json.Value,
    total: int,
    customerId: Option<string>,
    paymentMethod: Option<string>,
    notes: Option<string>)

  /** `order('order_number', { ascending: false }).limit(1)` read with `|| 0`. */
  function MaxOrderNumber(os: seq<OrderRow>): (m: nat)
    ensures os == [] ==> m == 0
  {
    if os == [] then 0
    else
      var rest := MaxOrderNumber(os[1..]);
      if os[0].orderNumber >= rest then os[0].orderNumber else rest
  }

  /** No order's number is above the maximum. */
  lemma {:induction false} MaxOrderNumberBounds(os: seq<OrderRow>)
    ensures forall i | 0 <= i < |os| :: os[i].orderNumber <= MaxOrderNumber(os)
  {
    if os != [] {
      var rest := os[1..];
      MaxOrderNumberBounds(rest);
      forall i | 1 <= i < |os| ensures os[i].orderNumber <= MaxOrderNumber(os) {
        assert os[i] == rest[i - 1];
      }
    }
  }

  /** The maximum is some order's number. */
  lemma {:induction false} MaxOrderNumberAttained(os: seq<OrderRow>)
    requires os != []
    ensures exists i :: 0 <= i < |os| && os[i].orderNumber == MaxOrderNumber(os)
  {
    var rest := os[1..];
    if rest != [] && os[0].orderNumber < MaxOrderNumber(rest) {
      MaxOrderNumberAttained(rest);
      var i :| 0 <= i < |rest| && rest[i].orderNumber == MaxOrderNumber(rest);
      assert os[i + 1] == rest[i];
      assert MaxOrderNumber(os) == MaxOrderNumber(rest);
    } else {
      assert MaxOrderNumber(os) == os[0].orderNumber;
    }
  }

  /** The row inserted: id and number from the next number, status `pending`, the rest from the request. */
  function NewOrderRow(req: OrderRequest, n: nat, now: int): (o: OrderRow)
    ensures o.id == OrderId(o.orderNumber) && o.orderNumber == n
    ensures o.status == "pending" && o.createdAt == now
    ensures o.items == req.items && o.total == req.total && o.customerId == req.customerId
    ensures o.paymentMethod == req.paymentMethod && o.notes == req.notes
  {
    OrderRow(OrderId(n), n, req.items, req.total, req.customerId, req.paymentMethod, "pending", req.notes, now)
  }

  /**
   * The number one past the maximum is used by no order, and neither is its id, so the
   * insert keeps every order's id spelling a number of its own.
   */
  lemma NextOrderIsFresh(os: seq<OrderRow>, o: OrderRow)
    requires OrdersNumbered(os)
    requires o.id == OrderId(o.orderNumber) && o.orderNumber > MaxOrderNumber(os)
    ensures forall i | 0 <= i < |os| :: os[i].id != o.id
  {
    MaxOrderNumberBounds(os);
    forall i | 0 <= i < |os|
      ensures os[i].id != o.id
    {
      OrderIdInjective(os[i].orderNumber, o.orderNumber);
    }
  }

  /** A number above every other keeps the numbers distinct. */
  lemma AppendKeepsNumbersDistinct(os: seq<OrderRow>, o: OrderRow)
    requires NumbersDistinct(os)
    requires forall i | 0 <= i < |os| :: os[i].orderNumber < o.orderNumber
    ensures NumbersDistinct(os + [o])
  {
    var grown := os + [o];
    forall i, j | 0 <= i < |grown| && 0 <= j < |grown| && grown[i].orderNumber == grown[j].orderNumber
      ensures i == j
    {
      if i < |os| {
        assert grown[i] == os[i];
      }
      if j < |os| {
        assert grown[j] == os[j];
      }
    }
  }

  /** Appending an order whose number exceeds every other keeps the table numbered. */
  lemma AppendOrderNumbered(os: seq<OrderRow>, o: OrderRow)
    requires OrdersNumbered(os)
    requires IdSpellsNumber(o) && o.orderNumber > MaxOrderNumber(os)
    ensures OrdersNumbered(os + [o])
  {
    var grown := os + [o];
    forall i | 0 <= i < |grown|
      ensures IdSpellsNumber(grown[i])
    {
      if i < |os| {
        assert grown[i] == os[i];
      }
    }
    MaxOrderNumberBounds(os);
    AppendKeepsNumbersDistinct(os, o);
  }

  /** The insert both order endpoints make: the request's row, numbered past every other order. */
  method AppendOrder(d: Db, req: OrderRequest, now: int) returns (o: OrderRow)
    modifies d`orders
    ensures o == NewOrderRow(req, MaxOrderNumber(old(d.orders)) + 1, now)
    ensures d.orders == old(d.orders) + [o]
    ensures old(d.Valid()) ==> d.Valid()
  {
    o := NewOrderRow(req, MaxOrderNumber(d.orders) + 1, now);
    if OrdersNumbered(d.orders) {
      AppendOrderNumbered(d.orders, o);
    }
    d.orders := d.orders + [o];
  }

  /** GET: the fifty most recent orders, newest first, or the store's error as a 500. */
  function ListOrders(os: seq<OrderRow>, fault: Option<string>): (r: Reply<seq<OrderRow>>)
    ensures fault.Some? <==> r.Err?
    ensures fault.Some? ==> r == Err(500, fault.value)
    ensures r.Ok? ==> |r.value| == Min(50, |os|) && SortedDesc(r.value, (o: OrderRow) => o.createdAt)
    ensures r.Ok? ==> forall o | o in r.value :: o in os
    ensures r.Ok? ==> multiset(r.value) <= multiset(os)
    ensures r.Ok? ==> forall o, p | o in multiset(os) - multiset(r.value) && p in r.value :: o.createdAt <= p.createdAt
  {
    if fault.Some? then Err(500, fault.value)
    else
      var newest := Newest(os, (o: OrderRow) => o.createdAt, 50);
      assert forall o, p | o in multiset(os) - multiset(newest) && p in newest :: o.createdAt <= p.createdAt by {
        forall o, p | o in multiset(os) - multiset(newest) && p in newest
          ensures o.createdAt <= p.createdAt
        {
          NewestIsNewest(os, (o: OrderRow) => o.createdAt, 50, p, o);
        }
      }
      Ok(newest)
  }

  /** POST: the new order is appended; an insert error is answered with its message. */
  method CreateOrder(d: Db, req: OrderRequest, now: int, fault: Option<string>) returns (r: Reply<OrderRow>)
    modifies d`orders
    ensures fault.Some? ==> r == Err(500, fault.value) && d.orders == old(d.orders)
    ensures fault.None? ==>
      && r == Ok(NewOrderRow(req, MaxOrderNumber(old(d.orders)) + 1, now))
      && d.orders == old(d.orders) + [r.value]
    ensures old(d.Valid()) ==> d.Valid()
  {
    if fault.Some? {
      return Err(500, fault.value);
    }
    var o := AppendOrder(d, req, now);
    r := Ok(o);
  }

  /** What the endpoint answers: a listing or the created row. */
  datatype OrdersReply = Listing(orders: seq<OrderRow>) | Created(order: OrderRow)

  /** The endpoint: OPTIONS, GET and POST, anything else refused with 405. */
  method Handle(d: Db, verb: Verb, req: OrderRequest, now: int, fault: Option<string>)
    returns (r: Reply<OrdersReply>)
    modifies d`orders
    ensures verb == Options ==> r == Bare(200) && d.orders == old(d.orders)
    ensures verb == Get ==> d.orders == old(d.orders)
    ensures verb == Get && fault.Some? ==> r == Err(500, fault.value)
    ensures verb == Get && fault.None? ==> r == Ok(Listing(ListOrders(old(d.orders), fault).value))
    ensures verb == Post ==>
      if fault.Some? then r == Err(500, fault.value) && d.orders == old(d.orders)
      else r.Ok? && r.value.Created? && d.orders == old(d.orders) + [r.value.order]
           && r.value.order == NewOrderRow(req, MaxOrderNumber(old(d.orders)) + 1, now)
    ensures verb != Options && verb != Get && verb != Post ==>
      r == Err(405, "Method Not Allowed") && d.orders == old(d.orders)
    ensures old(d.Valid()) ==> d.Valid()
  {
    if verb == Options {
      return Bare(200);
    }
    if verb == Get {
      var listed := ListOrders(d.orders, fault);
      if listed.Ok? {
        r := Ok(Listing(listed.value));
      } else {
        r := Err(500, fault.value);
      }
      return;
    }
    if verb == Post {
      var created := CreateOrder(d, req, now, fault);
      if created.Ok? {
        r := Ok(Created(created.value));
      } else {
        r := Err(500, fault.value);
      }
      return;
    }
    r := Err(405, "Method Not Allowed");
  }
}

=== FILE: receipts.dfy ===
/**
 * Payment-receipt de-duplication (api/upload-receipt.js): a bank transfer reference, and then
 * a receipt image, may each be submitted once.
 */
module Receipts {
  import opened Common
  import opened Seqs
  import opened StoreDb

  /** `.eq('ref_number', ref)`. */
  function WithRef(ref: string): Receipt -> bool
  {
    (r: Receipt) => r.refNumber == ref
  }

  /** `.eq('image_hash', hash)`. */
  function WithHash(hash: string): Receipt -> bool
  {
    (r: Receipt) => r.imageHash == Some(hash)
  }

  /** Under unique references, the `.single()` look-up finds a receipt exactly when one has the reference. */
  lemma RefLookup(rs: seq<Receipt>, ref: string)
    requires RefsUnique(rs)
    ensures Single(rs, WithRef(ref)).Some? <==> exists i :: 0 <= i < |rs| && rs[i].refNumber == ref
  {
    assert AtMostOne(rs, WithRef(ref));
    SingleOfUnique(rs, WithRef(ref));
  }

  /** Under unique hashes, the `.single()` look-up finds a receipt exactly when one has the hash. */
  lemma HashLookup(rs: seq<Receipt>, hash: string)
    requires HashesUnique(rs)
    ensures Single(rs, WithHash(hash)).Some? <==> exists i :: 0 <= i < |rs| && rs[i].imageHash == Some(hash)
  {
    assert AtMostOne(rs, WithHash(hash));
    SingleOfUnique(rs, WithHash(hash));
  }

  /** A receipt whose reference and hash no stored receipt carries keeps both unique. */
  lemma AppendReceiptKeepsUnique(rs: seq<Receipt>, x: Receipt)
    requires RefsUnique(rs) && HashesUnique(rs)
    requires forall i | 0 <= i < |rs| :: rs[i].refNumber != x.refNumber
    requires x.imageHash.Some? ==> forall i | 0 <= i < |rs| :: rs[i].imageHash != x.imageHash
    ensures RefsUnique(rs + [x]) && HashesUnique(rs + [x])
  {
    var grown := rs + [x];
    forall i | 0 <= i < |rs|
      ensures grown[i] == rs[i]
    {
    }
  }

  /**
   * Once a receipt is stored in a table kept unique, its reference and its image are both
   * found again, so a repeat of either is refused.
   */
  lemma {:induction false} StoredReceiptBlocksRepeat(rs: seq<Receipt>, x: Receipt)
    requires x.imageHash.Some?
    requires RefsUnique(rs + [x]) && HashesUnique(rs + [x])
    ensures Single(rs + [x], WithRef(x.refNumber)).Some?
    ensures Single(rs + [x], WithHash(x.imageHash.value)).Some?
  {
    var grown := rs + [x];
    assert grown[|rs|] == x;
    RefLookup(grown, x.refNumber);
    HashLookup(grown, x.imageHash.value);
  }

  /**
   * POST /api/upload-receipt. `digest` is the MD5 hex digest of the image text. A repeated
   * reference is refused first, then a repeated image; otherwise one receipt is stored.
   */
  method Upload(d: Db, verb: Verb, image: string, ticketCode: Option<string>, ref: string,
                digest: string -> string)
    returns (r: Reply<string>)
    modifies d`receipts
    ensures verb == Options ==> r == Bare(200)
    ensures verb != Options && verb != Post ==> r == Bare(405)
    ensures verb == Post && Single(old(d.receipts), WithRef(ref)).Some? ==>
      r == Err(409, "Reference already used.")
    ensures verb == Post && Single(old(d.receipts), WithRef(ref)).None?
                         && Single(old(d.receipts), WithHash(digest(image))).Some? ==>
      r == Err(409, "Receipt image already used.")
    ensures !r.Ok? ==> d.receipts == old(d.receipts)
    ensures r.Ok? <==>
      verb == Post && Single(old(d.receipts), WithRef(ref)).None?
                   && Single(old(d.receipts), WithHash(digest(image))).None?
    ensures r.Ok? ==>
      r.value == "Receipt verified."
      && d.receipts == old(d.receipts) + [Receipt(ticketCode, ref, Some(digest(image)))]
    ensures old(d.Valid()) ==> d.Valid()
  {
    if verb == Options {
      return Bare(200);
    }
    if verb != Post {
      return Bare(405);
    }
    if Single(d.receipts, WithRef(ref)).Some? {
      return Err(409, "Reference already used.");
    }
    var hash := digest(image);
    if Single(d.receipts, WithHash(hash)).Some? {
      return Err(409, "Receipt image already used.");
    }
    ghost var wasValid := d.Valid();
    var x := Receipt(ticketCode, ref, Some(hash));
    if wasValid {
      RefLookup(d.receipts, ref);
      HashLookup(d.receipts, hash);
      AppendReceiptKeepsUnique(d.receipts, x);
    }
    d.receipts := d.receipts + [x];
    r := Ok("Receipt verified.");
    assert wasValid ==> d.Valid();
  }
}

=== FILE: reserve.dfy ===
/**
 * Founder-ticket reservation (api/reserve.js): while fewer than fifty customers are VIP, a
 * caller reserves a ticket; the customer with that phone is marked reserved, or enrolled.
 */
module Reserve {
  import opened Common
  import opened Text
  import opened Seqs
  import opened StoreDb

  /** The sell-out limit on VIP customers. */
  const VipLimit := 50

  function IsVip(c: CustomerRow): bool { c.isVip }

  /** `select('*', { count: 'exact', head: true }).eq('is_vip', true)`. */
  function VipCount(cs: seq<CustomerRow>): (n: nat)
    ensures n <= |cs|
  {
    |Filter(cs, IsVip)|
  }

  /** Each customer added counts once towards the VIP total if VIP, and not at all otherwise. */
  lemma VipCountAppend(cs: seq<CustomerRow>, c: CustomerRow)
    ensures VipCount(cs + [c]) == VipCount(cs) + (if c.isVip then 1 else 0)
  {
    FilterAppend(cs, c, IsVip);
  }

  /** `value || null` for an optional text field: an empty string is stored as null. */
  function OrNull(s: Option<string>): (r: Option<string>)
    ensures r.Some? <==> s.Some? && s.value != ""
    ensures r.Some? ==> r == s
  {
    if s.Some? && s.value != "" then s else None
  }

  /** `"RA-F" + Math.floor(100 + Math.random() * 900)`, for a draw in [100, 999]. */
  function ReservationTicket(draw: nat): (t: string)
    requires 100 <= draw <= 999
    ensures |t| == 7 && t[..4] == "RA-F" && AllDigits(t[4..]) && Value(t[4..]) == draw
  {
    DecimalLength(draw, 3);
    assert Pow10(3) == 1000 && Pow10(2) == 100;
    ValueOfDecimal(draw);
    assert ("RA-F" + Decimal(draw))[4..] == Decimal(draw);
    "RA-F" + Decimal(draw)
  }

  function ReservedNote(ticket: string): string { "RESERVED: Founder Ticket " + ticket }

  /** The update applied to the existing customer: notes and pin, nothing else. */
  function MarkReserved(ticket: string, pin: Option<string>): CustomerRow -> CustomerRow
  {
    (c: CustomerRow) => c.(notes := Some(ReservedNote(ticket)), pin := OrNull(pin))
  }

  /**
   * POST /api/reserve. `draw` is the random part of the ticket. The reply is the ticket
   * code, which is also the one written into the customer's notes.
   */
  method Reserve(d: Db, verb: Verb, name: Option<string>, phone: string, pin: Option<string>, draw: nat)
    returns (r: Reply<string>)
    requires 100 <= draw <= 999
    modifies d`customers
    ensures verb == Options ==> r == Bare(200)
    ensures verb != Options && verb != Post ==> r == Bare(405)
    ensures verb == Post && VipCount(old(d.customers)) >= VipLimit ==> r == Err(400, "Sold out.")
    ensures !r.Ok? ==> d.customers == old(d.customers)
    ensures r.Ok? <==> verb == Post && VipCount(old(d.customers)) < VipLimit
    ensures r.Ok? ==>
      var ticket := ReservationTicket(draw);
      var clean := DigitsOnly(phone);
      && r.value == ticket
      && match Single(old(d.customers), WithPhone(clean))
         case Some(e) =>
           d.customers == UpdateWhere(old(d.customers), WithId(e.id), MarkReserved(ticket, pin))
         case None =>
           d.customers == old(d.customers) + [Enrolled(NextId(old(d.customers)), name, clean, "bronze", 0,
                                                      false, OrNull(pin), ReservedNote(ticket))]
    ensures VipCount(d.customers) == VipCount(old(d.customers))
    ensures old(d.Valid()) ==> d.Valid()
  {
    if verb == Options {
      return Bare(200);
    }
    if verb != Post {
      return Bare(405);
    }
    if VipCount(d.customers) >= VipLimit {
      return Err(400, "Sold out.");
    }
    var ticket := ReservationTicket(draw);
    var clean := DigitsOnly(phone);
    var existing := Single(d.customers, WithPhone(clean));
    if existing.Some? {
      MarkCustomer(d, existing.value.id, ticket, pin);
    } else {
      var c := Enrolled(NextId(d.customers), name, clean, "bronze", 0, false, OrNull(pin), ReservedNote(ticket));
      EnrolmentKeepsVipCount(d.customers, c);
      d.AppendCustomer(c);
    }
    r := Ok(ticket);
  }

  /** The update for a customer already on file: the reservation note and PIN. */
  method MarkCustomer(d: Db, id: string, ticket: string, pin: Option<string>)
    modifies d`customers
    ensures d.customers == UpdateWhere(old(d.customers), WithId(id), MarkReserved(ticket, pin))
    ensures VipCount(d.customers) == VipCount(old(d.customers))
    ensures old(d.Valid()) ==> d.Valid()
  {
    ReservingKeepsTable(d.customers, id, ticket, pin);
    d.customers := UpdateWhere(d.customers, WithId(id), MarkReserved(ticket, pin));
  }

  /** Marking a reservation rewrites notes and pin only: ids, phones and VIP flags stay. */
  lemma ReservingKeepsTable(cs: seq<CustomerRow>, id: string, ticket: string, pin: Option<string>)
    ensures var after := UpdateWhere(cs, WithId(id), MarkReserved(ticket, pin));
      && VipCount(after) == VipCount(cs)
      && (IdsDistinct(cs) ==> IdsDistinct(after))
      && (PhonesUnique(cs) ==> PhonesUnique(after))
  {
    var after := UpdateWhere(cs, WithId(id), MarkReserved(ticket, pin));
    assert forall i | 0 <= i < |cs| ::
      after[i].id == cs[i].id && after[i].phone == cs[i].phone && after[i].isVip == cs[i].isVip;
    FilterCountPointwise(cs, after, IsVip);
  }

  /** Enrolling a customer who is not VIP leaves the VIP count as it was. */
  lemma EnrolmentKeepsVipCount(cs: seq<CustomerRow>, c: CustomerRow)
    requires !c.isVip
    ensures VipCount(cs + [c]) == VipCount(cs)
  {
    FilterAppend(cs, c, IsVip);
  }
}

=== FILE: rico_wallet.dfy ===
/**
 * The Rico Balance stored-value wallet of server.js (server.js:250-315): loads earn a 10%
 * bonus, payments draw the balance down but never below zero, and every change is logged
 * in the customer's balance history. Amounts are whole units in this model.
 */
module RicoWallet {
  import opened Common
  import opened Json
  import opened Seqs
  import opened ServerData
  import opened ServerCustomers

  /** `Math.round(amount * 0.10)`: the nearest whole unit to a tenth, halves rounded up. */
  function Bonus(amount: int): (b: int)
    ensures amount - 5 < 10 * b <= amount + 5
  {
    (amount + 5) / 10
  }

  function Balance(c: Record): int { NumOr0(c, "ricoBalance") }

  function History(c: Record): seq<Value> { ArrOrEmpty(c, "balanceHistory") }

  const WalletKeys: set<string> := {"ricoBalance", "totalLoaded", "balanceHistory"}

  function LoadEntry(amount: int, now: string): Value
  {
    Obj(map["type" := Str("load"), "amount" := Num(amount), "bonus" := Num(Bonus(amount)),
            "total" := Num(amount + Bonus(amount)), "timestamp" := Str(now)])
  }

  /**
   * The logged payment; an order id the request leaves out is absent from the entry, as
   * `JSON.stringify` drops an undefined property.
   */
  function PaymentEntry(amount: int, orderId: Option<Value>, now: string): (r: Value)
    ensures r.Obj? && ("orderId" in r.fields <==> orderId.Some?)
    ensures orderId.Some? ==> r.fields["orderId"] == orderId.value
    ensures r.fields.Keys - {"orderId"} == {"type", "amount", "timestamp"}
  {
    var e := map["type" := Str("payment"), "amount" := Num(-amount), "timestamp" := Str(now)];
    Obj(if orderId.Some? then e["orderId" := orderId.value] else e)
  }

  /** The customer after a load: balance up by amount plus bonus, lifetime loads up by amount. */
  function Loaded(c: Record, amount: int, now: string): (r: Record)
    ensures r.Keys == c.Keys + WalletKeys
    ensures Balance(r) == Balance(c) + amount + Bonus(amount)
    ensures NumOr0(r, "totalLoaded") == NumOr0(c, "totalLoaded") + amount
    ensures History(r) == History(c) + [LoadEntry(amount, now)]
    ensures forall k | k in c && k !in WalletKeys :: r[k] == c[k]
  {
    c["ricoBalance" := Num(Balance(c) + amount + Bonus(amount))]
     ["totalLoaded" := Num(NumOr0(c, "totalLoaded") + amount)]
     ["balanceHistory" := Arr(History(c) + [LoadEntry(amount, now)])]
  }

  /** The customer after a payment: balance down by amount, a negative entry logged. */
  function Paid(c: Record, amount: int, orderId: Option<Value>, now: string): (r: Record)
    ensures r.Keys == c.Keys + {"ricoBalance", "balanceHistory"}
    ensures Balance(r) == Balance(c) - amount
    ensures History(r) == History(c) + [PaymentEntry(amount, orderId, now)]
    ensures forall k | k in c && k != "ricoBalance" && k != "balanceHistory" :: r[k] == c[k]
  {
    c["ricoBalance" := Num(Balance(c) - amount)]
     ["balanceHistory" := Arr(History(c) + [PaymentEntry(amount, orderId, now)])]
  }

  /** A wallet request against one customer. */
  datatype WalletOp = Load(amount: int, at: string) | Pay(amount: int, orderId: Option<Value>, at: string)

  /** One request: a payment larger than the balance is refused and changes nothing. */
  function Apply(c: Record, op: WalletOp): Record
  {
    match op
    case Load(a, t) => Loaded(c, a, t)
    case Pay(a, o, t) => if Balance(c) < a then c else Paid(c, a, o, t)
  }

  function Replay(c: Record, ops: seq<WalletOp>): Record
    decreases |ops|
  {
    if ops == [] then c else Replay(Apply(c, ops[0]), ops[1..])
  }

  /** What a history entry says it did to the balance: a load's total, a payment's (negative) amount. */
  function EntryDelta(e: Value): int
  {
    if e.Obj? && HasStr(e.fields, "type", "load") then NumOr0(e.fields, "total")
    else if e.Obj? && HasStr(e.fields, "type", "payment") then NumOr0(e.fields, "amount")
    else 0
  }

  function Net(h: seq<Value>): int
  {
    if h == [] then 0 else Net(h[..|h| - 1]) + EntryDelta(h[|h| - 1])
  }

  lemma NetAppend(h: seq<Value>, e: Value)
    ensures Net(h + [e]) == Net(h) + EntryDelta(e)
  {
    assert (h + [e])[..|h|] == h;
  }

  lemma LoadEntryDelta(a: int, t: string)
    ensures EntryDelta(LoadEntry(a, t)) == a + Bonus(a)
  {
    var f := LoadEntry(a, t).fields;
    assert f["type"] == Str("load") && f["total"] == Num(a + Bonus(a));
  }

  lemma PaymentEntryDelta(a: int, o: Option<Value>, t: string)
    ensures EntryDelta(PaymentEntry(a, o, t)) == -a
  {
    var f := PaymentEntry(a, o, t).fields;
    assert f["type"] == Str("payment") && f["amount"] == Num(-a);
    assert "payment" != "load";
  }

  /** One request changes the balance by exactly what it logs. */
  lemma ApplyReconciles(c: Record, op: WalletOp)
    ensures Balance(Apply(c, op)) - Balance(c) == Net(History(Apply(c, op))) - Net(History(c))
  {
    match op
    case Load(a, t) =>
      NetAppend(History(c), LoadEntry(a, t));
      LoadEntryDelta(a, t);
    case Pay(a, o, t) =>
      if Balance(c) >= a {
        NetAppend(History(c), PaymentEntry(a, o, t));
        PaymentEntryDelta(a, o, t);
      }
  }

  /** The history accounts for every change to the balance, whatever requests arrive. */
  lemma {:induction false} LedgerReconciles(c: Record, ops: seq<WalletOp>)
    ensures Balance(Replay(c, ops)) - Balance(c) == Net(History(Replay(c, ops))) - Net(History(c))
    decreases |ops|
  {
    if ops != [] {
      ApplyReconciles(c, ops[0]);
      LedgerReconciles(Apply(c, ops[0]), ops[1..]);
    }
  }

  /** Payments never overdraw: with non-negative loads the balance stays non-negative. */
  lemma {:induction false} BalanceNeverNegative(c: Record, ops: seq<WalletOp>)
    requires Balance(c) >= 0
    requires forall i | 0 <= i < |ops| :: ops[i].Load? ==> ops[i].amount >= 0
    ensures Balance(Replay(c, ops)) >= 0
    decreases |ops|
  {
    if ops != [] {
      BalanceNeverNegative(Apply(c, ops[0]), ops[1..]);
    }
  }

  /** The reply of a successful load. */
  datatype LoadReceipt = LoadReceipt(loaded: int, bonus: int, newBalance: int, customer: Record)

  /** The reply of a successful payment. */
  datatype PayReceipt = PayReceipt(paid: int, newBalance: int, customer: Record)

  /** POST /api/customers/:id/load-balance. */
  method LoadBalance(d: DataDir, id: string, amount: int, now: string) returns (r: Reply<LoadReceipt>)
    modifies d`customers
    ensures var i := FindIndex(old(d.customers), CustomerWithId(id));
      && (i.None? ==> r == Err(404, "Customer not found") && d.customers == old(d.customers))
      && (i.Some? ==>
            var c := Apply(old(d.customers)[i.value], Load(amount, now));
            d.customers == old(d.customers)[i.value := c]
            && r == Ok(LoadReceipt(amount, Bonus(amount), Balance(c), c)))
  {
    var i := FindIndex(d.customers, CustomerWithId(id));
    if i.None? {
      return Err(404, "Customer not found");
    }
    var c := Loaded(d.customers[i.value], amount, now);
    d.customers := d.customers[i.value := c];
    r := Ok(LoadReceipt(amount, Bonus(amount), Balance(c), c));
  }

  /** POST /api/customers/:id/pay-balance: refused with 400 when the balance falls short. */
  method PayBalance(d: DataDir, id: string, amount: int, orderId: Option<Value>, now: string)
    returns (r: Reply<PayReceipt>)
    modifies d`customers
    ensures var i := FindIndex(old(d.customers), CustomerWithId(id));
      && (i.None? ==> r == Err(404, "Customer not found") && d.customers == old(d.customers))
      && (i.Some? && Balance(old(d.customers)[i.value]) < amount ==>
            r == Err(400, "Insufficient balance") && d.customers == old(d.customers))
      && (i.Some? && Balance(old(d.customers)[i.value]) >= amount ==>
            var c := Apply(old(d.customers)[i.value], Pay(amount, orderId, now));
            d.customers == old(d.customers)[i.value := c]
            && r == Ok(PayReceipt(amount, Balance(c), c)))
  {
    var i := FindIndex(d.customers, CustomerWithId(id));
    if i.None? {
      return Err(404, "Customer not found");
    }
    var old_c := d.customers[i.value];
    if Balance(old_c) < amount {
      return Err(400, "Insufficient balance");
    }
    var c := Paid(old_c, amount, orderId, now);
    d.customers := d.customers[i.value := c];
    r := Ok(PayReceipt(amount, Balance(c), c));
  }
}

=== FILE: seqs.dfy ===
/**
 * The collection operations the handlers rely on: `Array.prototype.find`, `filter`,
 * and the store's `order(key, { ascending: false }).limit(n)`.
 */
module Seqs {
  import opened Common

  /** `s.find(p)` as an index: the first position whose element satisfies `p`. */
  function FindIndex<T>(s: seq<T>, p: T -> bool): (r: Option<nat>)
    ensures r.None? ==> forall i | 0 <= i < |s| :: !p(s[i])
    ensures r.Some? ==> r.value < |s| && p(s[r.value])
    ensures r.Some? ==> forall i | 0 <= i < r.value :: !p(s[i])
  {
    if s == [] then None
    else if p(s[0]) then Some(0)
    else match FindIndex(s[1..], p)
      case None => None
      case Some(k) => Some(k + 1)
  }

  /** `s.filter(p)`: the elements satisfying `p`, in their order. */
  function Filter<T>(s: seq<T>, p: T -> bool): (r: seq<T>)
    ensures |r| <= |s|
    ensures forall x | x in r :: p(x) && x in s
  {
    if s == [] then []
    else if p(s[0]) then [s[0]] + Filter(s[1..], p)
    else Filter(s[1..], p)
  }

  /** An element satisfying `p` is kept by the filter. */
  lemma {:induction false} FilterKeeps<T>(s: seq<T>, p: T -> bool, x: T)
    requires x in s && p(x)
    ensures x in Filter(s, p)
  {
    if s[0] != x {
      FilterKeeps(s[1..], p, x);
    }
  }

  /** Filtering an appended element: the filter of the old part, then the element if it qualifies. */
  lemma {:induction false} FilterAppend<T>(s: seq<T>, x: T, p: T -> bool)
    ensures Filter(s + [x], p) == Filter(s, p) + (if p(x) then [x] else [])
  {
    if s == [] {
      assert [] + [x] == [x];
    } else {
      assert (s + [x])[1..] == s[1..] + [x];
      FilterAppend(s[1..], x, p);
    }
  }

  /** How often each value occurs in a filter: as often as in the input when it qualifies. */
  lemma {:induction false} FilterMultiset<T>(s: seq<T>, p: T -> bool, x: T)
    ensures multiset(Filter(s, p))[x] == if p(x) then multiset(s)[x] else 0
  {
    if s != [] {
      FilterMultiset(s[1..], p, x);
      assert s == [s[0]] + s[1..];
    }
  }

  /** Reordering the input reorders what a filter keeps, and nothing more. */
  lemma FilterPermutation<T>(a: seq<T>, b: seq<T>, p: T -> bool)
    requires multiset(a) == multiset(b)
    ensures multiset(Filter(a, p)) == multiset(Filter(b, p))
  {
    forall x
      ensures multiset(Filter(a, p))[x] == multiset(Filter(b, p))[x]
    {
      FilterMultiset(a, p, x);
      FilterMultiset(b, p, x);
      assert multiset(a)[x] == multiset(b)[x];
    }
    MultisetExt(multiset(Filter(a, p)), multiset(Filter(b, p)));
  }

  /** Reordering the input does not change how many elements a filter keeps. */
  lemma FilterCountPermutation<T>(a: seq<T>, b: seq<T>, p: T -> bool)
    requires multiset(a) == multiset(b)
    ensures |Filter(a, p)| == |Filter(b, p)|
  {
    FilterPermutation(a, b, p);
    assert |multiset(Filter(a, p))| == |Filter(a, p)|;
    assert |multiset(Filter(b, p))| == |Filter(b, p)|;
  }

  /** Rewriting rows without changing whether they satisfy `p` keeps the filter's size. */
  lemma {:induction false} FilterCountPointwise<T>(s: seq<T>, t: seq<T>, p: T -> bool)
    requires |s| == |t|
    requires forall i | 0 <= i < |s| :: p(s[i]) == p(t[i])
    ensures |Filter(s, p)| == |Filter(t, p)|
  {
    if s != [] {
      assert p(s[0]) == p(t[0]);
      FilterCountPointwise(s[1..], t[1..], p);
    }
  }

  /** Where exactly one element changes from failing `p` to passing it, the filter keeps one more. */
  lemma {:induction false} FilterCountGains<T>(s: seq<T>, t: seq<T>, p: T -> bool, k: nat)
    requires |s| == |t| && k < |s|
    requires forall i | 0 <= i < |s| && i != k :: p(s[i]) == p(t[i])
    requires !p(s[k]) && p(t[k])
    ensures |Filter(t, p)| == |Filter(s, p)| + 1
  {
    if k == 0 {
      FilterCountPointwise(s[1..], t[1..], p);
    } else {
      assert p(s[0]) == p(t[0]);
      FilterCountGains(s[1..], t[1..], p, k - 1);
    }
  }

  lemma MultisetExt<T>(m1: multiset<T>, m2: multiset<T>)
    requires forall x :: m1[x] == m2[x]
    ensures m1 == m2
  {
  }

  /** At most one element satisfies `p`. */
  predicate AtMostOne<T>(s: seq<T>, p: T -> bool)
  {
    forall i, j | 0 <= i < |s| && 0 <= j < |s| && p(s[i]) && p(s[j]) :: i == j
  }

  /** Nothing qualifies, nothing is kept. */
  lemma {:induction false} FilterNone<T>(s: seq<T>, p: T -> bool)
    requires forall j | 0 <= j < |s| :: !p(s[j])
    ensures Filter(s, p) == []
  {
    if s != [] {
      FilterNone(s[1..], p);
    }
  }

  /** The filter of a sequence with exactly one qualifying element is that element alone. */
  lemma {:induction false} FilterOnly<T>(s: seq<T>, p: T -> bool, i: nat)
    requires i < |s| && p(s[i])
    requires forall j | 0 <= j < |s| && j != i :: !p(s[j])
    ensures Filter(s, p) == [s[i]]
  {
    if i > 0 {
      FilterOnly(s[1..], p, i - 1);
    } else {
      FilterNone(s[1..], p);
    }
  }

  /**
   * The store's `.single()`: the one row matching `p`, and nothing when none or several
   * match.
   */
  function Single<T>(s: seq<T>, p: T -> bool): (r: Option<T>)
    ensures r.Some? <==> |Filter(s, p)| == 1
    ensures r.Some? ==> r.value in s && p(r.value)
  {
    var m := Filter(s, p);
    if |m| == 1 then Some(m[0]) else None
  }

  /** Where at most one row can match, `.single()` finds a row exactly when one exists. */
  lemma SingleOfUnique<T>(s: seq<T>, p: T -> bool)
    requires AtMostOne(s, p)
    ensures Single(s, p).Some? <==> exists i :: 0 <= i < |s| && p(s[i])
    ensures forall i | 0 <= i < |s| && p(s[i]) :: Single(s, p) == Some(s[i])
  {
    if i :| 0 <= i < |s| && p(s[i]) {
      FilterOnly(s, p, i);
      forall k | 0 <= k < |s| && p(s[k])
        ensures Single(s, p) == Some(s[k])
      {
        assert k == i;
      }
    } else {
      FilterNone(s, p);
    }
  }

  /** An update `.eq(key, value)`: every row satisfying `p` is replaced by `f` of itself. */
  function UpdateWhere<T>(s: seq<T>, p: T -> bool, f: T -> T): (r: seq<T>)
    ensures |r| == |s|
    ensures forall i | 0 <= i < |s| :: r[i] == if p(s[i]) then f(s[i]) else s[i]
  {
    seq(|s|, i requires 0 <= i < |s| => if p(s[i]) then f(s[i]) else s[i])
  }

  /** A delete `.eq(key, value)`: the rows satisfying `p` are dropped, the rest kept in order. */
  function DeleteWhere<T>(s: seq<T>, p: T -> bool): (r: seq<T>)
    ensures forall x | x in r :: x in s && !p(x)
    ensures forall x | x in s && !p(x) :: x in r
  {
    if s == [] then []
    else if p(s[0]) then DeleteWhere(s[1..], p)
    else [s[0]] + DeleteWhere(s[1..], p)
  }

  /** No two rows share a key. */
  predicate KeysDistinct<T>(s: seq<T>, key: T -> int)
  {
    forall i, j | 0 <= i < |s| && 0 <= j < |s| && key(s[i]) == key(s[j]) :: i == j
  }

  /** A delete keeps no two rows sharing a key when there were none. */
  lemma {:induction false} DeleteWhereDistinct<T>(s: seq<T>, p: T -> bool, key: T -> int)
    requires KeysDistinct(s, key)
    ensures KeysDistinct(DeleteWhere(s, p), key)
  {
    if s != [] {
      var rest := s[1..];
      assert KeysDistinct(rest, key) by {
        forall i, j | 0 <= i < |rest| && 0 <= j < |rest| && key(rest[i]) == key(rest[j])
          ensures i == j
        {
          assert rest[i] == s[i + 1] && rest[j] == s[j + 1];
        }
      }
      DeleteWhereDistinct(rest, p, key);
      var tail := DeleteWhere(rest, p);
      if !p(s[0]) {
        forall k | 0 <= k < |tail|
          ensures key(tail[k]) != key(s[0])
        {
          assert tail[k] in rest;
          var j :| 0 <= j < |rest| && rest[j] == tail[k];
          assert rest[j] == s[j + 1];
        }
        var r := [s[0]] + tail;
        assert DeleteWhere(s, p) == r;
        forall i, j | 0 <= i < |r| && 0 <= j < |r| && key(r[i]) == key(r[j])
          ensures i == j
        {
          if i > 0 {
            assert r[i] == tail[i - 1];
          }
          if j > 0 {
            assert r[j] == tail[j - 1];
          }
        }
      }
    }
  }

  /** Newest first: keys never increase along the sequence. */
  predicate SortedDesc<T>(s: seq<T>, key: T -> int)
  {
    forall i, j | 0 <= i < j < |s| :: key(s[i]) >= key(s[j])
  }

  function Insert<T>(x: T, s: seq<T>, key: T -> int): (r: seq<T>)
    requires SortedDesc(s, key)
    ensures |r| == |s| + 1
    ensures r[0] == x || (s != [] && r[0] == s[0])
    ensures SortedDesc(r, key)
    ensures multiset(r) == multiset(s) + multiset{x}
  {
    if s == [] then [x]
    else if key(x) >= key(s[0]) then [x] + s
    else
      assert s == [s[0]] + s[1..];
      [s[0]] + Insert(x, s[1..], key)
  }

  /** The rows ordered by `key`, largest first. */
  function SortDesc<T>(s: seq<T>, key: T -> int): (r: seq<T>)
    ensures SortedDesc(r, key)
    ensures multiset(r) == multiset(s)
  {
    if s == [] then []
    else
      assert s == [s[0]] + s[1..];
      Insert(s[0], SortDesc(s[1..], key), key)
  }

  /** `order(key, { ascending: false }).limit(n)`. */
  function Newest<T>(s: seq<T>, key: T -> int, n: nat): (r: seq<T>)
    ensures |r| == Min(n, |s|)
    ensures SortedDesc(r, key)
    ensures forall x | x in r :: x in s
    ensures multiset(r) <= multiset(s)
  {
    var sorted := SortDesc(s, key);
    assert |sorted| == |multiset(sorted)| == |s|;
    PrefixIncluded(sorted, s, Min(n, |s|));
    sorted[..Min(n, |s|)]
  }

  /** A prefix of a rearrangement of `t` takes its elements from `t`. */
  lemma PrefixIncluded<T>(s: seq<T>, t: seq<T>, k: nat)
    requires k <= |s| && multiset(s) == multiset(t)
    ensures multiset(s[..k]) <= multiset(t)
    ensures forall x | x in s[..k] :: x in t
  {
    assert s == s[..k] + s[k..];
    assert multiset(s) == multiset(s[..k]) + multiset(s[k..]);
    forall x | x in s[..k]
      ensures x in t
    {
      assert x in multiset(s[..k]);
      assert x in multiset(t);
    }
  }

  /** Filtering a sequence sorted newest first keeps it sorted. */
  lemma {:induction false} FilterSorted<T>(s: seq<T>, p: T -> bool, key: T -> int)
    requires SortedDesc(s, key)
    ensures SortedDesc(Filter(s, p), key)
  {
    if s != [] {
      var rest := s[1..];
      assert SortedDesc(rest, key) by {
        forall i, j | 0 <= i < j < |rest| ensures key(rest[i]) >= key(rest[j]) {
          assert rest[i] == s[i + 1] && rest[j] == s[j + 1];
        }
      }
      FilterSorted(rest, p, key);
      if p(s[0]) {
        var tail := Filter(rest, p);
        forall k | 0 <= k < |tail|
          ensures key(s[0]) >= key(tail[k])
        {
          assert tail[k] in rest;
          var j :| 0 <= j < |rest| && rest[j] == tail[k];
          assert rest[j] == s[j + 1];
        }
        assert Filter(s, p) == [s[0]] + tail;
      }
    }
  }

  /** Nothing the limit leaves out is newer than anything it returns. */
  lemma NewestIsNewest<T>(s: seq<T>, key: T -> int, n: nat, x: T, y: T)
    requires x in Newest(s, key, n)
    requires multiset(s)[y] > multiset(Newest(s, key, n))[y]
    ensures key(x) >= key(y)
  {
    var sorted := SortDesc(s, key);
    var k := Min(n, |s|);
    assert |sorted| == |multiset(sorted)| == |s|;
    assert Newest(s, key, n) == sorted[..k];
    BeyondPrefix(sorted, k, y);
    var j :| k <= j < |sorted| && sorted[j] == y;
    var i :| 0 <= i < k && sorted[i] == x;
  }

  /** An element that occurs more often in `s` than in a prefix of it occurs after the prefix. */
  lemma BeyondPrefix<T>(s: seq<T>, k: nat, y: T)
    requires k <= |s| && multiset(s)[y] > multiset(s[..k])[y]
    ensures exists j :: k <= j < |s| && s[j] == y
  {
    assert s == s[..k] + s[k..];
    assert multiset(s) == multiset(s[..k]) + multiset(s[k..]);
    assert y in multiset(s[k..]);
  }
}

=== FILE: server_customers.dfy ===
/** Loyalty customers in server.js: look-up by phone, enrolment and patching (server.js:164-202). */
module ServerCustomers {
  import opened Common
  import opened Json
  import opened Seqs
  import opened Numbering
  import Text
  import opened Loyalty
  import opened ServerData

  /** GET /api/customers/phone/:phone: the first customer whose phone is exactly `phone`. */
  function CustomerByPhone(cs: seq<Record>, phone: string): (r: Reply<Record>)
    ensures r.Ok? ==> r.value in cs && HasStr(r.value, "phone", phone)
    ensures r.Err? <==> forall c | c in cs :: !HasStr(c, "phone", phone)
    ensures r.Err? ==> r == Err(404, "Customer not found")
  {
    match FindIndex(cs, (c: Record) => HasStr(c, "phone", phone))
    case None => Err(404, "Customer not found")
    case Some(i) => Ok(cs[i])
  }

  /** The fields enrolment always sets, whatever the body says. */
  const Enrolment: set<string> := {"points", "totalSpent", "visits", "memberSince", "tier"}

  /**
   * `{ id, ...body, points: 0, totalSpent: 0, visits: 0, memberSince, tier: 'bronze' }`:
   * the id is numbered after the table's length unless the body brings its own.
   */
  function NewCustomer(body: Record, count: nat, today: string): (c: Record)
    ensures forall k :: k in c <==> k in body || k in Enrolment || k == "id"
    ensures c["id"] == if "id" in body then body["id"] else Str(CustomerId(count + 1))
    ensures c["points"] == Num(0) && c["totalSpent"] == Num(0) && c["visits"] == Num(0)
    ensures c["memberSince"] == Str(today) && c["tier"] == Str("bronze")
    ensures forall k | k in body && k !in Enrolment :: c[k] == body[k]
  {
    var withId := if "id" in body then body else body["id" := Str(CustomerId(count + 1))];
    withId["points" := Num(0)]["totalSpent" := Num(0)]["visits" := Num(0)]
      ["memberSince" := Str(today)]["tier" := Str("bronze")]
  }

  /** POST /api/customers appends the new customer. */
  method CreateCustomer(d: DataDir, body: Record, today: string) returns (c: Record)
    modifies d`customers
    ensures c == NewCustomer(body, |old(d.customers)|, today)
    ensures d.customers == old(d.customers) + [c]
  {
    c := NewCustomer(body, |d.customers|, today);
    d.customers := d.customers + [c];
  }

  /**
   * Enrolments made at different table lengths, neither bringing its own id, never share
   * an id; so a table that only grows through enrolment keeps its ids distinct.
   */
  lemma {:induction false} EnrolmentIdsDiffer(b1: Record, b2: Record, n: nat, m: nat, t1: string, t2: string)
    requires "id" !in b1 && "id" !in b2 && n != m
    ensures NewCustomer(b1, n, t1)["id"] != NewCustomer(b2, m, t2)["id"]
  {
    var a, b := NewCustomer(b1, n, t1), NewCustomer(b2, m, t2);
    assert a["id"] == Str(CustomerId(n + 1)) && b["id"] == Str(CustomerId(m + 1));
    CustomerIdInjective(n + 1, m + 1);
  }

  /**
   * The points the tier comparisons see: `points >= 1500` converts the field to a number,
   * and NaN (an absent field, a non-numeric string) fails both comparisons, as 0 does.
   */
  function TierPoints(c: Record): int
  {
    match FieldNumber(c, "points")
    case None => 0
    case Some(n) => n
  }

  /** The stored tier is the one the point total earns. */
  predicate TierConsistent(c: Record)
  {
    "tier" in c && c["tier"] == Str(TierName(TierOf(TierPoints(c))))
  }

  lemma NewCustomerTierConsistent(body: Record, count: nat, today: string)
    ensures TierConsistent(NewCustomer(body, count, today))
  {
  }

  /**
   * `Object.assign(customer, body)` followed by the tier recomputed from the merged points:
   * a body cannot set the tier, and every other field it brings is taken as is.
   */
  function Retiered(c: Record, body: Record): (r: Record)
    ensures TierConsistent(r)
    ensures r.Keys == c.Keys + body.Keys + {"tier"}
    ensures forall k | k in body && k != "tier" :: r[k] == body[k]
    ensures forall k | k in c && k !in body && k != "tier" :: r[k] == c[k]
  {
    var merged := c + body;
    merged["tier" := Str(TierName(TierOf(TierPoints(merged))))]
  }

  /**
   * Points sent as text are compared as numbers: a patch with `"points": "600"` makes the
   * customer silver, and one with `"points": "abc"` (NaN) makes them bronze.
   */
  lemma RetieredCoercesPoints(c: Record, body: Record, s: string)
    requires "points" in body && body["points"] == Str(s)
    ensures s != "" && Text.AllDigits(s) ==> Retiered(c, body)["tier"] == Str(TierName(TierOf(Text.Value(s))))
    ensures s == "600" ==> Retiered(c, body)["tier"] == Str("silver")
    ensures s == "abc" ==> Retiered(c, body)["tier"] == Str("bronze")
  {
    var r := Retiered(c, body);
    assert r["points"] == Str(s);
    if s == "600" {
      assert Text.AllDigits(s);
      assert Text.Value(s) == 600 by {
        assert s[..2] == "60";
        assert "60"[..1] == "6";
        assert "6"[..0] == "";
      }
    }
    if s == "abc" {
      assert !Text.IsDigit(s[0]);
    }
  }

  function CustomerWithId(id: string): Record -> bool
  {
    (c: Record) => HasStr(c, "id", id)
  }

  /** PATCH /api/customers/:id: the first customer with that id is patched and re-tiered. */
  method PatchCustomer(d: DataDir, id: string, body: Record) returns (r: Reply<Record>)
    modifies d`customers
    ensures var i := FindIndex(old(d.customers), CustomerWithId(id));
      && (i.None? ==> r == Err(404, "Customer not found") && d.customers == old(d.customers))
      && (i.Some? ==> r == Ok(Retiered(old(d.customers)[i.value], body))
                      && d.customers == old(d.customers)[i.value := r.value])
  {
    var i := FindIndex(d.customers, CustomerWithId(id));
    if i.None? {
      return Err(404, "Customer not found");
    }
    var c := Retiered(d.customers[i.value], body);
    d.customers := d.customers[i.value := c];
    r := Ok(c);
  }
}

=== FILE: server_data.dfy ===
/**
 * The JSON data directory behind server.js. Each handler reads a file, changes the
 * loaded object in place and writes it back; here each file is a field of one object
 * and each handler is one atomic step on it.
 */
module ServerData {
  import opened Common
  import opened Json

  /** An inventory line of inventory.json; only its id and stock are read by the core. */
  datatype Item = Item(id: string, currentStock: Value, details: Record)

  /** A content submission of creator-submissions.json. */
  datatype Submission = Submission(
    id: string,
    phone: string,
    creatorName: Option<string>,
    platform: string,
    link: string,
    description: string,
    status: string,
    submittedAt: string,
    reviewedAt: Option<string>,
    pointsAwarded: Option<int>)

  /** A creator of creators.json, with the discount code issued to them and its earnings. */
  datatype Creator = Creator(
    phone: string,
    name: Option<string>,
    discountCode: string,
    codeUses: int,
    codeSales: int,
    codeCommission: int,
    totalCommission: int,
    createdAt: string)

  /** A promotion of promo-codes.json; `percent` is absent when the file leaves it out. */
  datatype Promo = Promo(code: string, active: bool, percent: Option<int>)

  class DataDir {
    var orders: seq<Record>          // orders.json: orders
    var lastOrderNumber: nat         // orders.json: lastOrderNumber
    var customers: seq<Record>       // customers.json: customers
    var inventory: seq<Item>         // inventory.json: items
    var waste: seq<Record>           // waste.json: entries
    var submissions: seq<Submission> // creator-submissions.json: submissions
    var creators: seq<Creator>       // creators.json: creators
    var promos: seq<Promo>           // promo-codes.json: codes

    /** A data directory whose files are missing or empty (orders.json falls back to number 0). */
    constructor Empty(promos: seq<Promo>)
      ensures orders == [] && lastOrderNumber == 0 && customers == [] && inventory == []
      ensures waste == [] && submissions == [] && creators == [] && this.promos == promos
    {
      orders, lastOrderNumber, customers, inventory := [], 0, [], [];
      waste, submissions, creators, this.promos := [], [], [], promos;
    }
  }
}

=== FILE: server_orders.dfy ===
/** Order creation and patching in server.js (server.js:47-75). */
module ServerOrders {
  import opened Common
  import opened Json
  import opened Seqs
  import opened Numbering
  import Text
  import opened ServerData

  /** The fields the server sets on a new order, whatever the body says. */
  const OrderStamps: set<string> := {"id", "orderNumber", "status", "createdAt"}

  /** `{ ...body, k1: v1, ..., k4: v4 }` for four different keys. */
  function Stamped(body: Record, k1: string, v1: Value, k2: string, v2: Value,
                   k3: string, v3: Value, k4: string, v4: Value): (o: Record)
    requires k1 != k2 && k1 != k3 && k1 != k4 && k2 != k3 && k2 != k4 && k3 != k4
    ensures o.Keys == body.Keys + {k1, k2, k3, k4}
    ensures o[k1] == v1 && o[k2] == v2 && o[k3] == v3 && o[k4] == v4
    ensures forall k | k in body && k !in {k1, k2, k3, k4} :: o[k] == body[k]
  {
    body[k1 := v1][k2 := v2][k3 := v3][k4 := v4]
  }

  /** `{ ...body, id, orderNumber, status: 'pending', createdAt }` for order number `n`. */
  function NewOrder(body: Record, n: nat, now: string): (o: Record)
    ensures o.Keys == body.Keys + OrderStamps
    ensures o["id"] == Str(OrderId(n)) && o["orderNumber"] == Num(n)
    ensures o["status"] == Str("pending") && o["createdAt"] == Str(now)
    ensures forall k | k in body && k !in OrderStamps :: o[k] == body[k]
  {
    StampKeysDiffer();
    Stamped(body, "id", Str(OrderId(n)), "orderNumber", Num(n), "status", Str("pending"), "createdAt", Str(now))
  }

  /** The four stamped keys are different strings: their lengths differ. */
  lemma StampKeysDiffer()
    ensures "id" != "orderNumber" && "id" != "status" && "id" != "createdAt"
    ensures "orderNumber" != "status" && "orderNumber" != "createdAt" && "status" != "createdAt"
  {
    assert |"id"| == 2 && |"orderNumber"| == 11 && |"status"| == 6 && |"createdAt"| == 9;
  }

  /** POST /api/orders: the next number, its `ORD-` id, status pending; the counter moves by one. */
  method CreateOrder(d: DataDir, body: Record, now: string) returns (o: Record)
    modifies d`orders, d`lastOrderNumber
    ensures o == NewOrder(body, old(d.lastOrderNumber) + 1, now)
    ensures d.orders == old(d.orders) + [o]
    ensures d.lastOrderNumber == old(d.lastOrderNumber) + 1
  {
    o := NewOrder(body, d.lastOrderNumber + 1, now);
    d.orders := d.orders + [o];
    d.lastOrderNumber := d.lastOrderNumber + 1;
  }

  /** Orders created one after another never share an id: their numbers differ. */
  lemma {:induction false} SuccessiveOrdersDiffer(b1: Record, b2: Record, n: nat, t1: string, t2: string)
    ensures NewOrder(b1, n + 1, t1)["id"] != NewOrder(b2, n + 2, t2)["id"]
  {
    OrderIdInjective(n + 1, n + 2);
  }

  function OrderWithId(id: string): Record -> bool
  {
    (o: Record) => HasStr(o, "id", id)
  }

  /** `Object.assign(order, body)`, and a `completedAt` stamp when the body sets status completed. */
  function Patched(o: Record, body: Record, now: string): (r: Record)
    ensures r.Keys == o.Keys + body.Keys + (if HasStr(body, "status", "completed") then {"completedAt"} else {})
    ensures HasStr(body, "status", "completed") ==> r["completedAt"] == Str(now)
    ensures forall k | k in body && k != "completedAt" :: r[k] == body[k]
    ensures forall k | k in o && k !in body && k != "completedAt" :: r[k] == o[k]
    ensures !HasStr(body, "status", "completed") ==> r == o + body
  {
    var merged := o + body;
    if HasStr(body, "status", "completed") then merged["completedAt" := Str(now)] else merged
  }

  /** PATCH /api/orders/:id: the first order with that id is patched; an unknown id changes nothing. */
  method PatchOrder(d: DataDir, id: string, body: Record, now: string) returns (r: Reply<Record>)
    modifies d`orders
    ensures var i := FindIndex(old(d.orders), OrderWithId(id));
      && (i.None? ==> r == Err(404, "Order not found") && d.orders == old(d.orders))
      && (i.Some? ==> r == Ok(Patched(old(d.orders)[i.value], body, now))
                      && d.orders == old(d.orders)[i.value := r.value])
  {
    var i := FindIndex(d.orders, OrderWithId(id));
    if i.None? {
      return Err(404, "Order not found");
    }
    var o := Patched(d.orders[i.value], body, now);
    d.orders := d.orders[i.value := o];
    r := Ok(o);
  }
}

=== FILE: simulation.dfy ===
/**
 * The opening-week simulation (simulation/opening_week_sim.py): simulated customers who may
 * buy a membership worth 500 in rico cash and may submit challenge content once, and orders
 * whose total and item counts are fixed on creation and which are paid from rico cash first
 * and by card for the rest. Random draws are parameters in [0, 1).
 */
module Simulation {
  import opened Common
  import opened Seqs

  /** The chance that a customer is a content creator. */
  const CreatorChance: real := 0.05
  /** The chance that a customer without a membership buys one. */
  const MembershipChance: real := 0.05
  /** The chance that a creator takes part in the active challenge. */
  const ChallengeChance: real := 0.30
  /** The rico cash a membership loads. */
  const MembershipCredit := 500

  /** A menu item as the simulation sees it, tagged with its category's id. */
  datatype SimItem = SimItem(id: string, name: string, price: int, categoryId: string)

  function IsDrink(i: SimItem): bool { i.categoryId == "beverages" || i.categoryId == "coffee" }
  function IsFood(i: SimItem): bool { !IsDrink(i) && i.categoryId != "extras" }
  function IsExtra(i: SimItem): bool { i.categoryId == "extras" }

  /** `sum(item['price'] for item in items)`. */
  function Total(items: seq<SimItem>): int
  {
    if items == [] then 0 else items[0].price + Total(items[1..])
  }

  /** The total of a concatenation is the sum of the totals. */
  lemma {:induction false} TotalConcat(a: seq<SimItem>, b: seq<SimItem>)
    ensures Total(a + b) == Total(a) + Total(b)
  {
    if a != [] {
      assert (a + b)[1..] == a[1..] + b;
      TotalConcat(a[1..], b);
    } else {
      assert a + b == b;
    }
  }

  /**
   * Every item is a drink, food or an extra, and exactly one of them: the three groups'
   * sizes add up to the order's size and their totals to the order's total.
   */
  lemma {:induction false} ItemsPartition(items: seq<SimItem>)
    ensures |Filter(items, IsDrink)| + |Filter(items, IsFood)| + |Filter(items, IsExtra)| == |items|
    ensures Total(Filter(items, IsDrink)) + Total(Filter(items, IsFood)) + Total(Filter(items, IsExtra))
            == Total(items)
  {
    if items != [] {
      ItemsPartition(items[1..]);
      var x := items[0];
      if IsDrink(x) {
        assert Total([x] + Filter(items[1..], IsDrink)) == x.price + Total(Filter(items[1..], IsDrink));
      } else if IsFood(x) {
        assert Total([x] + Filter(items[1..], IsFood)) == x.price + Total(Filter(items[1..], IsFood));
      } else {
        assert Total([x] + Filter(items[1..], IsExtra)) == x.price + Total(Filter(items[1..], IsExtra));
      }
    }
  }

  /** What the order counts as simple (grab-and-go): neither a drink nor food. */
  function SimpleCount(items: seq<SimItem>): (n: int)
    ensures n == |Filter(items, IsExtra)| && n >= 0
  {
    ItemsPartition(items);
    |items| - |Filter(items, IsDrink)| - |Filter(items, IsFood)|
  }

  /** A simulated customer. */
  class SimCustomer {
    var id: string
    var isVip: bool
    var ricoCash: int
    var creditCardSpent: int
    var isCreator: bool
    var contentSubmitted: bool

    /** Balances never go negative, and only a creator ever submits content. */
    predicate Valid()
      reads this
    {
      ricoCash >= 0 && creditCardSpent >= 0 && (contentSubmitted ==> isCreator)
    }

    /** A walk-in: no membership, no balance, a creator when `draw` falls under the creator chance. */
    constructor (id: string, draw: real)
      ensures this.id == id && !isVip && ricoCash == 0 && creditCardSpent == 0
      ensures isCreator == (draw < CreatorChance) && !contentSubmitted
      ensures Valid()
    {
      this.id := id;
      isVip, ricoCash, creditCardSpent := false, 0, 0;
      isCreator, contentSubmitted := draw < CreatorChance, false;
    }

    /** A customer who is not yet a member buys a membership when `draw` falls under the chance. */
    method DecideMembership(draw: real) returns (granted: bool)
      modifies this
      ensures granted <==> !old(isVip) && draw < MembershipChance
      ensures isVip == (old(isVip) || granted)
      ensures ricoCash == old(ricoCash) + (if granted then MembershipCredit else 0)
      ensures id == old(id) && creditCardSpent == old(creditCardSpent)
      ensures isCreator == old(isCreator) && contentSubmitted == old(contentSubmitted)
      ensures old(Valid()) ==> Valid()
    {
      if !isVip && draw < MembershipChance {
        isVip := true;
        ricoCash := ricoCash + MembershipCredit;
        return true;
      }
      return false;
    }

    /** A creator who has not submitted yet takes part when `draw` falls under the challenge chance. */
    method EngageChallenge(draw: real) returns (submitted: bool)
      modifies this
      ensures submitted <==> isCreator && !old(contentSubmitted) && draw < ChallengeChance
      ensures contentSubmitted == (old(contentSubmitted) || submitted)
      ensures id == old(id) && isVip == old(isVip) && ricoCash == old(ricoCash)
      ensures creditCardSpent == old(creditCardSpent) && isCreator == old(isCreator)
      ensures old(Valid()) ==> Valid()
    {
      if isCreator && !contentSubmitted && draw < ChallengeChance {
        contentSubmitted := true;
        return true;
      }
      return false;
    }
  }

  /** Two membership decisions in a row grant at most one membership, worth 500 in total. */
  method MembershipAtMostOnce(c: SimCustomer, first: real, second: real) returns (g1: bool, g2: bool)
    modifies c
    ensures !(g1 && g2)
    ensures c.ricoCash == old(c.ricoCash) + (if g1 || g2 then MembershipCredit else 0)
    ensures old(c.isVip) ==> !g1 && !g2
  {
    g1 := c.DecideMembership(first);
    g2 := c.DecideMembership(second);
  }

  /** Two challenge rounds in a row yield at most one submission, and only from a creator. */
  method ChallengeAtMostOnce(c: SimCustomer, first: real, second: real) returns (s1: bool, s2: bool)
    modifies c
    ensures !(s1 && s2)
    ensures (s1 || s2) ==> c.isCreator
    ensures old(c.contentSubmitted) ==> !s1 && !s2
  {
    s1 := c.EngageChallenge(first);
    s2 := c.EngageChallenge(second);
  }

  /** How one payment is settled: what is paid in cash and in rico, the rico left, and what the card is charged. */
  datatype Settlement = Settlement(paidCash: int, paidRico: int, ricoLeft: int, cardAdded: int)

  /**
   * Rico cash first: a balance that covers the total pays all of it; a smaller positive balance
   * is drained and the rest paid in cash; without a balance the card pays. Only that last case
   * is recorded as card spending.
   */
  function Settle(rico: int, total: int): (s: Settlement)
    ensures s.paidCash + s.paidRico == total
    ensures s.ricoLeft == rico - s.paidRico
    ensures rico > 0 && rico >= total ==> s.paidRico == total && s.paidCash == 0
    ensures 0 < rico < total ==> s.ricoLeft == 0 && s.paidCash == total - rico
    ensures rico <= 0 ==> s.paidRico == 0 && s.ricoLeft == rico
    ensures s.cardAdded == if rico > 0 then 0 else total
    ensures rico >= 0 ==> s.ricoLeft >= 0
  {
    if rico > 0 then
      if rico >= total then Settlement(0, total, rico - total, 0)
      else Settlement(total - rico, rico, 0, 0)
    else Settlement(total, 0, rico, total)
  }

  /**
   * For a positive balance and a non-negative total the settlement is the one the live-drop
   * payment computes: rico pays the smaller of balance and total and is left with the excess.
   */
  lemma SettleIsMinMax(rico: int, total: int)
    requires rico > 0 && total >= 0
    ensures Settle(rico, total).paidRico == Min(rico, total)
    ensures Settle(rico, total).ricoLeft == Max(rico - total, 0)
    ensures Settle(rico, total).paidCash == Max(total - rico, 0)
  {
  }

  /** A simulated order: its total and counts are fixed when it is placed. */
  class SimOrder {
    var id: string
    var customer: SimCustomer
    var items: seq<SimItem>
    var timePlaced: int
    var hourPlaced: int
    var total: int
    var drinkCount: nat
    var foodCount: nat
    var simpleCount: int

    constructor (id: string, customer: SimCustomer, items: seq<SimItem>, timePlaced: int, hourPlaced: int)
      ensures this.id == id && this.customer == customer && this.items == items
      ensures this.timePlaced == timePlaced && this.hourPlaced == hourPlaced
      ensures total == Total(items)
      ensures drinkCount == |Filter(items, IsDrink)| && foodCount == |Filter(items, IsFood)|
      ensures simpleCount == |Filter(items, IsExtra)| && simpleCount >= 0
      ensures drinkCount + foodCount + simpleCount == |items|
    {
      this.id, this.customer, this.items := id, customer, items;
      this.timePlaced, this.hourPlaced := timePlaced, hourPlaced;
      var drinks, food := |Filter(items, IsDrink)|, |Filter(items, IsFood)|;
      assert |items| - drinks - food == SimpleCount(items);
      total, drinkCount, foodCount := Total(items), drinks, food;
      simpleCount := |items| - drinks - food;
    }

    /** Paying the order from the customer's rico cash first, then by cash or card. */
    method ProcessPayment() returns (paidCash: int, paidRico: int)
      modifies customer
      ensures var s := Settle(old(customer.ricoCash), total);
        && paidCash == s.paidCash && paidRico == s.paidRico
        && customer.ricoCash == s.ricoLeft
        && customer.creditCardSpent == old(customer.creditCardSpent) + s.cardAdded
      ensures paidCash + paidRico == total
      ensures customer.id == old(customer.id) && customer.isVip == old(customer.isVip)
      ensures customer.isCreator == old(customer.isCreator)
      ensures customer.contentSubmitted == old(customer.contentSubmitted)
      ensures old(customer.Valid()) && total >= 0 ==> customer.Valid()
    {
      paidCash, paidRico := 0, 0;
      if customer.ricoCash > 0 {
        if customer.ricoCash >= total {
          paidRico := total;
          customer.ricoCash := customer.ricoCash - total;
        } else {
          paidRico := customer.ricoCash;
          paidCash := total - customer.ricoCash;
          customer.ricoCash := 0;
        }
      } else {
        paidCash := total;
        customer.creditCardSpent := customer.creditCardSpent + total;
      }
    }
  }
}

=== FILE: store_api.dfy ===
/**
 * The combined store endpoint (api/store.js), routed by `?action=`: the menu, order creation,
 * the live-drop status, receipt upload checked by reference only, and the Valentine
 * campaign's variant for a child's artwork.
 */
module StoreApi {
  import opened Common
  import opened Text
  import opened Seqs
  import Json
  import opened StoreDb
  import opened OrdersApi
  import opened Receipts
  import Campaign
  import Menu

  /** The handler a request reaches. */
  datatype Route = Preflight | MenuRoute | OrdersRoute | LiveStatusRoute | UploadRoute | ValentinesRoute | NotFound

  /** OPTIONS first, then each action with the one verb it accepts; anything else is 404. */
  function RouteOf(verb: Verb, action: string): (r: Route)
    ensures r == Preflight <==> verb == Options
    ensures r == MenuRoute <==> verb == Get && action == "menu"
    ensures r == OrdersRoute <==> verb == Post && action == "orders"
    ensures r == LiveStatusRoute <==> verb == Get && action == "live-status"
    ensures r == UploadRoute <==> verb == Post && action == "upload-receipt"
    ensures r == ValentinesRoute <==> verb == Post && action == "valentines"
  {
    if verb == Options then Preflight
    else if action == "menu" && verb == Get then MenuRoute
    else if action == "orders" && verb == Post then OrdersRoute
    else if action == "live-status" && verb == Get then LiveStatusRoute
    else if action == "upload-receipt" && verb == Post then UploadRoute
    else if action == "valentines" && verb == Post then ValentinesRoute
    else NotFound
  }

  /** What an unmatched request gets. */
  const ActionNotFound: Reply<bool> := Err(404, "Action not found")

  /** What `action=menu` answers: the rows as read, and the tax rate in percent. */
  datatype StoreMenuReply = StoreMenuReply(items: seq<Menu.MenuItem>, modifiers: seq<Menu.Modifier>, taxPercent: int)

  /** `action=menu`: the available items and every modifier, ungrouped, with the 15% tax rate. */
  function StoreMenu(items: seq<Menu.MenuItem>, mods: seq<Menu.Modifier>): (r: StoreMenuReply)
    ensures forall i | i in r.items :: i in items && i.available
    ensures forall i | i in items && i.available :: i in r.items
    ensures r.modifiers == mods
    ensures r.taxPercent == Menu.TaxPercent == 15
  {
    var shown := Filter(items, Menu.IsAvailable);
    assert forall i | i in items && i.available :: i in shown by {
      forall i | i in items && i.available ensures i in shown {
        FilterKeeps(items, Menu.IsAvailable, i);
      }
    }
    StoreMenuReply(shown, mods, Menu.TaxPercent)
  }

  /** `action=live-status`: the stored drop, or an inactive one when none is stored. */
  function LiveStatus(drop: Option<Drop>): (r: Drop)
    ensures drop.Some? ==> r == drop.value
    ensures drop.None? ==> !r.active
  {
    if drop.Some? then drop.value else Drop(false, 0, 0, "")
  }

  /**
   * `action=orders`: numbered like the order endpoint; the insert's error is not checked, so a
   * failed insert answers `null` (`None`).
   */
  method CreateOrder(d: Db, req: OrderRequest, now: int, fault: bool) returns (r: Option<OrderRow>)
    modifies d`orders
    ensures fault ==> r.None? && d.orders == old(d.orders)
    ensures !fault ==> r == Some(NewOrderRow(req, MaxOrderNumber(old(d.orders)) + 1, now))
                       && d.orders == old(d.orders) + [r.value]
    ensures old(d.Valid()) ==> d.Valid()
  {
    var created := OrdersApi.CreateOrder(d, req, now, if fault then Some("") else None);
    r := if created.Ok? then Some(created.value) else None;
  }

  /** `action=upload-receipt`: only the reference is checked, and no image hash is stored. */
  method Upload(d: Db, ticketCode: Option<string>, ref: string) returns (r: Reply<bool>)
    modifies d`receipts
    ensures Single(old(d.receipts), WithRef(ref)).Some? ==> r == Err(409, "Used ref") && d.receipts == old(d.receipts)
    ensures Single(old(d.receipts), WithRef(ref)).None? ==>
      r == Ok(true) && d.receipts == old(d.receipts) + [Receipt(ticketCode, ref, None)]
    ensures old(d.Valid()) ==> d.Valid()
  {
    if Single(d.receipts, WithRef(ref)).Some? {
      return Err(409, "Used ref");
    }
    ghost var wasValid := d.Valid();
    var x := Receipt(ticketCode, ref, None);
    if wasValid {
      RefLookup(d.receipts, ref);
      AppendReceiptKeepsUnique(d.receipts, x);
    }
    d.receipts := d.receipts + [x];
    r := Ok(true);
    assert wasValid ==> d.Valid();
  }

  /** The submission logged for a child's artwork. */
  function KidSubmission(phone: string, kidName: string): (s: SubmissionRow)
    ensures s.status == "approved" && s.platform == "valentine_art" && s.pointsAwarded == Campaign.ArtPoints
    ensures s.phone == phone && s.creatorName == Some(kidName)
  {
    SubmissionRow(None, phone, Some(kidName), "valentine_art", None, None, "approved", Campaign.ArtPoints)
  }

  /** The parent enrolled by this variant: the notes name the child. */
  function KidParent(id: string, name: Option<string>, phone: string, kidName: string): CustomerRow
  {
    Enrolled(id, name, phone, "bronze", 0, false, None, "Kid: " + kidName)
  }

  /** What `.select('id')` returns for a customer: the id and nothing else. */
  function IdOnly(c: CustomerRow): Json.Record
  {
    map["id" := Json.Str(c.id)]
  }

  /** The points written as written: `(customer.points || 0) + 50` on the record fetched. */
  function PointsWrittenAsWritten(fetched: Json.Record): int
  {
    Json.NumOr0(fetched, "points") + Campaign.ArtPoints
  }

  /**
   * Because the look-up selects only the id, the write sets an existing customer's points
   * to 50 whatever they were: a customer with 300 points is left with 50, not 350.
   */
  lemma ValentinesOverwritesPoints(c: CustomerRow)
    ensures PointsWrittenAsWritten(IdOnly(c)) == 50
    ensures c.points == 300 ==> PointsWrittenAsWritten(IdOnly(c)) != c.points + 50
  {
    assert "points" !in IdOnly(c);
  }

  /**
   * `action=valentines`, with the award corrected to add 50 to the customer's points. When the
   * new parent cannot be inserted, the submission is still logged and the handler then fails
   * reading the missing row's id (`Bare(500)`).
   */
  method Valentines(d: Db, name: Option<string>, kidName: string, phone: string, createFault: bool)
    returns (r: Reply<bool>)
    modifies d`customers, d`submissions
    ensures var clean := DigitsOnly(phone);
      var found := Single(old(d.customers), WithPhone(clean));
      && d.submissions == old(d.submissions) + [KidSubmission(clean, kidName)]
      && (found.None? && createFault ==> r == Bare(500) && d.customers == old(d.customers))
      && (found.Some? || !createFault ==>
            var id := if found.Some? then found.value.id else NextId(old(d.customers));
            var enrolled := if found.Some? then old(d.customers)
                            else old(d.customers) + [KidParent(id, name, clean, kidName)];
            r == Ok(true) && d.customers == UpdateWhere(enrolled, WithId(id), Campaign.Increment(Campaign.ArtPoints)))
    ensures old(d.Valid()) ==> d.Valid()
  {
    var clean := DigitsOnly(phone);
    var found := Single(d.customers, WithPhone(clean));
    var id := "";
    if found.Some? {
      id := found.value.id;
    } else if !createFault {
      id := NextId(d.customers);
      d.AppendCustomer(KidParent(id, name, clean, kidName));
    }
    d.submissions := d.submissions + [KidSubmission(clean, kidName)];
    if found.None? && createFault {
      return Bare(500);
    }
    Campaign.AwardArt(d, id);
    r := Ok(true);
  }
}

=== FILE: store_db.dfy ===
/**
 * The hosted database the serverless handlers under api/ and tools/ share: the customers,
 * orders, receipts, creator submissions, founders and balance-history tables and the
 * `live_drop` system setting. Each handler is modelled as one atomic step on this object;
 * a store call that reports an error is a `fault` parameter of the handler.
 */
module StoreDb {
  import opened Common
  import opened Text
  import opened Seqs
  import opened Numbering
  import Json

  datatype CustomerRow = CustomerRow(
    id: string,
    name: Option<string>,
    phone: Option<string>,
    email: Option<string>,
    points: int,
    tier: string,
    isVip: bool,
    pin: Option<string>,
    password: Option<string>,
    notes: Option<string>,
    cashBalance: int,
    membershipCredit: int)

  /** A row as the handlers insert it: no email or password, empty wallet, not VIP unless said. */
  function Enrolled(id: string, name: Option<string>, phone: string, tier: string, points: int,
                    isVip: bool, pin: Option<string>, notes: string): CustomerRow
  {
    CustomerRow(id, name, Some(phone), None, points, tier, isVip, pin, None, Some(notes), 0, 0)
  }

  datatype OrderRow = OrderRow(
    id: string,
    orderNumber: nat,
    items: Json.Value,
    total: int,
    customerId: Option<string>,
    paymentMethod: Option<string>,
    status: string,
    notes: Option<string>,
    createdAt: int)

  datatype Receipt = Receipt(ticketCode: Option<string>, refNumber: string, imageHash: Option<string>)

  datatype SubmissionRow = SubmissionRow(
    id: Option<string>,
    phone: string,
    creatorName: Option<string>,
    platform: string,
    link: Option<string>,
    description: Option<string>,
    status: string,
    pointsAwarded: int)

  datatype Founder = Founder(
    id: nat,
    name: Option<string>,
    phone: string,
    ticket: string,
    refNotes: string,
    status: string,
    amount: int,
    createdAt: int,
    confirmedAt: Option<string>)

  datatype HistoryRow = HistoryRow(customerId: string, kind: string, amount: int, notes: string)

  /** The `live_drop` setting: a limited product sold for wallet balance. */
  datatype Drop = Drop(active: bool, stock: int, price: int, product: string)

  function Ids(cs: seq<CustomerRow>): (ids: seq<string>)
    ensures |ids| == |cs| && forall i | 0 <= i < |cs| :: ids[i] == cs[i].id
  {
    seq(|cs|, i requires 0 <= i < |cs| => cs[i].id)
  }

  /** `.eq('phone', phone)` on customers. */
  function WithPhone(phone: string): CustomerRow -> bool
  {
    (c: CustomerRow) => c.phone == Some(phone)
  }

  /**
   * `stored !== sent` negated, for a column that is null or a string and a request field that
   * is absent (`undefined`) or any JSON value: only the identical value is equal, so a null
   * column equals a field sent as JSON `null`.
   */
  predicate StrictEquals(stored: Option<string>, sent: Option<Json.Value>)
    ensures sent.None? ==> !StrictEquals(stored, sent)
    ensures sent.Some? && !sent.value.Str? && !sent.value.Null? ==> !StrictEquals(stored, sent)
  {
    match stored
    case None => sent == Some(Json.Null)
    case Some(p) => sent == Some(Json.Str(p))
  }

  /**
   * A secret check that a stored secret must exist for: the intended reading of
   * `stored !== sent` as a refusal.
   */
  predicate Accepts(stored: Option<string>, sent: Option<Json.Value>)
    ensures Accepts(stored, sent) ==> StrictEquals(stored, sent)
    ensures stored.None? ==> !Accepts(stored, sent)
  {
    stored.Some? && sent == Some(Json.Str(stored.value))
  }

  /** The corrected check is the strict comparison restricted to rows that hold a secret. */
  lemma AcceptsIsStrictWithSecret(stored: Option<string>, sent: Option<Json.Value>)
    ensures Accepts(stored, sent) <==> stored.Some? && StrictEquals(stored, sent)
  {
  }

  /** A row without a secret is matched, as written, by a request that sends JSON `null`. */
  lemma NullSecretMatches()
    ensures StrictEquals(None, Some(Json.Null))
    ensures !Accepts(None, Some(Json.Null))
  {
  }

  /** `.eq('id', id)` on customers. */
  function WithId(id: string): CustomerRow -> bool
  {
    (c: CustomerRow) => c.id == id
  }

  predicate IdsDistinct(cs: seq<CustomerRow>)
  {
    forall i, j | 0 <= i < |cs| && 0 <= j < |cs| && cs[i].id == cs[j].id :: i == j
  }

  /** No two customers share a non-empty phone. */
  predicate PhonesUnique(cs: seq<CustomerRow>)
  {
    forall i, j | 0 <= i < |cs| && 0 <= j < |cs| && cs[i].phone.Some? && cs[i].phone.value != ""
                  && cs[i].phone == cs[j].phone :: i == j
  }

  predicate RefsUnique(rs: seq<Receipt>)
  {
    forall i, j | 0 <= i < |rs| && 0 <= j < |rs| && rs[i].refNumber == rs[j].refNumber :: i == j
  }

  predicate HashesUnique(rs: seq<Receipt>)
  {
    forall i, j | 0 <= i < |rs| && 0 <= j < |rs| && rs[i].imageHash.Some?
                  && rs[i].imageHash == rs[j].imageHash :: i == j
  }

  /** The order's id spells its number. */
  predicate IdSpellsNumber(o: OrderRow)
  {
    o.id == OrderId(o.orderNumber)
  }

  predicate NumbersDistinct(os: seq<OrderRow>)
  {
    forall i, j | 0 <= i < |os| && 0 <= j < |os| && os[i].orderNumber == os[j].orderNumber :: i == j
  }

  /** Every order's id spells its number, and no number is used twice. */
  predicate OrdersNumbered(os: seq<OrderRow>)
  {
    && (forall i | 0 <= i < |os| :: IdSpellsNumber(os[i]))
    && NumbersDistinct(os)
  }

  function FounderKey(f: Founder): int { f.id }

  predicate FounderIdsDistinct(fs: seq<Founder>)
  {
    forall i, j | 0 <= i < |fs| && 0 <= j < |fs| && fs[i].id == fs[j].id :: i == j
  }

  /** Founder ids come from a serial that only grows. */
  predicate FoundersSerial(fs: seq<Founder>, next: nat)
  {
    && (forall i | 0 <= i < |fs| :: fs[i].id < next)
    && FounderIdsDistinct(fs)
  }

  class Db {
    var customers: seq<CustomerRow>
    var orders: seq<OrderRow>
    var receipts: seq<Receipt>
    var submissions: seq<SubmissionRow>
    var founders: seq<Founder>
    var nextFounderId: nat
    var liveDrop: Option<Drop>
    var history: seq<HistoryRow>

    /** The uniqueness the handlers' checks are there to keep. */
    predicate Valid()
      reads this`customers, this`receipts, this`orders, this`founders, this`nextFounderId
    {
      && IdsDistinct(customers)
      && PhonesUnique(customers)
      && RefsUnique(receipts)
      && HashesUnique(receipts)
      && OrdersNumbered(orders)
      && FoundersSerial(founders, nextFounderId)
    }

    /** An empty database with the given drop setting. */
    constructor Empty(drop: Option<Drop>)
      ensures customers == [] && orders == [] && receipts == [] && submissions == []
      ensures founders == [] && history == [] && liveDrop == drop
      ensures Valid()
    {
      customers, orders, receipts, submissions := [], [], [], [];
      founders, nextFounderId, liveDrop, history := [], 0, drop, [];
    }

    /** Inserting a customer whose id is new and whose non-empty phone no customer has. */
    method AppendCustomer(c: CustomerRow)
      requires forall i | 0 <= i < |customers| :: customers[i].id != c.id
      requires c.phone.Some? && c.phone.value != "" ==> Single(customers, WithPhone(c.phone.value)).None?
      modifies this`customers
      ensures customers == old(customers) + [c]
      ensures old(Valid()) ==> Valid()
    {
      if Valid() {
        if c.phone.Some? && c.phone.value != "" {
          PhoneLookup(customers, c.phone.value);
        }
        AppendCustomerKeepsUnique(customers, c);
      }
      customers := customers + [c];
    }

    /** Inserting a founder under the next serial id, which the serial then moves past. */
    method AppendFounder(f: Founder)
      requires f.id == nextFounderId
      modifies this`founders, this`nextFounderId
      ensures founders == old(founders) + [f] && nextFounderId == old(nextFounderId) + 1
      ensures old(Valid()) ==> Valid()
    {
      AppendFounderKeepsSerial(founders, nextFounderId, f);
      founders := founders + [f];
      nextFounderId := nextFounderId + 1;
    }
  }

  /** A founder numbered from the serial is new, and the serial moves past it. */
  lemma AppendFounderKeepsSerial(fs: seq<Founder>, next: nat, f: Founder)
    requires f.id == next
    ensures FoundersSerial(fs, next) ==> FoundersSerial(fs + [f], next + 1)
  {
    if FoundersSerial(fs, next) {
      var grown := fs + [f];
      forall i, j | 0 <= i < |grown| && 0 <= j < |grown| && grown[i].id == grown[j].id
        ensures i == j
      {
        if i < |fs| {
          assert grown[i] == fs[i];
        }
        if j < |fs| {
          assert grown[j] == fs[j];
        }
      }
    }
  }

  /** Under unique phones, `.single()` by a non-empty phone finds a customer exactly when one has it. */
  lemma PhoneLookup(cs: seq<CustomerRow>, phone: string)
    requires PhonesUnique(cs) && phone != ""
    ensures Single(cs, WithPhone(phone)).Some? <==> exists i :: 0 <= i < |cs| && cs[i].phone == Some(phone)
    ensures forall i | 0 <= i < |cs| && cs[i].phone == Some(phone) :: Single(cs, WithPhone(phone)) == Some(cs[i])
  {
    assert AtMostOne(cs, WithPhone(phone));
    SingleOfUnique(cs, WithPhone(phone));
  }

  /** Appending a customer whose id is new and whose non-empty phone is new keeps the table valid. */
  lemma AppendCustomerKeepsUnique(cs: seq<CustomerRow>, c: CustomerRow)
    requires IdsDistinct(cs) && PhonesUnique(cs)
    requires forall i | 0 <= i < |cs| :: cs[i].id != c.id
    requires c.phone.Some? && c.phone.value != "" ==> forall i | 0 <= i < |cs| :: cs[i].phone != c.phone
    ensures IdsDistinct(cs + [c]) && PhonesUnique(cs + [c])
  {
  }

  /**
   * The next customer id, corrected: one past the greatest customer number. The sign-up
   * handlers as written take the id that sorts greatest as text instead, which reissues an
   * id once there are more than 999 customers (see `Numbering.AsWrittenReissuesId`).
   */
  function NextId(cs: seq<CustomerRow>): (id: string)
    ensures id !in Ids(cs)
    ensures forall i | 0 <= i < |cs| :: cs[i].id != id
    ensures cs == [] ==> id == "C001"
  {
    NextCustomerId(Ids(cs))
  }
}

=== FILE: text.dfy ===
/**
 * The string work the handlers do: digits-only phone numbers (`replace(/\D/g, '')`),
 * decimal rendering (`String(n)`), `padStart`, `parseInt`, ASCII case mapping,
 * `split(' ')[0]` and `slice(0, k)`.
 */
module Text {
  import opened Common

  predicate IsDigit(c: char) { '0' <= c <= '9' }

  predicate AllDigits(s: string) { forall i | 0 <= i < |s| :: IsDigit(s[i]) }

  /** `s.replace(/\D/g, '')`: the decimal digits of `s`, in their order. */
  function DigitsOnly(s: string): (r: string)
    ensures AllDigits(r)
    ensures |r| <= |s|
  {
    if s == [] then []
    else if IsDigit(s[0]) then [s[0]] + DigitsOnly(s[1..])
    else DigitsOnly(s[1..])
  }

  /** The digits kept are exactly the digits of the input. */
  lemma {:induction false} DigitsOnlyKeepsDigits(s: string, c: char)
    ensures c in DigitsOnly(s) <==> c in s && IsDigit(c)
  {
    if s != [] {
      DigitsOnlyKeepsDigits(s[1..], c);
      assert c in s <==> c == s[0] || c in s[1..];
    }
  }

  /** A string that is already digits-only is left as it is. */
  lemma {:induction false} DigitsOnlyOfDigits(s: string)
    requires AllDigits(s)
    ensures DigitsOnly(s) == s
  {
    if s != [] {
      DigitsOnlyOfDigits(s[1..]);
    }
  }

  /** Normalising a phone twice is the same as normalising it once. */
  lemma DigitsOnlyIdempotent(s: string)
    ensures DigitsOnly(DigitsOnly(s)) == DigitsOnly(s)
  {
    DigitsOnlyOfDigits(DigitsOnly(s));
  }

  /** Normalisation works piece by piece: it keeps every digit of both parts, in order. */
  lemma {:induction false} DigitsOnlyConcat(a: string, b: string)
    ensures DigitsOnly(a + b) == DigitsOnly(a) + DigitsOnly(b)
  {
    if a != [] {
      assert (a + b)[1..] == a[1..] + b;
      DigitsOnlyConcat(a[1..], b);
    } else {
      assert a + b == b;
    }
  }

  function DigitChar(d: nat): (c: char)
    requires d < 10
    ensures IsDigit(c)
  {
    ('0' as int + d) as char
  }

  function DigitValue(c: char): (d: nat)
    requires IsDigit(c)
    ensures d < 10 && DigitChar(d) == c
  {
    c as int - '0' as int
  }

  /** `String(n)` for a non-negative integer: its decimal digits, without leading zeros. */
  function Decimal(n: nat): (r: string)
    ensures |r| >= 1 && AllDigits(r)
    ensures r[0] == '0' ==> n == 0
    decreases n
  {
    if n < 10 then [DigitChar(n)] else Decimal(n / 10) + [DigitChar(n % 10)]
  }

  /** The number a string of decimal digits denotes (leading zeros allowed). */
  function Value(s: string): nat
    requires AllDigits(s)
  {
    if s == [] then 0 else Value(s[..|s| - 1]) * 10 + DigitValue(s[|s| - 1])
  }

  /** Reading back what `Decimal` wrote gives the number again. */
  lemma {:induction false} ValueOfDecimal(n: nat)
    ensures Value(Decimal(n)) == n
  {
    if n >= 10 {
      var s := Decimal(n);
      assert s == Decimal(n / 10) + [DigitChar(n % 10)];
      assert s[..|s| - 1] == Decimal(n / 10);
      ValueOfDecimal(n / 10);
    }
  }

  function Pow10(k: nat): (p: nat)
    ensures p >= 1
  {
    if k == 0 then 1 else 10 * Pow10(k - 1)
  }

  /** `String(n)` has at most `k` digits exactly when `n < 10^k`. */
  lemma {:induction false} DecimalLength(n: nat, k: nat)
    requires k >= 1
    ensures |Decimal(n)| <= k <==> n < Pow10(k)
    decreases n
  {
    if k == 1 {
      assert Pow10(1) == 10;
    } else {
      assert Pow10(k) == 10 * Pow10(k - 1);
      if n >= 10 {
        DecimalLength(n / 10, k - 1);
      } else {
        assert Pow10(k - 1) >= 1;
      }
    }
  }

  function Repeat(c: char, k: nat): (r: string)
    ensures |r| == k
    ensures forall i | 0 <= i < k :: r[i] == c
  {
    if k == 0 then [] else [c] + Repeat(c, k - 1)
  }

  /** `s.padStart(width, fill)`: `s` behind as many fills as make it `width` long; never cut. */
  function PadStart(s: string, width: nat, fill: char): (r: string)
    ensures |r| == Max(|s|, width)
    ensures r[|r| - |s|..] == s
    ensures forall i | 0 <= i < |r| - |s| :: r[i] == fill
  {
    if |s| >= width then s else Repeat(fill, width - |s|) + s
  }

  /** Leading zeros do not change the number a digit string denotes. */
  lemma {:induction false} ValueIgnoresLeadingZeros(z: string, s: string)
    requires forall i | 0 <= i < |z| :: z[i] == '0'
    requires AllDigits(s)
    ensures AllDigits(z + s) && Value(z + s) == Value(s)
    decreases |s| + |z|
  {
    if s == [] {
      assert z + s == z;
      if z != [] {
        var init := z[..|z| - 1];
        ValueIgnoresLeadingZeros(init, []);
        assert init + [] == init;
        assert DigitValue(z[|z| - 1]) == 0;
        assert Value(z) == Value(init) * 10 + DigitValue(z[|z| - 1]);
      }
    } else {
      var t := z + s;
      var init := s[..|s| - 1];
      assert AllDigits(init);
      assert t[..|t| - 1] == z + init;
      ValueIgnoresLeadingZeros(z, init);
      assert t[|t| - 1] == s[|s| - 1];
      assert Value(t) == Value(z + init) * 10 + DigitValue(s[|s| - 1]);
    }
  }

  /** The longest prefix of `s` made of decimal digits. */
  function LeadingDigits(s: string): (r: string)
    ensures AllDigits(r) && |r| <= |s| && r == s[..|r|]
    ensures |r| < |s| ==> !IsDigit(s[|r|])
  {
    if s != [] && IsDigit(s[0]) then [s[0]] + LeadingDigits(s[1..]) else []
  }

  /** `parseInt(s, 10)` on a string that starts with a digit; `None` is JavaScript's NaN. */
  function ParseInt(s: string): (r: Option<nat>)
    ensures r.Some? <==> s != [] && IsDigit(s[0])
  {
    var d := LeadingDigits(s);
    if d == [] then None else Some(Value(d))
  }

  /** `parseInt` reads a whole digit string. */
  lemma {:induction false} ParseIntOfDigits(s: string)
    requires AllDigits(s) && s != []
    ensures ParseInt(s) == Some(Value(s))
  {
    LeadingDigitsOfDigits(s);
  }

  lemma {:induction false} LeadingDigitsOfDigits(s: string)
    requires AllDigits(s)
    ensures LeadingDigits(s) == s
  {
    if s != [] {
      LeadingDigitsOfDigits(s[1..]);
    }
  }

  predicate IsLower(c: char) { 'a' <= c <= 'z' }
  predicate IsUpper(c: char) { 'A' <= c <= 'Z' }

  function UpperChar(c: char): (u: char)
    ensures !IsLower(u)
    ensures !IsLower(c) ==> u == c
  {
    if IsLower(c) then (c as int - 32) as char else c
  }

  function LowerChar(c: char): (l: char)
    ensures !IsUpper(l)
    ensures !IsUpper(c) ==> l == c
  {
    if IsUpper(c) then (c as int + 32) as char else c
  }

  /** `toUpperCase()` on ASCII letters: no lower-case letter is left, everything else is kept. */
  function Upper(s: string): (r: string)
    ensures |r| == |s|
    ensures forall i | 0 <= i < |s| :: !IsLower(r[i]) && (!IsLower(s[i]) ==> r[i] == s[i])
  {
    seq(|s|, i requires 0 <= i < |s| => UpperChar(s[i]))
  }

  /** `toLowerCase()` on ASCII letters: no upper-case letter is left, everything else is kept. */
  function Lower(s: string): (r: string)
    ensures |r| == |s|
    ensures forall i | 0 <= i < |s| :: !IsUpper(r[i]) && (!IsUpper(s[i]) ==> r[i] == s[i])
  {
    seq(|s|, i requires 0 <= i < |s| => LowerChar(s[i]))
  }

  /** A string with no lower-case letter is its own upper-case form. */
  lemma UpperOfUpper(s: string)
    requires forall i | 0 <= i < |s| :: !IsLower(s[i])
    ensures Upper(s) == s
  {
  }

  /** Lower-casing first does not change the upper-case form. */
  lemma UpperOfLower(s: string)
    ensures Upper(Lower(s)) == Upper(s)
  {
    forall i | 0 <= i < |s|
      ensures Upper(Lower(s))[i] == Upper(s)[i]
    {
      var c := s[i];
      if IsUpper(c) {
        assert Lower(s)[i] == (c as int + 32) as char;
      }
    }
  }

  /** `s.charAt(0).toUpperCase() + s.slice(1)`. */
  function Capitalize(s: string): (r: string)
    ensures |r| == |s|
    ensures s != [] ==> !IsLower(r[0]) && r[1..] == s[1..]
  {
    if s == [] then [] else [UpperChar(s[0])] + s[1..]
  }

  /** `s.split(' ')[0]`: everything before the first space. */
  function FirstWord(s: string): (r: string)
    ensures ' ' !in r
    ensures |r| <= |s| && r == s[..|r|]
    ensures |r| < |s| ==> s[|r|] == ' '
  {
    if s == [] || s[0] == ' ' then [] else [s[0]] + FirstWord(s[1..])
  }

  /** `s.slice(0, k)`. */
  function Take(s: string, k: nat): (r: string)
    ensures |r| == Min(|s|, k) && r == s[..|r|]
  {
    if |s| <= k then s else s[..k]
  }

  /** `s.slice(1)`, which is "" for "". */
  function Drop1(s: string): (r: string)
    ensures s != [] ==> r == s[1..]
  {
    if s == [] then s else s[1..]
  }
}
